=== FILE: README.md ===
# LabelsTG label engine in Dafny

LabelsTG prints EPL labels. An EPL template holds `<...>` keys. The engine
(`Parser`) fills each key with a value and hands the rendered body to the
printer together with a `Print` flag. A value comes from the first source
that has one, in this order:
- the primary-data file (`key: value` lines, compared without regard to case);
- the fixed keys `GS1` and `uzivatel`;
- the dynamic keys `time`, `date` (including a lot's expiry), `pocet` and `number`;
- a question to the user.

A `<sequence|start|steps|save|format:...>` key repeats the template once
per value. With `save`, it also hands back the template rewritten for the
next run.

Around the engine this model covers:
- the master-template loader, which turns a `keys:` header and data rows into one filled template per row;
- the print log, which pulls quantities and quoted fields out of a rendered body;
- the configuration file reader and the default file it writes;
- the `EplFile` record.

The model is functional. One `State` record is threaded through pure
functions. It holds:
- `continueProcessing` (`go`) and `Print` (`toPrint`);
- the answers still to come from the input channel, as a scripted list where `None` is a null answer;
- logs of the prompts, errors, infos and saved templates the engine sent out.

The fixed surroundings of a run are one `Env`. It holds the primary-data
table, the login, the current minute, and the culture's date parsing and
formatting, which are given as functions. The exceptions the model raises
(an index or a range out of bounds) are `Thrown` outcomes. A format string
the runtime rejects is not among them: the formatters are total. `Environment.NewLine` is `"\n"`.

Modules follow the program's files:

| file | module | models |
|---|---|---|
| outcomes.dfy | `Outcomes` | null, `TryParse` failures and thrown errors |
| strings.dfy | `Strings` | the .NET string operations the program uses |
| numbers.dfy | `Numbers` | `int.TryParse`, `int.ToString()`, zero-padded formats, 32-bit wrap-around |
| epl_file.dfy | `EplFiles` | Labels/EplPrikaz.cs |
| scanner.dfy | `Scanner` | comment stripping, the `<pocet>` suffix, `ReadKeys`' scan |
| tables.dfy | `Tables` | case-insensitive dictionaries filled with `Add` |
| primary_data.dfy | `PrimaryData` | `LoadPrimaryData` |
| parser_state.dfy | `ParserState` | the engine's state, `HandleInput`, the messages |
| handlers.dfy | `KeyHandlers` | `FindValue` and the key handlers |
| fill.dfy | `Filling` | `ReplaceAllKeys`, `HandleSequenceAndOtherKeys`, `FillOutTemplate`, `Process` |
| loader.dfy | `Loader` | `EplFileLoader.ReadFromFile` and `Split` |
| log.dfy | `Log` | `Log.Parse` |
| config.dfy | `Config` | `Configuration`: items, `LoadFromContent`, `Initialize`, `SetupColor`, the default file |

## Model

| member | source | states |
|---|---|---|
| `Scanner.KeepLines` | Labels/ParserCHatGPT.cs:519-520 | The kept lines are exactly the input lines whose text after leading white space does not begin with `#`. |
| `Scanner.LinesAfterStripping` | Labels/ParserCHatGPT.cs:514-524 | When a line survives, splitting the stripped text at line breaks gives back exactly the non-comment lines, in their order. |
| `Scanner.Preprocess` | Labels/ParserCHatGPT.cs:77-85 | The template becomes its comment-free text with trailing white space cut and one line break added. `<pocet>` goes before that break exactly when the text ends in `P`. |
| `Scanner.ScanFrom` | Labels/ParserCHatGPT.cs:184-201 | The scan cuts the text into gaps, keys and a rest that rebuild it exactly. Every key is an inclusive `<...>` span with no `>` before its end, and no gap holds a bracket. A clean stop leaves a rest without `<` or without `>`. An error stop leaves a rest whose first `>` comes before its next `<`. |
| `Scanner.Distinct` | Labels/ParserCHatGPT.cs:203 | The result has the same elements as the input, none repeated, ordered by first occurrence. |
| `Scanner.Keys` | Labels/ParserCHatGPT.cs:181-203 | Every key handed on is an inclusive `<...>` span. |
| `Scanner.FirstIndex` | Labels/ParserCHatGPT.cs:203 | The position found holds the element and no earlier position does. |
| `Filling.ReadKeys` | Labels/ParserCHatGPT.cs:181-204 | It returns the scanned keys, none of them empty. A well-formed template leaves the state alone. A `>` before the next `<` reports the template error and clears both `continueProcessing` and `Print`. |
| `PrimaryData.EntriesFromLines` | Labels/ParserCHatGPT.cs:37-46 | An entry is read exactly when some line not starting with `#`, whose first `:` is past position 0, holds it with trimmed key and value. |
| `PrimaryData.Load` | Labels/ParserCHatGPT.cs:30-33 | Empty content gives an empty table and no duplicate. |
| `PrimaryData.LoadFromLines` | Labels/ParserCHatGPT.cs:37-46 | Every key the table holds comes from an entry line of the content, with that line's trimmed value. |
| `PrimaryData.LoadFindsEveryEntry` | Labels/ParserCHatGPT.cs:30-55 | With no key repeated, loading runs to the end. Every entry is then found, under any letter case of its key, with its trimmed value. |
| `Tables.AddAll` | Labels/ParserCHatGPT.cs:38-47 | Loading never drops or changes a key the table already held. |
| `Tables.AddAllFrom` | Labels/ParserCHatGPT.cs:38-45 | Every key loading adds comes from one of the entries and holds that entry's value. |
| `Tables.AddAllComplete` | Labels/ParserCHatGPT.cs:38-47 | When keys are pairwise different in folded form and new to the table, loading finishes and holds every entry. |
| `Tables.AddAllStops` | Labels/ParserCHatGPT.cs:45-52 | A key repeated first at entry `n` stops loading there. The repeated key is reported and the entries before it stay loaded. |
| `Tables.AddAllNoDuplicate` | Labels/ParserCHatGPT.cs:38-47 | Loading reports no duplicate only when no key repeats. This is the converse of `AddAllComplete`. |
| `Tables.Lookup` | Labels/ParserCHatGPT.cs:210 | A key is found exactly when its folded form is stored, and it then yields the stored value. |
| `Tables.LookupIgnoresCase` | Labels/ParserCHatGPT.cs:32 | Two spellings that differ only in letter case find the same value. |
| `ParserState.Ask` | Labels/ParserCHatGPT.cs:240-262 | One prompt is sent and one answer is used up. The read is cancelled exactly when the answer is null, empty or "0", and cancelling clears both flags. Any other answer is returned unchanged and leaves the flags alone. Nothing is reported or saved. |
| `ParserState.AskReadsBack` | Labels/ParserCHatGPT.cs:240-262 | An answer that does not cancel comes back unchanged. The only other effect is the one prompt and the one answer used. |
| `ParserState.AskInt` | Labels/ParserCHatGPT.cs:263-269 | The value is a 32-bit number. A cancelled read gives 0. Otherwise the value is what `int.TryParse` reads, or 0 without cancelling. |
| `ParserState.AskIntAnswered` | Labels/ParserCHatGPT.cs:263-269 | An answer that does not cancel gives its parsed number, or 0. The only other effects are one prompt and one answer used. |
| `ParserState.AskIntReadsBack` | Labels/ParserCHatGPT.cs:265-266 | A non-zero number written in decimal is read back as itself, and the run goes on. |
| `ParserState.AskText` | Labels/ParserCHatGPT.cs:277-280 | The text is empty exactly when the read was cancelled. Otherwise it is the answer. |
| `ParserState.AskTextReadsBack` | Labels/ParserCHatGPT.cs:277-280 | An answer other than "" and "0" is returned as given, and the run goes on. |
| `ParserState.AskDate` | Labels/ParserCHatGPT.cs:270-276 | A cancelled read or an unparsable answer gives `default(DateTime)`. Otherwise the value is the parsed date. |
| `ParserState.AskDateReadsBack` | Labels/ParserCHatGPT.cs:270-274 | An answer the date parser accepts is read back as that date, and the run goes on. |
| `ParserState.FollowsTrans` | Labels/ParserCHatGPT.cs:240-262 | Across two steps the flags still only fall and the logs only grow. Each prompt still uses up exactly one answer. |
| `ParserState.FollowsFromStart` | Labels/ParserCHatGPT.cs:67-73 | A state reached from the start has used up exactly as many answers as it sent prompts. |
| `KeyHandlers.Render` | Labels/ParserCHatGPT.cs:495 | An empty format gives plain decimal. An all-zero format gives at least as many characters as the format has. |
| `KeyHandlers.RenderReadsBack` | Labels/ParserCHatGPT.cs:492-501 | A number written plainly or zero-padded reads back as itself with `int.TryParse`. |
| `KeyHandlers.ClockAfter` | Labels/ParserCHatGPT.cs:338 | Shifting the clock succeeds exactly when the shifted minute lies within the range of `DateTime`, and then gives its `H:mm` text. Otherwise it throws `ArgumentOutOfRange`. The state is unchanged either way. |
| `KeyHandlers.TimeKey` | Labels/ParserCHatGPT.cs:325-342 | With no `+` the key gives the current time. A number after `+` shifts the time without asking. Anything else asks for the minutes, offering 30, and uses 0 when the answer is cancelled or not a number. At most one prompt is sent, and nothing is reported or saved. |
| `KeyHandlers.TimeKeyWritten` | Labels/ParserCHatGPT.cs:337-338 | `<time+n>` gives the clock shifted by `n` minutes, without a prompt. |
| `KeyHandlers.FormatHasColon` | Labels/ParserCHatGPT.cs:353-354 | A key that holds `format:` in any case holds a `:`, so the format slice is defined. |
| `KeyHandlers.DateKey` | Labels/ParserCHatGPT.cs:344-367 | With no `+` the key gives today in the key's format, or in `dd.MM.yyyy`. With a `+` its parts, without a trailing `format:` part, decide the value. No error is reported. |
| `KeyHandlers.DriftDate` | Labels/ParserCHatGPT.cs:369-411 | A missing second part throws `IndexOutOfRange`. `exp` gives "expirace". Days outside the range of `DateTime` throw `ArgumentOutOfRange`. Two parts give the shifted date, three give the lot rule, and anything else gives "". |
| `KeyHandlers.DateKeyWritten` | Labels/ParserCHatGPT.cs:358-380 | `<date+n>` gives the date `n` days from now in `dd.MM.yyyy`, without a prompt. |
| `KeyHandlers.DatePartsWritten` | Labels/ParserCHatGPT.cs:363-367 | The parts of `<date+digits>` are `date` and the digits. |
| `KeyHandlers.LotExpiration` | Labels/ParserCHatGPT.cs:413-442 | A lot of "" or "0" stops the run without clearing `Print` and gives the latest date. A lot that parses as a date gives that date without asking. Otherwise a non-empty date stored under the lot in the primary data is used, again without asking. Failing both, the user is asked "Zadej expiraci: ", offered "31.12.9999", and the answer is read as a date. |
| `KeyHandlers.LotFromLoadedEntry` | Labels/ParserCHatGPT.cs:434-438 | A lot whose entry a loaded primary-data file holds, in any letter case, with a parsable date, resolves to that date without a prompt. |
| `KeyHandlers.LotAskedCancelled` | Labels/ParserCHatGPT.cs:440-441 | When neither the lot nor the primary data gives a date, a cancelled answer yields `default(DateTime)`. The lot is then reported as expired, and the run and the printing stop. |
| `KeyHandlers.Earlier` | Labels/ParserCHatGPT.cs:405 | The result is one of the two dates and lies on or before both. |
| `KeyHandlers.LotDate` | Labels/ParserCHatGPT.cs:383-407 | The lot branch always finishes and asks at most once. Its value is the notice rule applied to the lot's expiry. |
| `KeyHandlers.LotNotice` | Labels/ParserCHatGPT.cs:388-406 | An expiry before today gives "" and the past-expiry notice, and clears both flags. An expiry within a month adds the short-expiry notice. Otherwise the state is unchanged. Whenever the lot is not expired, the value is the earlier of the bottle date and the expiry, formatted. |
| `KeyHandlers.Capped` | Labels/ParserCHatGPT.cs:462 | The result is at most 50, and it equals the quantity exactly when the quantity is at most 50. |
| `KeyHandlers.PocetKey` | Labels/ParserCHatGPT.cs:444-464 | One prompt is sent, offering the number after `|` or "1". A cancelled answer gives "0" and clears both flags. Any other answer gives its parsed number capped at 50, or 0 when it is not a number, and keeps the flags. The text always reads back as a number of at most 50. |
| `KeyHandlers.QuantityOfferedWritten` | Labels/ParserCHatGPT.cs:452-459 | `<pocet|n>` offers `n` as the default answer. |
| `KeyHandlers.PocetReadsBack` | Labels/ParserCHatGPT.cs:457-463 | Answering with a non-zero number prints that number capped at 50, and the run goes on. |
| `KeyHandlers.NumberKey` | Labels/ParserCHatGPT.cs:466-503 | A key with fewer than two parts reports the format error and gives "" without stopping the run. A number in the text part is rendered without asking. Any other text is asked for by name. |
| `KeyHandlers.NumberValue` | Labels/ParserCHatGPT.cs:492-502 | A numeric text part leaves the state alone. Any other text sends exactly the one prompt `Zadej <text>: `. |
| `KeyHandlers.NumberKeyReadsBack` | Labels/ParserCHatGPT.cs:483-502 | With no format or a zero format, the printed number reads back as the number in the key. Failing that it reads back as the number answered, or 0. |
| `KeyHandlers.DefaultKey` | Labels/ParserCHatGPT.cs:504-513 | The key is asked for by its name without brackets, offering nothing. The value is the answer, or "" when the answer cancels. |
| `KeyHandlers.DefaultKeyEmptyStops` | Labels/ParserCHatGPT.cs:504-513 | While the run goes on, the value is empty exactly when the answer stopped the run. |
| `KeyHandlers.NotInPrimary` | Labels/ParserCHatGPT.cs:218-239 | Rules are tried in this order: `<GS1>` or `<gs1>` give U+001D, and `<uzivatel>` gives the user when login is on. Then come the `time`, `date`, `pocet` and `number` prefixes in any case. Otherwise the key is asked for by name. |
| `KeyHandlers.FindValue` | Labels/ParserCHatGPT.cs:206-216 | Resolving one key sends at most one prompt and saves nothing. |
| `KeyHandlers.PrimaryFirst` | Labels/ParserCHatGPT.cs:206-216 | A key stored in the primary data gets the stored value before any rule runs, and the state is unchanged. |
| `KeyHandlers.AskedByNameOnce` | Labels/ParserCHatGPT.cs:218-239 | A key that is neither stored nor matched by a rule sends exactly one prompt, naming the key. When the answer does not cancel, the key gets that answer. |
| `KeyHandlers.FindsLoadedEntry` | Labels/ParserCHatGPT.cs:30-55 | With the table built from the primary-data file, a key naming one of its entries, in any case, gets that entry's value without a prompt. |
| `Filling.ReplaceAllKeys` | Labels/ParserCHatGPT.cs:170-179 | Across all keys the flags only fall and the logs only grow. At most one prompt is sent per key, and nothing is saved. |
| `Filling.ReplaceAllStopped` | Labels/ParserCHatGPT.cs:172-176 | Once the run has stopped, every key is replaced by "" and the state is unchanged: no prompt, report or save. |
| `Filling.ReplaceAllAnswered` | Labels/ParserCHatGPT.cs:170-179 | Keys that are neither stored nor matched by a rule are each asked for once, in order. Every occurrence of a key gets the one answer given for it. |
| `Filling.ReplaceAllFromTable` | Labels/ParserCHatGPT.cs:170-179 | When every key is stored, each is replaced by its stored value, nothing is asked, and the state is unchanged. |
| `Filling.FormatOf` | Labels/ParserCHatGPT.cs:129-135 | With no `format:` part the format is empty. A last part that is a `format:` part gives the text after `format:`, so the last such part wins. |
| `Filling.Kept` | Labels/ParserCHatGPT.cs:141-145 | The saved key keeps exactly the `save` and `format:` extra parts. |
| `Filling.KeptInOrder` | Labels/ParserCHatGPT.cs:141-145 | Keeping works part by part: one part is kept exactly when it is a `save` or `format:` part. Kept runs follow each other, so the key's order is preserved. |
| `Filling.CopiesSplit` | Labels/ParserCHatGPT.cs:157-164 | The texts for `m + n` values are the texts for the first `m` values followed by the texts for the next `n`. |
| `Filling.BlocksSplit` | Labels/ParserCHatGPT.cs:152-164 | The template copies for `m + n` sequence values are the copies for the first `m` values followed by the copies for the next `n`. |
| `Filling.Without` | Labels/ParserCHatGPT.cs:166 | The remaining keys are exactly the keys other than the sequence key. |
| `Filling.SequenceKey` | Labels/ParserCHatGPT.cs:110-117 | A key with fewer than 3 or more than 5 parts gives "", reports one format error and stops the run. `Print` is kept and no prompt is sent. In every case at most one template is saved. |
| `Filling.SequenceRun` | Labels/ParserCHatGPT.cs:119-122 | At most two prompts are sent before the copies, and at most one template is saved. |
| `Filling.SaveKey` | Labels/ParserCHatGPT.cs:137-149 | With `save` among the extra parts, exactly one template is saved. It is the stored template with the sequence key replaced by the key for the next run. Without `save` nothing is saved, and nothing else in the state changes. |
| `Filling.SequenceBody` | Labels/ParserCHatGPT.cs:137-167 | The template is saved before the range is checked. A range that does not fit throws `ArgumentOutOfRange`. |
| `Filling.SequenceStartCancelled` | Labels/ParserCHatGPT.cs:119-120 | A cancelled start gives "" after one prompt and clears both flags. Nothing is saved or reported. |
| `Filling.SequenceStepsCancelled` | Labels/ParserCHatGPT.cs:121-122 | A cancelled step count gives "" after two prompts and clears both flags. Nothing is saved or reported. |
| `Filling.SequenceExpands` | Labels/ParserCHatGPT.cs:102-168 | After both answers the template is saved if asked for. Then either the range throws, or the result is one copy per value from start to start + steps - 1, each with the sequence key replaced by the formatted value and a line break. The other keys are filled once over the whole text. |
| `Filling.SequenceAnswered` | Labels/ParserCHatGPT.cs:119-122 | With two answers that do not cancel, the sequence continues with the two numbers read and two prompts sent. |
| `Filling.FirstSequenceKey` | Labels/ParserCHatGPT.cs:90 | The key found is the first key that starts with `<sequence|` in any case. There is none exactly when no key does. |
| `Filling.Fill` | Labels/ParserCHatGPT.cs:75-100 | Filling a template only lowers the flags, uses one answer per prompt, and saves at most once. |
| `Filling.FillKeys` | Labels/ParserCHatGPT.cs:89-99 | Filling the keys read only lowers the flags, uses one answer per prompt, and saves at most once. |
| `Filling.Process` | Labels/ParserCHatGPT.cs:67-73 | Key, address and template stay the same, and `Print` ends as the run left it. The body is set when nothing escaped and left as it was when an exception escaped. |
| `Filling.ProcessWithoutKeys` | Labels/ParserCHatGPT.cs:67-100 | A template with no `<` after preprocessing becomes the preprocessed template, printable. Nothing is asked, reported or saved. |
| `Filling.ProcessFollows` | Labels/ParserCHatGPT.cs:67-73 | Over a whole run the flags only fall and each prompt uses up exactly one answer. The template is saved at most once. |
| `Numbers.Wrap32` | Labels/ParserCHatGPT.cs:140 | The unchecked sum lies in the 32-bit range, agrees with the true sum modulo 2^32, and is the true sum whenever that fits. |
| `Numbers.ParseInt` | Labels/ParserCHatGPT.cs:265 | A successful `int.TryParse` yields a 32-bit number. |
| `Numbers.ParseIgnoresNuls` | Labels/ParserCHatGPT.cs:265 | NUL characters after a number do not change what `int.TryParse` reads. |
| `Numbers.DecimalShape` | Labels/ParserCHatGPT.cs:463 | `n.ToString()` is a sign and digits ending in a digit. It is "0" exactly for 0. |
| `Numbers.ParseDecimal` | Labels/ParserCHatGPT.cs:463 | `int.TryParse(n.ToString())` gives `n` back for every 32-bit `n`. |
| `Numbers.ParseZeroPadded` | Labels/ParserCHatGPT.cs:495 | A zero-padded rendering reads back as the number. |
| `Strings.IndexOfFirst` | Labels/ParserCHatGPT.cs:184-185 | `IndexOf` returns -1 only when the character is absent, and otherwise finds its first occurrence. |
| `Strings.LastIndexOfLast` | Labels/Log.cs:34 | `LastIndexOf` returns -1 only when the character is absent, and otherwise finds its last occurrence. |
| `Strings.ReplaceHit` | Labels/ParserCHatGPT.cs:175 | An occurrence at the front is replaced, and the scan resumes after it. |
| `Strings.ReplaceAbsent` | Labels/ParserCHatGPT.cs:175 | Replacing a text that does not occur changes nothing. |
| `Strings.SplitJoin` | Labels/ParserCHatGPT.cs:517-523 | Splitting a join of separator-free pieces gives the pieces back. |
| `Strings.JoinSplit` | Labels/ParserCHatGPT.cs:517-523 | Joining the pieces of a split with the separator rebuilds the text. |
| `EplFiles.NewEplFile` | Labels/EplPrikaz.cs:8-15 | A new file has the given key, address and template, `Print` set, and no body yet. |
| `EplFiles.Copy` | Labels/EplPrikaz.cs:42-45 | A copy keeps key, address and template, has `Print` set and no body, and equals the original. |
| `EplFiles.CopyOfNew` | Labels/EplPrikaz.cs:42-45 | Copying a new file gives that file, and copying twice is the same as copying once. |
| `EplFiles.EqualsByKeyAlone` | Labels/EplPrikaz.cs:23-30 | Files with the same key are equal to each other and to the same objects, whatever their other fields. No file equals null or an object of another type. |
| `EplFiles.EqualsIsEquivalence` | Labels/EplPrikaz.cs:23-30 | Equality between files is reflexive, symmetric and transitive. |
| `EplFiles.ToStringIdentifies` | Labels/EplPrikaz.cs:37-40 | Two files print alike exactly when they are equal. |
| `EplFiles.EqualFilesHashAlike` | Labels/EplPrikaz.cs:32-35 | Equal files have equal hash codes, whatever the string hash. |
| `Loader.TokensOfBlank` | Labels/EplFileLoader.cs:84-92 | Text made only of white space has no tokens. |
| `Loader.SplitWords` | Labels/EplFileLoader.cs:81-94 | On text without `"`, `Split` gives exactly the maximal runs of non-white characters, in order. |
| `Loader.QuotedToken` | Labels/EplFileLoader.cs:84-91 | A `"..."` segment with white space or the text's ends around it and no quote inside is one token, with the quotes removed. |
| `Loader.MatchAtQuote` | Labels/EplFileLoader.cs:84-87 | At such a segment the match covers the quoted text and resumes after the closing quote. |
| `Loader.TrimQuotes` | Labels/EplFileLoader.cs:91 | Trimming quotes from a quoted text without inner quotes gives the text. |
| `Loader.Substitute` | Labels/EplFileLoader.cs:61-67 | With non-empty keys, each key in turn is replaced by its value. An empty key fails, as `Replace` throws on one. |
| `Loader.ReadLines` | Labels/EplFileLoader.cs:46-72 | A successful read makes at most one file per line. Every file has no address, `Print` set, and no body. |
| `Loader.Filter` | Labels/EplFileLoader.cs:78 | The files kept are exactly those whose key contains the searched text without regard to case. |
| `Loader.FilterAppend` | Labels/EplFileLoader.cs:78 | The filter works piece by piece, so the files keep their order. |
| `Loader.ReadFromFile` | Labels/EplFileLoader.cs:32-80 | An empty data or template path gives no files. The read fails exactly when a row fails. Otherwise a blank search returns exactly the files the rows built, in order. A non-blank search returns those files filtered by key, and a file comes back exactly when it was built and its key contains the search text. |
| `Loader.SkippedLineIsInert` | Labels/EplFileLoader.cs:48 | An empty line, or one starting with `;`, `─` or `#`, anywhere changes neither the files nor the keys in force. |
| `Loader.KeysLineResets` | Labels/EplFileLoader.cs:50-54 | A `keys` line replaces the key list with the tokens after its first `:`, whatever was in force before. |
| `Loader.RowYieldsFile` | Labels/EplFileLoader.cs:58-68 | A row with as many tokens as keys yields one file named after its first token. It has no address, and its template has each key replaced by its token in key order. |
| `Loader.MismatchedRowIsDropped` | Labels/EplFileLoader.cs:59 | A row whose token count differs from the key count yields nothing. |
| `Loader.BlankRowBeforeKeys` | Labels/EplFileLoader.cs:58-68 | A row of spaces before any `keys` line has no `values[0]`, and the read fails. |
| `Log.LinePiece` | Labels/Log.cs:27-30 | A print command contributes its trimmed text after `P`, then a line break. Only a line that is not a print command can throw. |
| `Log.QuotedLine` | Labels/Log.cs:31-36 | A line that is not a print command adds nothing exactly when it has no `"`. It throws exactly when it has one `"`. Otherwise it adds the text between its first and last `"`, then a tab. |
| `Log.QuotePieceShapes` | Labels/Log.cs:31-36 | The quote branch adds nothing, throws, or adds the text between the outer quotes, according to how many quotes the line has. |
| `Log.OnlyQuoteFound` | Labels/Log.cs:33-34 | A quote that stands alone is found both first and last. |
| `Log.QuotesAround` | Labels/Log.cs:33-34 | The first quote comes at or before the last. They coincide exactly when the line has one quote. |
| `Log.GatherFails` | Labels/Log.cs:25-37 | The loop throws exactly when some line's piece throws. |
| `Log.GatherThrows` | Labels/Log.cs:25-37 | The loop throws exactly when some line is not a print command and has exactly one `"`. |
| `Log.GatherSkips` | Labels/Log.cs:25-37 | A line that adds nothing can be dropped from anywhere in the body. |
| `Log.GatherAppend` | Labels/Log.cs:25-37 | The log text of two runs of lines is the first run's text followed by the second's. |
| `Log.Stamped` | Labels/Log.cs:40-43 | Output line `i` is the clock's `i`-th reading, a tab, then the piece. The clock is read once per line. |
| `Log.Parse` | Labels/Log.cs:22-45 | Parsing throws exactly when the loop over the body's lines throws. |
| `Log.ParseFails` | Labels/Log.cs:22-45 | Parsing throws exactly when a line of the body is not a print command and has exactly one `"`. |
| `Log.StampRoundTrip` | Labels/Log.cs:38-44 | When no clock reading has a line break, the output splits into one stamped line per piece of the text with its trailing line breaks cut. Removing each line's own stamp and joining rebuilds that text, whatever the readings' widths. |
| `Log.PrintsOnly` | Labels/Log.cs:25-30 | A body made only of print commands never throws. Its log text is each command's quantity followed by a line break. |
| `Config.NameIndex` | Labels/konfigurace.cs:261 | The position found holds the name and no earlier one does. It is -1 exactly when no colour has that name. |
| `Config.ParseColor` | Labels/konfigurace.cs:261 | Text that is not a number, when recognised, gives one of the 16 colours. |
| `Config.SetupColor` | Labels/konfigurace.cs:259-264 | The result is the colour the text names, or the fallback when it names none. |
| `Config.ColorIgnoresCase` | Labels/konfigurace.cs:261 | Colour names that differ only in letter case give the same colour. |
| `Config.ColorFallsBack` | Labels/konfigurace.cs:261-263 | Text that is neither a number nor a colour name gives the fallback. |
| `Config.GreenIsRead` | Labels/konfigurace.cs:92 | The default file's colour text "Green" is read as the colour Green. |
| `Config.Initialize` | Labels/konfigurace.cs:221-241 | A printer type from 0 to 3 is kept, and any other becomes 3. The description always belongs to the type kept. |
| `Config.InitializeIdempotent` | Labels/konfigurace.cs:221-241 | Normalising a normalised printer type changes nothing. |
| `Config.Convert` | Labels/konfigurace.cs:294-301 | Text settings take the text as it is. Number settings convert exactly when the text is a 32-bit number. Flag settings convert exactly when the text, trimmed of white space and NUL at both ends, is `true` or `false` in any case, and then to that flag. Colours always convert. |
| `Config.Step` | Labels/konfigurace.cs:290-303 | An item's value throws exactly when the table holds a value for it that does not convert. An item the table does not name keeps the settings. A named item gets its converted value. |
| `Config.Apply` | Labels/konfigurace.cs:284-309 | A failing loop over the items fails with `InvalidOperationException`. |
| `Config.ApplyFails` | Labels/konfigurace.cs:284-309 | The loop over the items throws exactly when some item's value does not convert. |
| `Config.ApplyKeeps` | Labels/konfigurace.cs:291 | A setting that no item finds a value for keeps its value. |
| `Config.ApplySets` | Labels/konfigurace.cs:291-302 | An item the table names, with no later item sharing its key, ends up holding its converted value. |
| `Config.ApplyFailsPartway` | Labels/konfigurace.cs:284-309 | A failed loop leaves the settings exactly as the items before the failing one made them. |
| `Config.LoadFromContent` | Labels/konfigurace.cs:265-270 | The load throws `ArgumentException` exactly when the content is null or white space, and the settings are then untouched. |
| `Config.RepeatedKeyFails` | Labels/konfigurace.cs:278-281 | Two setting lines whose keys differ only in case make the load throw before any setting changes. |
| `Config.LoadedTable` | Labels/konfigurace.cs:275-281 | Past both checks the table holds exactly the entries of the non-empty lines that do not start with `#` and have a `:`. Each holds its trimmed key and value. |
| `Config.LoadKeepsUnnamed` | Labels/konfigurace.cs:284-304 | A successful load leaves every setting the content does not name as it was. |
| `Config.LoadSetsNamed` | Labels/konfigurace.cs:284-304 | A successful load gives an item named in the content, in any case, the converted value of its line. |
| `Config.LoadFailsOnValue` | Labels/konfigurace.cs:300-309 | Past the blank and duplicate checks, the load throws exactly when some named value does not convert. |
| `Config.KeyLineEntry` | Labels/konfigurace.cs:279-281 | A `key:value` line written with a plain key reads back as that key and value. |
| `Config.ItemLinesEntry` | Labels/konfigurace.cs:194-201 | An item's comment line and key line read back as exactly one setting: its key and default. |
| `Config.DefaultEntries` | Labels/konfigurace.cs:192-202 | The settings read from a default file are exactly each item's key and default, in item order. |
| `Config.DefaultLinesPlain` | Labels/konfigurace.cs:192-202 | Every line of a default file is non-empty and free of line breaks. |
| `Config.LinesRoundTrip` | Labels/konfigurace.cs:203 | Non-empty lines without breaks, written each with a newline, read back as the same lines. |
| `Config.DefaultFileLines` | Labels/konfigurace.cs:186-211 | The lines read from a default file are the lines written. |
| `Config.DefaultFileNotBlank` | Labels/konfigurace.cs:192-203 | A default file is never blank, so reading it passes the blank check. |
| `Config.DefaultFileTable` | Labels/konfigurace.cs:275-281 | The table read from a default file of well-formed items holds each key's default, with no duplicate. |
| `Config.DefaultFileRoundTrip` | Labels/konfigurace.cs:265-310 | Reading a default file of well-formed items succeeds and gives every item its converted default. |
| `Config.ItemsWellFormed` | Labels/konfigurace.cs:69-93 | For a trimmed configuration directory without line breaks, the program's twelve items are well formed. Their keys are plain and pairwise different in any case, and their defaults convert. |
| `Config.KeysApart` | Labels/konfigurace.cs:71-92 | No two item keys differ only in letter case. |
| `Config.ItemIsPlain` | Labels/konfigurace.cs:71-92 | Each of the twelve items has a plain key and a convertible, trimmed, one-line default. |
| `Config.ConfigFileRoundTrip` | Labels/konfigurace.cs:186-211 | The default file the program writes reads back into every item's default value. |

## Left out

- `Strings.Fold`: case-insensitive comparison folds ASCII letters only. `OrdinalIgnoreCase`, used at Labels/ParserCHatGPT.cs:32, 90, 131-143, 226-235, 353, 366 and 487, folds all of Unicode, so keys like "Šarže" and "šarže" match in the program and not in the model. Modelling Unicode case tables was judged out of scale.
- `Strings.SameText`: `OrdinalIgnoreCase` equality with ASCII folding only, for the reason given under `Strings.Fold`.
- `Strings.StartsWithText`: `OrdinalIgnoreCase` `StartsWith` with ASCII folding only, for the same reason.
- `Strings.ContainsText`: `IgnoreCase` `Contains` with ASCII folding only, for the same reason.
- `Tables.Lookup`: the primary-data and configuration dictionaries compare keys with ASCII folding only, for the same reason.
- `Loader.Filter`: `Contains(..., CurrentCultureIgnoreCase)` (Labels/EplFileLoader.cs:78) is ASCII folding. Culture collation, which ignores some characters and matches some others, is not modelled.
- `Scanner.IsCommentLine`: culture-sensitive `StartsWith("#")` (Labels/ParserCHatGPT.cs:520) is an ordinal prefix test. A line that begins with characters the culture ignores is not treated as a comment here.
- `Log.IsPrint`: culture-sensitive `StartsWith("P")` (Labels/Log.cs:27) is an ordinal prefix test, for the same reason.
- `Loader.IsKeysLine`: culture-sensitive `StartsWith("keys")` (Labels/EplFileLoader.cs:50) is an ordinal prefix test, for the same reason.
- `Config.ParseColor`: `Enum.TryParse` also accepts comma-separated lists of names (Labels/konfigurace.cs:261). The model reads one name, or one number.
- `ParserState.Env`: the wall clock is given as whole minutes, so seconds are dropped. Date parsing (`DateTime.TryParse`), date formatting, and non-zero custom number formats are functions supplied from outside, not modelled culture rules. `DateTime.Today.AddMonths(1)` is a given instant too. The date and number formatters are total: the `FormatException` that `DateTime.ToString(format)` and `int.ToString(format)` throw for an invalid pattern (Labels/ParserCHatGPT.cs:160, 360, 380, 406, 495, 501) is not modelled, so a key such as `<date|format:q>` renders instead of ending the run with an exception.
- `KeyHandlers.DateFormat`: the first `:` is found by ordinal search. The source's `key.IndexOf(":")` is culture-sensitive, and it can differ when a combining mark follows the `:`.
- `KeyHandlers.DriftDate`: the bottle date is computed from the current minute, as the program does (Labels/ParserCHatGPT.cs:376). `AddDays` is exact because the days are whole numbers.
- `KeyHandlers.Render`: formats other than the empty one and all-zero patterns go to the supplied number formatter.
- `Loader.ReadFromFile`: the file reads are replaced by the data file's lines and the template's text as inputs. A caught exception (an empty key, or a row with no `values[0]`) is returned as `Failure`. The program instead hands it to `ErrorHandler.HandleError`, which shows a dialog and calls `Environment.Exit(1)` (Labels/ErrorHandler.cs:16).
- `Log.Parse`: `DateTime.Now` becomes the `clock` parameter, which gives the text of each reading (one per output line), and `Log.Write`'s file append is not modelled. The exception for a line with a single `"` is returned as `Failure`.
- `PrimaryData.Load`: a repeated key stops loading and is returned as `duplicate`. The program's `OnError` message at Labels/ParserCHatGPT.cs:51 is not sent into the engine's state, because the table is loaded before any run starts.
- `Config.ItemsWellFormed`: that the twelve item descriptions contain no line break is taken as a premise (`OneLineDescriptions`) rather than computed. The long literal descriptions are too costly for the verifier to scan character by character.
- `EplFile.CompareTo` (Labels/EplPrikaz.cs:17-21) is not modelled. It is culture-sensitive string comparison and is used only for sorting in the UI.
- `EplFiles.HashCode`: `string.GetHashCode` is randomised per process, so it is a parameter.
- `HandleInput`'s `InvalidOperationException` for an unsupported type (Labels/ParserCHatGPT.cs:283) cannot happen. The engine only asks for `int`, `string` and `DateTime`.
- The `CurrentEplFile == null` branches of the handlers cannot happen, because `Process` always sets it first, so they are left out.
- `Enumerable.Range` throws for negative steps or for a last value past `int.MaxValue`. This is modelled as `RangeFits`, with `ArgumentOutOfRange` escaping.
- `Environment.NewLine` is fixed to `"\n"`.
- The reflection over `ConfigItems` and the getter and setter closures of `ConfigItem` are replaced by a map from item key to typed value. `Configuration.Load`, `LoadConfigFile`, the file write in `CreateDefaultConfigFile`, and its error path are not modelled, because they are file I/O.
- `EplFileLoader.LoadFiles` and `LoadSettings` are not modelled, because they are directory and file I/O.
- The user interface and process control (Controller.cs, View.cs, Program.cs) are not modelled. Printer dispatch and file operations (Model.cs) are not modelled either. There, only bodies whose `Print` flag is set are sent to the printer (Model.cs:60).
- Commented-out code (Labels/ParserCHatGPT.cs:288-323, Labels/InputRequestEventArgs.cs:19-63) is not modelled.

=== FILE: config.dfy ===
/** The configuration file: `key: value` lines read into the program's
    settings, the printer type's normalisation, the colour setting, and the
    lines of a freshly written default file. Settings are a map from item
    key to a typed value; reading and writing the file itself is not part
    of this model. */
module Config {
  import opened Outcomes
  import opened Strings
  import opened Numbers
  import opened Tables

  /** The type of value a setting holds. */
  datatype Kind = TextKind | NumberKind | FlagKind | ColorKind

  datatype Value = Text(text: string) | Number(number: int) | Flag(flag: bool) | Color(color: int)

  /** A `ConfigItem`: its key, the text a default file gives it, the
      comment written above it, and the type of its value. */
  datatype Item = Item(key: string, defaultValue: string, description: string, kind: Kind)

  /** The value of each setting, under its item's key. */
  type Settings = map<string, Value>

  /** `ConfigItems`, in order. `configPath` is the per-user configuration
      directory, the default of the template directory. */
  function Items(configPath: string): seq<Item> {
    [ IPTiskarny, TypTiskarny, Adresar(configPath), HledanyText, JedenSoubor, Kodovani,
      Prihlasit, Data, HlavniSablona, HlavniSablonaData, Logsoubor, Barva ]
  }

  const IPTiskarny: Item := Item("IPTiskarny", "", IPTiskarnyNote, TextKind)
  const TypTiskarny: Item := Item("TypTiskarny", "3", TypTiskarnyNote, NumberKind)
  function Adresar(configPath: string): Item { Item("Adresar", configPath, AdresarNote, TextKind) }
  const HledanyText: Item := Item("HledanyText", "", HledanyTextNote, TextKind)
  const JedenSoubor: Item := Item("JedenSoubor", "false", JedenSouborNote, FlagKind)
  const Kodovani: Item := Item("Kodovani", "UTF-8", KodovaniNote, TextKind)
  const Prihlasit: Item := Item("Prihlasit", "false", PrihlasitNote, FlagKind)
  const Data: Item := Item("Data", "", DataNote, TextKind)
  const HlavniSablona: Item := Item("HlavniSablona", "", HlavniSablonaNote, TextKind)
  const HlavniSablonaData: Item := Item("HlavniSablonaData", "", HlavniSablonaDataNote, TextKind)
  const Logsoubor: Item := Item("Logsoubor", "", LogsouborNote, TextKind)
  const Barva: Item := Item("Barva", "Green", BarvaNote, ColorKind)

  /** The comments of the items, each written above its key line. */
  const IPTiskarnyNote: string := "IP adresa nebo jmeno tiskarny"
  const TypTiskarnyNote: string := "typ tiskarny 0 - sdilena, 1 - mistni, 2 - sitova, 3 - výstup na obrazovku"
  const AdresarNote: string := "adresar souboru s epl prikazy"
  const HledanyTextNote: string := "text ktery se hleda v nazvu souboru"
  const JedenSouborNote: string := "jestli se ma tisknout jenom jeden soubor"
  const KodovaniNote: string := "kodovani ulozenych souboru (UTF-8 nebo windows-1250)"
  const PrihlasitNote: string := "zda vyzadovat login"
  const DataNote: string := "adresa souboru s primarnimi daty"
  const HlavniSablonaNote: string := "adresa sablony pro tisk v modu jedne sablony"
  const HlavniSablonaDataNote: string := "adresa souboru se vstupnimi daty pro tisk pomoci hlavni sablony"
  const LogsouborNote: string := "umisteni logovaciho souboru"
  const BarvaNote: string := "nastaveni barevneho zvyrazneni (gray, blue, vychozi = zelena)"

  /** The names of `Terminal.Gui.Color`, folded to lower case, in the order
      of their values 0 to 15. */
  const ColorNames: seq<string> := [
    "black", "blue", "green", "cyan", "red", "magenta", "brown", "gray",
    "darkgray", "brightblue", "brightgreen", "brightcyan", "brightred",
    "brightmagenta", "brightyellow", "white"]

  const Green: int := 2

  /** The first position at or after `k` holding `name`, or -1. */
  function NameIndex(name: string, k: nat): (r: int)
    ensures r == -1 || (k <= r < |ColorNames| && ColorNames[r] == name)
    ensures r == -1 <==> forall i :: k <= i < |ColorNames| ==> ColorNames[i] != name
    ensures r != -1 ==> forall i :: k <= i < r ==> ColorNames[i] != name
    decreases |ColorNames| - k
  {
    if k >= |ColorNames| then -1
    else if ColorNames[k] == name then k
    else NameIndex(name, k + 1)
  }

  /** `Enum.TryParse<Color>(text, ignoreCase: true)`: text that starts with
      a digit or a sign is read as a number, any 32-bit one; other text is
      matched against the colour names without regard to case. */
  function ParseColor(text: string): (r: Option<int>)
    ensures r.Some? && !StartsNumber(Trim(text)) ==> 0 <= r.value < |ColorNames|
  {
    var t := Trim(text);
    if StartsNumber(t) then ParseInt(t)
    else
      var i := NameIndex(Fold(t), 0);
      if i == -1 then None else Some(i)
  }

  predicate StartsNumber(t: string) {
    |t| > 0 && (IsDigit(t[0]) || t[0] == '-' || t[0] == '+')
  }

  /** `SetupColor(color, defaultColor)`: the colour the text names, or the fallback. */
  function SetupColor(text: string, fallback: int): (r: int)
    ensures ParseColor(text).Some? ==> r == ParseColor(text).value
    ensures ParseColor(text).None? ==> r == fallback
  {
    ParseColor(text).GetOr(fallback)
  }

  /** A colour name is recognised in any letter case. */
  lemma ColorIgnoresCase(a: string, b: string)
    requires SameText(Trim(a), Trim(b))
    requires !StartsNumber(Trim(a)) && !StartsNumber(Trim(b))
    ensures ParseColor(a) == ParseColor(b)
  {
  }

  /** Text that is neither a number nor a colour name gives the fallback. */
  lemma ColorFallsBack(text: string, fallback: int)
    requires !StartsNumber(Trim(text))
    requires forall i :: 0 <= i < |ColorNames| ==> ColorNames[i] != Fold(Trim(text))
    ensures SetupColor(text, fallback) == fallback
  {
  }

  /** The default file's colour, "Green", is read as the colour Green. */
  lemma GreenIsRead()
    ensures SetupColor("Green", 0) == Green
  {
    GreenTrimmed();
    GreenFolded();
    GreenNamed();
  }

  lemma GreenTrimmed()
    ensures Trim("Green") == "Green" && !StartsNumber("Green")
  {
    var t := "Green";
    VisibleNotWhite(t[0]);
    VisibleNotWhite(t[4]);
    TrimOfUntouched(t, White);
  }

  lemma GreenFolded()
    ensures Fold("Green") == "green"
  {
    var t := "Green";
    assert forall i :: 0 <= i < |t| ==> Fold(t)[i] == "green"[i];
  }

  lemma GreenNamed()
    ensures NameIndex("green", 0) == Green
  {
    assert ColorNames[0][0] != 'g' && ColorNames[1][0] != 'g';
    assert NameIndex("green", 2) == 2;
  }

  /** The descriptions of the printer types 0 to 3. */
  const PrinterWords: seq<string> := [
    "sdílená tiskárna", "lokální tiskárna", "síťová tiskárna", "výstup na obrazovku"]

  /** The printer type in force and its description. */
  datatype Printer = Printer(printerType: int, words: string)

  /** `Initialize`: types 0 to 3 are kept, any other becomes 3, and the
      description always belongs to the type kept. */
  function Initialize(printerType: int): (r: Printer)
    ensures 0 <= r.printerType < |PrinterWords| && r.words == PrinterWords[r.printerType]
    ensures 0 <= printerType <= 3 <==> r.printerType == printerType
  {
    if 0 <= printerType <= 3 then Printer(printerType, PrinterWords[printerType])
    else Printer(3, PrinterWords[3])
  }

  /** Normalising a normalised printer type changes nothing. */
  lemma InitializeIdempotent(printerType: int)
    ensures Initialize(Initialize(printerType).printerType) == Initialize(printerType)
  {
  }

  /** What `Boolean.Parse` trims from both ends: white space and NUL. */
  const FlagBlanks: set<char> := White + {'\0'}

  /** `Convert.ChangeType(text, type)`, and `SetupColor(text, Green)` for the
      colour: None where the conversion throws. */
  function Convert(kind: Kind, text: string): (r: Option<Value>)
    ensures kind == TextKind ==> r == Some(Text(text))
    ensures kind == NumberKind ==> (r.Some? <==> ParseInt(text).Some?)
    ensures kind == NumberKind && r.Some? ==> r.value == Number(ParseInt(text).value)
    ensures kind == FlagKind ==>
              (r.Some? <==> SameText(TrimOf(text, FlagBlanks), "true") || SameText(TrimOf(text, FlagBlanks), "false"))
    ensures kind == FlagKind && r.Some? ==> r.value == Flag(SameText(TrimOf(text, FlagBlanks), "true"))
    ensures kind == ColorKind ==> r.Some? && r.value.Color?
  {
    match kind
    case TextKind => Some(Text(text))
    case NumberKind => if ParseInt(text).Some? then Some(Number(ParseInt(text).value)) else None
    case FlagKind =>
      var t := TrimOf(text, FlagBlanks);
      if SameText(t, "true") then Some(Flag(true))
      else if SameText(t, "false") then Some(Flag(false))
      else None
    case ColorKind => Some(Color(SetupColor(text, Green)))
  }

  /** Why `LoadFromContent` throws: blank content (`ArgumentException`), or a
      repeated key or a value of the wrong type (`InvalidOperationException`). */
  datatype ConfigError = BlankContent | InvalidOperation

  /** The settings after a load; a failed load keeps the settings it had
      already changed when it threw. */
  datatype Outcome = Applied(settings: Settings) | Failed(error: ConfigError, settings: Settings)

  /** A line that holds a setting: it does not start with `#` and has a `:`. */
  predicate IsSettingLine(line: string) {
    !StartsWith(line, "#") && ':' in line
  }

  /** `line.Split(':', 2)` with both halves trimmed. */
  function SettingEntry(line: string): Entry
    requires ':' in line
  {
    IndexOfFirst(line, ':', 0);
    var i := IndexOf(line, ':', 0);
    Entry(Trim(line[..i]), Trim(line[i + 1..]))
  }

  /** The entry a line contributes: one for a setting line, none otherwise. */
  function LineEntries(line: string): (r: seq<Entry>)
    ensures |r| <= 1
  {
    if IsSettingLine(line) then [SettingEntry(line)] else []
  }

  /** The entries of the setting lines, in order. */
  function SettingEntries(lines: seq<string>): (r: seq<Entry>)
    ensures |r| <= |lines|
    decreases |lines|
  {
    if |lines| == 0 then [] else LineEntries(lines[0]) + SettingEntries(lines[1..])
  }

  /** The characters `LoadFromContent` splits the content at. */
  const Breaks: set<char> := {'\r', '\n'}

  /** The lines of the content: the non-empty pieces between `\r` and `\n`. */
  function ContentLines(content: string): seq<string> {
    NonEmpty(SplitAny(content, Breaks))
  }

  /** The table holds a value for the item's key. */
  predicate Found(item: Item, table: Table) {
    Lookup(table, item.key).Some?
  }

  /** The item's value, if the table holds one, converts to the item's type. */
  predicate Converts(item: Item, table: Table) {
    !Found(item, table) || Convert(item.kind, Lookup(table, item.key).value).Some?
  }

  /** One round of the `foreach`: an item the table does not name leaves the
      settings alone, one it names gets the converted value, and a value
      that does not convert throws (None). */
  function Step(item: Item, table: Table, s: Settings): (r: Option<Settings>)
    ensures r.None? <==> !Converts(item, table)
    ensures r.Some? && !Found(item, table) ==> r.value == s
    ensures r.Some? && Found(item, table) ==>
              r.value == s[item.key := Convert(item.kind, Lookup(table, item.key).value).value]
  {
    match Lookup(table, item.key)
    case None => Some(s)
    case Some(text) =>
      match Convert(item.kind, text)
      case None => None
      case Some(v) => Some(s[item.key := v])
  }

  /** The `foreach` over the items, in order, until a conversion throws;
      the settings changed before the throw stay changed. */
  function Apply(items: seq<Item>, table: Table, s: Settings): (r: Outcome)
    ensures r.Failed? ==> r.error == InvalidOperation
    decreases |items|
  {
    if |items| == 0 then Applied(s)
    else
      match Step(items[0], table, s)
      case None => Failed(InvalidOperation, s)
      case Some(next) => Apply(items[1..], table, next)
  }

  /** The loop throws exactly when some item's value does not convert. */
  lemma {:induction false} ApplyFails(items: seq<Item>, table: Table, s: Settings)
    ensures Apply(items, table, s).Failed? <==> exists i :: 0 <= i < |items| && !Converts(items[i], table)
    decreases |items|
  {
    if |items| > 0 {
      var rest := items[1..];
      assert forall i :: 0 <= i < |rest| ==> rest[i] == items[i + 1];
      var step := Step(items[0], table, s);
      if step.Some? {
        ApplyFails(rest, table, step.value);
        assert Apply(items, table, s) == Apply(rest, table, step.value);
        if exists i :: 0 <= i < |items| && !Converts(items[i], table) {
          var i :| 0 <= i < |items| && !Converts(items[i], table);
          assert i > 0 && !Converts(rest[i - 1], table);
        }
      } else {
        assert !Converts(items[0], table);
      }
    }
  }

  /** A setting no item finds a value for keeps its value. */
  lemma {:induction false} ApplyKeeps(items: seq<Item>, table: Table, s: Settings, k: string)
    requires Apply(items, table, s).Applied?
    requires k in s
    requires forall i :: 0 <= i < |items| && items[i].key == k ==> !Found(items[i], table)
    ensures k in Apply(items, table, s).settings && Apply(items, table, s).settings[k] == s[k]
    decreases |items|
  {
    if |items| > 0 {
      var rest := items[1..];
      assert forall i :: 0 <= i < |rest| ==> rest[i] == items[i + 1];
      var next := Step(items[0], table, s).value;
      assert k in next && next[k] == s[k];
      ApplyKeeps(rest, table, next, k);
      assert Apply(items, table, s) == Apply(rest, table, next);
    }
  }

  /** An item the table names, and that no later item shares its key with,
      ends up holding its converted value. */
  lemma {:induction false} ApplySets(items: seq<Item>, table: Table, s: Settings, i: nat)
    requires Apply(items, table, s).Applied?
    requires i < |items| && Found(items[i], table)
    requires forall j :: i < j < |items| ==> items[j].key != items[i].key
    ensures items[i].key in Apply(items, table, s).settings
    ensures Some(Apply(items, table, s).settings[items[i].key]) ==
            Convert(items[i].kind, Lookup(table, items[i].key).value)
    decreases |items|
  {
    var rest := items[1..];
    assert forall j :: 0 <= j < |rest| ==> rest[j] == items[j + 1];
    var next := Step(items[0], table, s).value;
    assert Apply(items, table, s) == Apply(rest, table, next);
    if i == 0 {
      ApplyKeeps(rest, table, next, items[0].key);
    } else {
      ApplySets(rest, table, next, i - 1);
    }
  }

  /** A failed loop leaves the settings as the items before the failing one
      made them. */
  lemma {:induction false} ApplyFailsPartway(items: seq<Item>, table: Table, s: Settings)
    requires Apply(items, table, s).Failed?
    ensures exists n :: 0 <= n < |items| && !Converts(items[n], table) &&
              Apply(items[..n], table, s) == Applied(Apply(items, table, s).settings)
    decreases |items|
  {
    var rest := items[1..];
    var step := Step(items[0], table, s);
    if step.None? {
      assert items[..0] == [];
      assert !Converts(items[0], table) && Apply(items[..0], table, s) == Applied(s);
    } else {
      assert Apply(items, table, s) == Apply(rest, table, step.value);
      ApplyFailsPartway(rest, table, step.value);
      var n :| 0 <= n < |rest| && !Converts(rest[n], table) &&
               Apply(rest[..n], table, step.value) == Applied(Apply(items, table, s).settings);
      var pre := items[..n + 1];
      assert pre[0] == items[0] && pre[1..] == rest[..n];
      assert Apply(pre, table, s) == Apply(rest[..n], table, step.value);
      assert items[n + 1] == rest[n];
    }
  }

  /** `LoadFromContent(content)` over the settings `s`. */
  function LoadFromContent(items: seq<Item>, content: string, s: Settings): (r: Outcome)
    ensures Blank(content) ==> r == Failed(BlankContent, s)
    ensures r.Failed? && r.error == BlankContent ==> Blank(content)
  {
    if Blank(content) then Failed(BlankContent, s)
    else
      var built := AddAll(map[], SettingEntries(ContentLines(content)));
      if built.duplicate.Some? then Failed(InvalidOperation, s)
      else Apply(items, built.table, s)
  }

  /** Two setting lines whose keys differ only in letter case make the load
      throw before any setting changes. */
  lemma RepeatedKeyFails(items: seq<Item>, content: string, s: Settings)
    requires !Blank(content)
    requires !DistinctKeys(SettingEntries(ContentLines(content)))
    ensures LoadFromContent(items, content, s) == Failed(InvalidOperation, s)
  {
    var entries := SettingEntries(ContentLines(content));
    if AddAll(map[], entries).duplicate.None? {
      AddAllNoDuplicate(map[], entries);
    }
  }

  /** The table a load that got past the blank check and the duplicate
      check applies: every entry's value under its folded key. */
  lemma LoadedTable(content: string) returns (table: Table)
    requires !Blank(content)
    requires AddAll(map[], SettingEntries(ContentLines(content))).duplicate.None?
    ensures table == AddAll(map[], SettingEntries(ContentLines(content))).table
    ensures forall k :: k in table ==> exists e :: e in SettingEntries(ContentLines(content)) && Fold(e.key) == k
    ensures forall e :: e in SettingEntries(ContentLines(content)) ==> Fold(e.key) in table && table[Fold(e.key)] == e.value
  {
    var entries := SettingEntries(ContentLines(content));
    AddAllNoDuplicate(map[], entries);
    AddAllComplete(map[], entries);
    table := AddAll(map[], entries).table;
    forall e | e in entries
      ensures Fold(e.key) in table && table[Fold(e.key)] == e.value
    {
      var i :| 0 <= i < |entries| && entries[i] == e;
    }
    forall k | k in table
      ensures exists e :: e in entries && Fold(e.key) == k
    {
      AddAllFrom(map[], entries, k);
    }
  }

  /** A load that succeeds leaves every setting the content does not name as it was. */
  lemma LoadKeepsUnnamed(items: seq<Item>, content: string, s: Settings, k: string)
    requires LoadFromContent(items, content, s).Applied?
    requires k in s && forall e :: e in SettingEntries(ContentLines(content)) ==> !SameText(e.key, k)
    ensures k in LoadFromContent(items, content, s).settings
    ensures LoadFromContent(items, content, s).settings[k] == s[k]
  {
    var table := LoadedTable(content);
    assert Fold(k) !in table;
    ApplyKeeps(items, table, s, k);
  }

  /** A load that succeeds gives an item the content names, and that no
      later item shares its key with, the value of its line converted. */
  lemma LoadSetsNamed(items: seq<Item>, content: string, s: Settings, i: nat, e: Entry)
    requires LoadFromContent(items, content, s).Applied?
    requires i < |items| && e in SettingEntries(ContentLines(content)) && SameText(e.key, items[i].key)
    requires forall j :: i < j < |items| ==> items[j].key != items[i].key
    ensures items[i].key in LoadFromContent(items, content, s).settings
    ensures Some(LoadFromContent(items, content, s).settings[items[i].key]) == Convert(items[i].kind, e.value)
  {
    var table := LoadedTable(content);
    assert Lookup(table, items[i].key) == Some(e.value);
    ApplySets(items, table, s, i);
  }

  /** A load throws `InvalidOperationException` past the blank and duplicate
      checks exactly when a value the table holds does not convert. */
  lemma LoadFailsOnValue(items: seq<Item>, content: string, s: Settings)
    requires !Blank(content) && DistinctKeys(SettingEntries(ContentLines(content)))
    ensures LoadFromContent(items, content, s).Failed? <==>
              exists i :: 0 <= i < |items| && !Converts(items[i], AddAll(map[], SettingEntries(ContentLines(content))).table)
  {
    AddAllComplete(map[], SettingEntries(ContentLines(content)));
    ApplyFails(items, AddAll(map[], SettingEntries(ContentLines(content))).table, s);
  }

  /** The lines `CreateDefaultConfigFile` writes for one item: its
      description as a `#` comment when it has one, then `key:default`. */
  function ItemLines(item: Item): seq<string> {
    (if item.description != "" then ["# " + item.description] else []) + [item.key + ":" + item.defaultValue]
  }

  function DefaultLines(items: seq<Item>): seq<string>
    decreases |items|
  {
    if |items| == 0 then [] else ItemLines(items[0]) + DefaultLines(items[1..])
  }

  /** `File.WriteAllLines`: every line followed by a line break. */
  function FileText(lines: seq<string>): string {
    Join(lines + [""], "\n")
  }


  /** Items whose default file reads back as written: keys that are
      non-empty, trimmed, free of `:` and line breaks, do not start with `#`
      and differ in more than letter case; defaults trimmed, without line
      breaks and convertible; descriptions without line breaks. */
  predicate WellFormed(items: seq<Item>) {
    && |items| > 0
    && (forall i :: 0 <= i < |items| ==> ItemWellFormed(items[i]))
    && (forall i, j :: 0 <= i < j < |items| ==> Fold(items[i].key) != Fold(items[j].key))
  }

  predicate ItemWellFormed(item: Item) {
    Printable(item) && Readable(item) && Convert(item.kind, item.defaultValue).Some?
  }

  /** The item's lines hold no line break and its key line is not empty. */
  predicate Printable(item: Item) {
    item.key != "" && NoneIn(item.key, Breaks) && NoneIn(item.defaultValue, Breaks) && NoneIn(item.description, Breaks)
  }

  /** The item's key line parses back into its key and its default. */
  predicate Readable(item: Item) {
    && item.key != "" && item.key[0] != '#' && NoneIn(item.key, {':'})
    && Trim(item.key) == item.key && Trim(item.defaultValue) == item.defaultValue
  }

  /** Each item as the entry its `key:default` line parses into. */
  function ItemEntries(items: seq<Item>): (r: seq<Entry>)
    ensures |r| == |items|
    ensures forall i :: 0 <= i < |items| ==> r[i] == Entry(items[i].key, items[i].defaultValue)
    decreases |items|
  {
    if |items| == 0 then []
    else
      var rest := ItemEntries(items[1..]);
      assert forall i :: 1 <= i < |items| ==> rest[i - 1] == Entry(items[i].key, items[i].defaultValue);
      [Entry(items[0].key, items[0].defaultValue)] + rest
  }

  /** A `key:value` line splits back into its key and its value. */
  lemma KeyLineEntry(key: string, value: string)
    requires key != "" && key[0] != '#' && NoneIn(key, {':'})
    requires Trim(key) == key && Trim(value) == value
    ensures IsSettingLine(key + ":" + value)
    ensures SettingEntry(key + ":" + value) == Entry(key, value)
  {
    var line := key + ":" + value;
    var n := |key|;
    assert line[n] == ':';
    assert !StartsWith(line, "#") by {
      assert line[..1][0] == key[0];
    }
    assert forall i :: 0 <= i < n ==> line[i] == key[i];
    IndexOfIs(line, ':', 0, n);
    assert line[..n] == key;
    assert line[n + 1..] == value;
  }

  lemma {:induction false} SettingEntriesAppend(a: seq<string>, b: seq<string>)
    ensures SettingEntries(a + b) == SettingEntries(a) + SettingEntries(b)
    decreases |a|
  {
    if |a| == 0 {
      assert a + b == b;
    } else {
      SettingEntriesAppend(a[1..], b);
      DropAppend(a, b);
      assert SettingEntries(a + b) == LineEntries(a[0]) + SettingEntries(a[1..] + b);
      AppendAssoc(LineEntries(a[0]), SettingEntries(a[1..]), SettingEntries(b));
    }
  }

  /** The setting lines of a default file are exactly the items' `key:default` lines. */
  lemma {:induction false} DefaultEntries(items: seq<Item>)
    requires forall i :: 0 <= i < |items| ==> Readable(items[i])
    ensures SettingEntries(DefaultLines(items)) == ItemEntries(items)
    decreases |items|
  {
    if |items| > 0 {
      var rest := items[1..];
      assert forall i :: 0 <= i < |rest| ==> rest[i] == items[i + 1];
      DefaultEntries(rest);
      ItemLinesEntry(items[0]);
      SettingEntriesAppend(ItemLines(items[0]), DefaultLines(rest));
      assert DefaultLines(items) == ItemLines(items[0]) + DefaultLines(rest);
      assert ItemEntries(items) == [Entry(items[0].key, items[0].defaultValue)] + ItemEntries(rest);
    }
  }

  /** The lines of one item hold one setting: its key and its default. */
  lemma ItemLinesEntry(item: Item)
    requires Readable(item)
    ensures SettingEntries(ItemLines(item)) == [Entry(item.key, item.defaultValue)]
  {
    var keyLine := item.key + ":" + item.defaultValue;
    KeyLineEntry(item.key, item.defaultValue);
    var one: seq<string> := [keyLine];
    assert SettingEntries(one) == [Entry(item.key, item.defaultValue)] by {
      assert |one[1..]| == 0;
    }
    if item.description != "" {
      var comment := "# " + item.description;
      assert !IsSettingLine(comment) by { assert comment[..1] == "#"; }
      var alone: seq<string> := [comment];
      assert SettingEntries(alone) == [] by { assert |alone[1..]| == 0; }
      SettingEntriesAppend(alone, one);
      assert ItemLines(item) == alone + one;
    } else {
      assert ItemLines(item) == one;
    }
  }

  /** Every line of a default file is non-empty and free of line breaks. */
  lemma {:induction false} DefaultLinesPlain(items: seq<Item>)
    requires forall i :: 0 <= i < |items| ==> Printable(items[i])
    ensures forall j :: 0 <= j < |DefaultLines(items)| ==>
              DefaultLines(items)[j] != "" && NoneIn(DefaultLines(items)[j], Breaks)
    decreases |items|
  {
    if |items| > 0 {
      var item := items[0];
      var rest := items[1..];
      assert forall i :: 0 <= i < |rest| ==> rest[i] == items[i + 1];
      DefaultLinesPlain(rest);
      var keyLine := item.key + ":" + item.defaultValue;
      assert NoneIn(keyLine, Breaks) by {
        forall i | 0 <= i < |keyLine|
          ensures keyLine[i] !in Breaks
        {
          if i < |item.key| { assert keyLine[i] == item.key[i]; }
          else if i > |item.key| { assert keyLine[i] == item.defaultValue[i - |item.key| - 1]; }
        }
      }
      if item.description != "" {
        var comment := "# " + item.description;
        assert NoneIn(comment, Breaks) by {
          forall i | 0 <= i < |comment|
            ensures comment[i] !in Breaks
          {
            if i >= 2 { assert comment[i] == item.description[i - 2]; }
          }
        }
      }
      var lines := DefaultLines(items);
      assert lines == ItemLines(item) + DefaultLines(rest);
      forall j | 0 <= j < |lines|
        ensures lines[j] != "" && NoneIn(lines[j], Breaks)
      {
        if j >= |ItemLines(item)| {
          assert lines[j] == DefaultLines(rest)[j - |ItemLines(item)|];
        }
      }
    }
  }

  /** Dropping empty pieces from pieces that are all non-empty, plus one
      empty piece at the end, leaves the pieces. */
  lemma {:induction false} NonEmptyTrailing(lines: seq<string>)
    requires forall j :: 0 <= j < |lines| ==> lines[j] != ""
    ensures NonEmpty(lines + [""]) == lines
    decreases |lines|
  {
    if |lines| == 0 {
      assert [""][1..] == [];
    } else {
      NonEmptyTrailing(lines[1..]);
      assert (lines + [""])[1..] == lines[1..] + [""];
      assert lines == [lines[0]] + lines[1..];
    }
  }

  /** Non-empty lines without line breaks, written with a newline after
      each, read back as the same lines. */
  lemma LinesRoundTrip(lines: seq<string>)
    requires forall j :: 0 <= j < |lines| ==> lines[j] != "" && NoneIn(lines[j], Breaks)
    ensures ContentLines(FileText(lines)) == lines
  {
    var parts := lines + [""];
    assert forall j :: 0 <= j < |parts| ==> NoneIn(parts[j], Breaks) by {
      forall j | 0 <= j < |parts|
        ensures NoneIn(parts[j], Breaks)
      {
        if j < |lines| { assert parts[j] == lines[j]; }
      }
    }
    SplitJoin(parts, '\n', Breaks);
    NonEmptyTrailing(lines);
  }

  /** The lines read from a default file are the lines written. */
  lemma DefaultFileLines(items: seq<Item>)
    requires forall i :: 0 <= i < |items| ==> Printable(items[i])
    ensures ContentLines(FileText(DefaultLines(items))) == DefaultLines(items)
  {
    DefaultLinesPlain(items);
    LinesRoundTrip(DefaultLines(items));
  }

  /** A default file starts with a `#` or with the first key, so it is not blank. */
  lemma DefaultFileNotBlank(items: seq<Item>)
    requires |items| > 0 && Readable(items[0])
    ensures !Blank(FileText(DefaultLines(items)))
  {
    var item := items[0];
    var lines := DefaultLines(items);
    var first := ItemLines(item)[0];
    assert lines[0] == first;
    assert first[0] == '#' || first[0] == item.key[0];
    assert item.key[0] !in White by {
      assert Trim(item.key)[0] == item.key[0];
    }
    assert (lines + [""])[0] == first;
    JoinStarts(lines + [""], "\n");
    var content := FileText(lines);
    assert content[0] == first[0];
    VisibleNotWhite('#');
  }

  /** Reading back the default file gives every item the value of its
      default text. */
  lemma DefaultFileRoundTrip(items: seq<Item>, s: Settings)
    requires WellFormed(items)
    ensures LoadFromContent(items, FileText(DefaultLines(items)), s).Applied?
    ensures forall i :: 0 <= i < |items| ==>
              items[i].key in LoadFromContent(items, FileText(DefaultLines(items)), s).settings &&
              Some(LoadFromContent(items, FileText(DefaultLines(items)), s).settings[items[i].key]) ==
              Convert(items[i].kind, items[i].defaultValue)
  {
    var table := DefaultFileTable(items);
    assert LoadFromContent(items, FileText(DefaultLines(items)), s) == Apply(items, table, s);
    assert forall i :: 0 <= i < |items| ==> Converts(items[i], table);
    ApplyFails(items, table, s);
    forall i | 0 <= i < |items|
      ensures items[i].key in Apply(items, table, s).settings
      ensures Some(Apply(items, table, s).settings[items[i].key]) == Convert(items[i].kind, items[i].defaultValue)
    {
      ApplySets(items, table, s, i);
    }
  }

  /** The table read from a default file maps every key to its default. */
  lemma DefaultFileTable(items: seq<Item>) returns (table: Table)
    requires WellFormed(items)
    ensures !Blank(FileText(DefaultLines(items)))
    ensures AddAll(map[], SettingEntries(ContentLines(FileText(DefaultLines(items))))) == Loaded(table, None)
    ensures forall i :: 0 <= i < |items| ==> Lookup(table, items[i].key) == Some(items[i].defaultValue)
  {
    assert forall i :: 0 <= i < |items| ==> Printable(items[i]) && Readable(items[i]);
    DefaultFileLines(items);
    DefaultEntries(items);
    DefaultFileNotBlank(items);
    var entries := ItemEntries(items);
    assert SettingEntries(ContentLines(FileText(DefaultLines(items)))) == entries;
    assert DistinctKeys(entries);
    AddAllComplete(map[], entries);
    table := AddAll(map[], entries).table;
    forall i | 0 <= i < |items|
      ensures Lookup(table, items[i].key) == Some(items[i].defaultValue)
    {
      assert entries[i] == Entry(items[i].key, items[i].defaultValue);
    }
  }

  /** No character of `s` from position `k` on belongs to `cs`, decided one
      position at a time so that it can be computed on a literal key. */
  predicate NoneFrom(s: string, cs: set<char>, k: nat)
    decreases |s| - k
  {
    k >= |s| || (s[k] !in cs && NoneFrom(s, cs, k + 1))
  }

  lemma {:induction false} NoneFromIn(s: string, cs: set<char>, k: nat)
    requires NoneFrom(s, cs, k)
    ensures forall j :: k <= j < |s| ==> s[j] !in cs
    decreases |s| - k
  {
    if k < |s| {
      NoneFromIn(s, cs, k + 1);
    }
  }

  /** A key of visible characters at both ends, not a comment and free of
      `:` and line breaks, is trimmed and splits off whole from its line. */
  lemma PlainKey(key: string)
    requires key != [] && key[0] != '#'
    requires '!' <= key[0] <= '~' && '!' <= key[|key| - 1] <= '~'
    requires NoneFrom(key, {':', '\r', '\n'}, 0)
    ensures NoneIn(key, {':'}) && NoneIn(key, Breaks) && Trim(key) == key
  {
    NoneFromIn(key, {':', '\r', '\n'}, 0);
    VisibleNotWhite(key[0]);
    VisibleNotWhite(key[|key| - 1]);
    TrimOfUntouched(key, White);
  }

  /** An item whose key is plain, whose default is trimmed and converts, and
      whose parts hold no line break is well formed. */
  lemma PlainItem(item: Item)
    requires item.key != [] && item.key[0] != '#'
    requires NoneIn(item.key, {':'}) && NoneIn(item.key, Breaks) && Trim(item.key) == item.key
    requires NoneIn(item.defaultValue, Breaks) && NoneIn(item.description, Breaks)
    requires Trim(item.defaultValue) == item.defaultValue
    requires Convert(item.kind, item.defaultValue).Some?
    ensures Printable(item) && Readable(item)
    ensures ItemWellFormed(item)
  {
  }

  /** A default text of visible characters only at its ends is trimmed. */
  lemma PlainDefault(d: string)
    requires d == [] || ('!' <= d[0] <= '~' && '!' <= d[|d| - 1] <= '~')
    ensures Trim(d) == d
  {
    if d != [] {
      VisibleNotWhite(d[0]);
      VisibleNotWhite(d[|d| - 1]);
    }
    TrimOfUntouched(d, White);
  }

  /** Keys of different lengths, or with different first letters, differ
      without regard to case. */
  lemma FoldsApart(a: string, b: string)
    requires a != [] && b != []
    requires |a| != |b| || Lower(a[0]) != Lower(b[0])
    ensures Fold(a) != Fold(b)
  {
    if |a| == |b| {
      assert Fold(a)[0] != Fold(b)[0];
    }
  }

  /** Every item's comment is a single line. */
  predicate OneLineDescriptions(items: seq<Item>) {
    forall i :: 0 <= i < |items| ==> NoneIn(items[i].description, Breaks)
  }

  /** The built-in items are well formed for every configuration directory
      that is trimmed and holds no line break, so a freshly written default
      file reads back into the defaults. */
  lemma ItemsWellFormed(configPath: string)
    requires Trim(configPath) == configPath && NoneIn(configPath, Breaks)
    requires OneLineDescriptions(Items(configPath))
    ensures WellFormed(Items(configPath))
  {
    var items := Items(configPath);
    forall i | 0 <= i < |items|
      ensures ItemWellFormed(items[i])
    {
      ItemIsPlain(configPath, i);
    }
    KeysApart(configPath);
  }

  /** The program's own default file, written for a trimmed configuration
      directory without line breaks, reads back into every item's default. */
  lemma ConfigFileRoundTrip(configPath: string, s: Settings)
    requires Trim(configPath) == configPath && NoneIn(configPath, Breaks)
    requires OneLineDescriptions(Items(configPath))
    ensures var items := Items(configPath);
      var loaded := LoadFromContent(items, FileText(DefaultLines(items)), s);
      && loaded.Applied?
      && forall i :: 0 <= i < |items| ==>
           items[i].key in loaded.settings && Some(loaded.settings[items[i].key]) == Convert(items[i].kind, items[i].defaultValue)
  {
    ItemsWellFormed(configPath);
    DefaultFileRoundTrip(Items(configPath), s);
  }

  lemma KeysApart(configPath: string)
    ensures forall i, j :: 0 <= i < j < |Items(configPath)| ==> Fold(Items(configPath)[i].key) != Fold(Items(configPath)[j].key)
  {
    var items := Items(configPath);
    forall i, j | 0 <= i < j < |items|
      ensures Fold(items[i].key) != Fold(items[j].key)
    {
      FoldsApart(items[i].key, items[j].key);
    }
  }

  lemma ItemIsPlain(configPath: string, i: nat)
    requires Trim(configPath) == configPath && NoneIn(configPath, Breaks)
    requires i < |Items(configPath)| && NoneIn(Items(configPath)[i].description, Breaks)
    ensures ItemWellFormed(Items(configPath)[i])
  {
    var items := Items(configPath);
    if i == 0 { assert items[0] == IPTiskarny; IPTiskarnyPlain(); }
    else if i == 1 { assert items[1] == TypTiskarny; TypTiskarnyPlain(); }
    else if i == 2 { assert items[2] == Adresar(configPath); AdresarPlain(configPath); }
    else if i == 3 { assert items[3] == HledanyText; HledanyTextPlain(); }
    else if i == 4 { assert items[4] == JedenSoubor; JedenSouborPlain(); }
    else if i == 5 { assert items[5] == Kodovani; KodovaniPlain(); }
    else if i == 6 { assert items[6] == Prihlasit; PrihlasitPlain(); }
    else if i == 7 { assert items[7] == Data; DataPlain(); }
    else if i == 8 { assert items[8] == HlavniSablona; HlavniSablonaPlain(); }
    else if i == 9 { assert items[9] == HlavniSablonaData; HlavniSablonaDataPlain(); }
    else if i == 10 { assert items[10] == Logsoubor; LogsouborPlain(); }
    else { assert items[11] == Barva; BarvaPlain(); }
  }

  lemma IPTiskarnyPlain()
    requires NoneIn(IPTiskarny.description, Breaks)
    ensures ItemWellFormed(IPTiskarny)
  {
    PlainKey("IPTiskarny");
    PlainDefault("");
    PlainItem(IPTiskarny);
  }

  lemma TypTiskarnyPlain()
    requires NoneIn(TypTiskarny.description, Breaks)
    ensures ItemWellFormed(TypTiskarny)
  {
    PlainKey("TypTiskarny");
    PlainDefault("3");
    assert DecimalString(3) == "3";
    ParseDecimal(3);
    PlainItem(TypTiskarny);
  }

  lemma AdresarPlain(configPath: string)
    requires Trim(configPath) == configPath && NoneIn(configPath, Breaks)
    requires NoneIn(Adresar(configPath).description, Breaks)
    ensures ItemWellFormed(Adresar(configPath))
  {
    PlainKey("Adresar");
    PlainItem(Adresar(configPath));
  }

  /** The flag items' default text converts to the flag `false`. */
  lemma FalseIsFlag()
    ensures Convert(FlagKind, "false") == Some(Flag(false))
  {
    assert 'f' !in FlagBlanks && 'e' !in FlagBlanks;
    TrimOfUntouched("false", FlagBlanks);
  }

  lemma HledanyTextPlain()
    requires NoneIn(HledanyText.description, Breaks)
    ensures ItemWellFormed(HledanyText)
  {
    PlainKey("HledanyText");
    PlainDefault("");
    PlainItem(HledanyText);
  }

  lemma JedenSouborPlain()
    requires NoneIn(JedenSoubor.description, Breaks)
    ensures ItemWellFormed(JedenSoubor)
  {
    PlainKey("JedenSoubor");
    PlainDefault("false");
    FalseIsFlag();
    PlainItem(JedenSoubor);
  }

  lemma KodovaniPlain()
    requires NoneIn(Kodovani.description, Breaks)
    ensures ItemWellFormed(Kodovani)
  {
    PlainKey("Kodovani");
    PlainDefault("UTF-8");
    PlainItem(Kodovani);
  }

  lemma PrihlasitPlain()
    requires NoneIn(Prihlasit.description, Breaks)
    ensures ItemWellFormed(Prihlasit)
  {
    PlainKey("Prihlasit");
    PlainDefault("false");
    FalseIsFlag();
    PlainItem(Prihlasit);
  }

  lemma DataPlain()
    requires NoneIn(Data.description, Breaks)
    ensures ItemWellFormed(Data)
  {
    PlainKey("Data");
    PlainDefault("");
    PlainItem(Data);
  }

  lemma HlavniSablonaPlain()
    requires NoneIn(HlavniSablona.description, Breaks)
    ensures ItemWellFormed(HlavniSablona)
  {
    assert NoneFrom("HlavniSablona", {':', '\r', '\n'}, 9);
    PlainKey("HlavniSablona");
    PlainDefault("");
    PlainItem(HlavniSablona);
  }

  lemma HlavniSablonaDataPlain()
    requires NoneIn(HlavniSablonaData.description, Breaks)
    ensures ItemWellFormed(HlavniSablonaData)
  {
    assert NoneFrom("HlavniSablonaData", {':', '\r', '\n'}, 9);
    PlainKey("HlavniSablonaData");
    PlainDefault("");
    PlainItem(HlavniSablonaData);
  }

  lemma LogsouborPlain()
    requires NoneIn(Logsoubor.description, Breaks)
    ensures ItemWellFormed(Logsoubor)
  {
    PlainKey("Logsoubor");
    PlainDefault("");
    PlainItem(Logsoubor);
  }

  lemma BarvaPlain()
    requires NoneIn(Barva.description, Breaks)
    ensures ItemWellFormed(Barva)
  {
    PlainKey("Barva");
    PlainDefault("Green");
    PlainItem(Barva);
  }
}

=== FILE: epl_file.dfy ===
/** The label-template record (`EplFile`): a named template, where it is
    stored, the body the engine renders from it, and whether that body may
    be printed. Identity is the name alone. */
module EplFiles {
  import opened Outcomes

  /** `Body` is null until the engine has rendered the template. */
  datatype EplFile = EplFile(
    key: string,
    fileAddress: string,
    template: string,
    body: Option<string>,
    shouldPrint: bool)

  /** What `Equals(object)` may be handed: null, an `EplFile`, or an object
      of some other type. */
  datatype Other = Null | AnEplFile(file: EplFile) | NotAnEplFile

  /** `new EplFile(name, address, template)`. */
  function NewEplFile(name: string, address: string, template: string): (f: EplFile)
    ensures f.key == name && f.fileAddress == address && f.template == template
    ensures f.shouldPrint
    ensures f.body.None?
  {
    EplFile(name, address, template, None, true)
  }

  /** `Equals(object)`: true exactly for a non-null `EplFile` with the same key. */
  predicate Equals(f: EplFile, other: Other) {
    other.AnEplFile? && f.key == other.file.key
  }

  /** `GetHashCode()`: the hash of the key, under whatever string hash the
      runtime uses. */
  function HashCode(f: EplFile, stringHash: string -> int): int {
    stringHash(f.key)
  }

  /** `ToString()`. */
  function ToString(f: EplFile): string {
    f.key
  }

  /** `Copy()`: a fresh file with the same key, address and template. */
  function Copy(f: EplFile): (c: EplFile)
    ensures c.key == f.key && c.fileAddress == f.fileAddress && c.template == f.template
    ensures c.shouldPrint && c.body.None?
    ensures Equals(f, AnEplFile(c))
  {
    NewEplFile(f.key, f.fileAddress, f.template)
  }

  /** Equality looks at the key alone: files that differ only in body,
      address, template or print flag are equal to the same objects. */
  lemma EqualsByKeyAlone(f: EplFile, g: EplFile, other: Other)
    requires f.key == g.key
    ensures Equals(f, other) <==> Equals(g, other)
    ensures Equals(f, AnEplFile(g))
    ensures !Equals(f, Null) && !Equals(f, NotAnEplFile)
  {
  }

  /** Two files print alike exactly when they are equal. */
  lemma ToStringIdentifies(a: EplFile, b: EplFile)
    ensures ToString(a) == ToString(b) <==> Equals(a, AnEplFile(b))
  {
  }

  /** A copy of a fresh file is that file, and copying twice is copying once. */
  lemma CopyOfNew(name: string, address: string, template: string, f: EplFile)
    ensures Copy(NewEplFile(name, address, template)) == NewEplFile(name, address, template)
    ensures Copy(Copy(f)) == Copy(f)
  {
  }

  /** Equality is an equivalence on files. */
  lemma EqualsIsEquivalence(a: EplFile, b: EplFile, c: EplFile)
    ensures Equals(a, AnEplFile(a))
    ensures Equals(a, AnEplFile(b)) <==> Equals(b, AnEplFile(a))
    ensures Equals(a, AnEplFile(b)) && Equals(b, AnEplFile(c)) ==> Equals(a, AnEplFile(c))
  {
  }

  /** Equal files hash alike, whatever the string hash is. */
  lemma EqualFilesHashAlike(a: EplFile, b: EplFile, stringHash: string -> int)
    requires Equals(a, AnEplFile(b))
    ensures HashCode(a, stringHash) == HashCode(b, stringHash)
  {
  }
}

=== FILE: fill.dfy ===
/** Filling a template: every key replaced by its value, or, when the
    template holds a `<sequence|...>` key, one copy of the template per
    sequence value with the other keys filled once over the whole text. */
module Filling {
  import opened Outcomes
  import opened Strings
  import opened Numbers
  import opened Scanner
  import opened ParserState
  import opened KeyHandlers
  import opened EplFiles
  import Tables

  /** `ReplaceAllKeys`: for each key in turn, its value (or "" once the run
      has stopped) replaces every occurrence of the key in the text so far. */
  function ReplaceAllKeys(env: Env, st: State, t: string, keys: seq<string>): (r: Out<string>)
    requires NonEmptyKeys(keys)
    ensures Follows(st, r.st) && r.st.saves == st.saves
    ensures |r.st.prompts| <= |st.prompts| + |keys|
    decreases |keys|
  {
    if |keys| == 0 then Done(t, st)
    else
      var found := if st.go then FindValue(env, st, keys[0]) else Done("", st);
      match found
      case Thrown(e, s) => Thrown(e, s)
      case Done(v, s) =>
        var r := ReplaceAllKeys(env, s, Replace(t, keys[0], v), keys[1..]);
        FollowsTrans(st, s, r.st);
        r
  }

  function Blanks(n: nat): (r: seq<string>)
    ensures |r| == n && forall i :: 0 <= i < n ==> r[i] == ""
  {
    seq(n, i => "")
  }

  /** Once the run has stopped every key is replaced by "", and nothing is
      asked, reported or saved. */
  lemma {:induction false} ReplaceAllStopped(env: Env, st: State, t: string, keys: seq<string>)
    requires NonEmptyKeys(keys) && !st.go
    ensures ReplaceAllKeys(env, st, t, keys) == Done(ReplaceEach(t, keys, Blanks(|keys|)), st)
    decreases |keys|
  {
    if |keys| > 0 {
      ReplaceAllStopped(env, st, Replace(t, keys[0], ""), keys[1..]);
      assert Blanks(|keys|)[1..] == Blanks(|keys| - 1);
    }
  }

  /** The prompt for a key asked for by its name. */
  function NamePrompt(key: string): Prompt {
    Prompt("Zadej " + TrimOf(key, Brackets), "")
  }

  /** The text of an answer; a cancelled one has none. */
  function AnswerText(answer: Option<string>): string {
    answer.GetOr("")
  }

  /** Keys that are neither stored nor matched by a rule are each asked for
      once, in order, and replaced by the answer given: nothing else is
      asked, reported or saved. */
  lemma {:induction false} ReplaceAllAnswered(env: Env, st: State, t: string, keys: seq<string>)
    requires NonEmptyKeys(keys) && st.go && |keys| <= |st.answers|
    requires forall i :: 0 <= i < |keys| ==> Stored(env, keys[i]).None? && AskedByName(env, keys[i])
    requires forall i :: 0 <= i < |keys| ==> !Cancels(st.answers[i])
    ensures ReplaceAllKeys(env, st, t, keys) ==
            Done(ReplaceEach(t, keys, Each(AnswerText, st.answers[..|keys|])),
                 st.(answers := st.answers[|keys|..], prompts := st.prompts + Each(NamePrompt, keys)))
    decreases |keys|
  {
    if |keys| == 0 {
      assert st.answers[0..] == st.answers;
      assert st.prompts + [] == st.prompts;
    } else {
      var k, rest := keys[0], keys[1..];
      var s := st.(answers := st.answers[1..], prompts := st.prompts + [NamePrompt(k)]);
      AskedByNameOnce(env, st, k);
      assert FindValue(env, st, k) == Done(AnswerText(st.answers[0]), s);
      assert NonEmptyKeys(rest) by {
        forall i | 0 <= i < |rest| ensures rest[i] != "" { assert rest[i] == keys[i + 1]; }
      }
      forall i | 0 <= i < |rest|
        ensures Stored(env, rest[i]).None? && AskedByName(env, rest[i]) && !Cancels(s.answers[i])
      {
        assert rest[i] == keys[i + 1] && s.answers[i] == st.answers[i + 1];
      }
      ReplaceAllAnswered(env, s, Replace(t, k, AnswerText(st.answers[0])), rest);
      var given := st.answers[..|keys|];
      EachCons(AnswerText, given);
      assert given[1..] == s.answers[..|rest|];
      assert s.answers[|rest|..] == st.answers[|keys|..];
      EachCons(NamePrompt, keys);
      AppendAssoc(st.prompts, [NamePrompt(k)], Each(NamePrompt, rest));
    }
  }

  /** The value the primary data holds for a key, if any. */
  function Stored(env: Env, key: string): Option<string> {
    Tables.Lookup(env.primary, TrimOf(key, Brackets))
  }

  /** When every key is in the primary data, each is replaced by its stored
      value: the state does not change and nothing is asked. */
  lemma {:induction false} ReplaceAllFromTable(env: Env, st: State, t: string, keys: seq<string>)
    requires NonEmptyKeys(keys) && st.go
    requires forall i :: 0 <= i < |keys| ==> Stored(env, keys[i]).Some?
    ensures ReplaceAllKeys(env, st, t, keys) ==
            Done(ReplaceEach(t, keys, seq(|keys|, i requires 0 <= i < |keys| => Stored(env, keys[i]).value)), st)
    decreases |keys|
  {
    if |keys| > 0 {
      PrimaryFirst(env, st, keys[0]);
      var values := seq(|keys|, i requires 0 <= i < |keys| => Stored(env, keys[i]).value);
      var rest := keys[1..];
      assert forall i :: 0 <= i < |rest| ==> rest[i] == keys[i + 1];
      ReplaceAllFromTable(env, st, Replace(t, keys[0], values[0]), rest);
      assert values[1..] == seq(|rest|, i requires 0 <= i < |rest| => Stored(env, rest[i]).value);
    }
  }

  /** The `|` parts of a sequence key, without its brackets. */
  function SequenceParts(key: string): (r: seq<string>)
    ensures |r| >= 1 && forall i :: 0 <= i < |r| ==> NoneIn(r[i], {'|'})
  {
    SplitAny(TrimOf(key, Brackets), {'|'})
  }

  predicate IsSave(part: string) {
    SameText(part, "save")
  }

  predicate IsFormat(part: string) {
    StartsWithText(part, "format:")
  }

  /** The extra parts ask for saving when one of them is `save`. */
  predicate Saves(extras: seq<string>) {
    exists i :: 0 <= i < |extras| && IsSave(extras[i])
  }

  /** The format the extra parts give: the text after `format:` in the last
      part that has one, or none. */
  function FormatOf(extras: seq<string>): (fmt: string)
    ensures (forall i :: 0 <= i < |extras| ==> !IsFormat(extras[i])) ==> fmt == ""
    ensures |extras| > 0 && IsFormat(extras[|extras| - 1]) ==> fmt == extras[|extras| - 1][7..]
    decreases |extras|
  {
    if |extras| == 0 then ""
    else
      var last := extras[|extras| - 1];
      if IsFormat(last) then last[7..] else FormatOf(extras[..|extras| - 1])
  }

  /** Whether an extra part survives into the saved key. */
  predicate KeptPart(part: string) {
    IsSave(part) || IsFormat(part)
  }

  /** The extra parts a saved key keeps: the `save` and `format:` ones, in order. */
  function Kept(extras: seq<string>): (r: seq<string>)
    ensures |r| <= |extras|
    ensures forall x :: x in r <==> x in extras && (IsSave(x) || IsFormat(x))
  {
    Where(KeptPart, extras)
  }

  /** Keeping goes part by part: a single part is kept exactly when it is a
      `save` or `format:` part, and the kept parts of two runs of extras
      follow each other, so the order of the key is preserved. */
  lemma KeptInOrder(a: seq<string>, b: seq<string>, x: string)
    ensures Kept(a + b) == Kept(a) + Kept(b)
    ensures Kept([x]) == if IsSave(x) || IsFormat(x) then [x] else []
  {
    WhereAppend(KeptPart, a, b);
    assert [x][1..] == [];
  }

  /** The pieces of the key saved back into the template: the next start
      (after C#'s unchecked 32-bit addition), the steps as written, and the
      kept extra parts. */
  function SavedPieces(start: int, steps: int, parts: seq<string>): seq<string>
    requires |parts| >= 3
  {
    ["sequence", DecimalString(Wrap32(start + steps)), parts[2]] + Kept(parts[3..])
  }

  function NewSequenceKey(start: int, steps: int, parts: seq<string>): string
    requires |parts| >= 3
  {
    "<" + Join(SavedPieces(start, steps, parts), "|") + ">"
  }

  /** `copy` applied to the `count` values from `from` on, the texts one
      after another. */
  function Copies(copy: int -> string, from: int, count: nat): string
    decreases count
  {
    if count == 0 then "" else copy(from) + Copies(copy, from + 1, count - 1)
  }

  /** The texts for `m + n` values are those for the first `m` followed by
      those for the next `n`. */
  lemma {:induction false} CopiesSplit(copy: int -> string, from: int, m: nat, n: nat)
    ensures Copies(copy, from, m + n) == Copies(copy, from, m) + Copies(copy, from + m, n)
    decreases m
  {
    var tail := Copies(copy, from + m, n);
    if m == 0 {
      assert Copies(copy, from, 0) + tail == tail;
    } else {
      var middle := Copies(copy, from + 1, m - 1);
      CopiesSplit(copy, from + 1, m - 1, n);
      assert Copies(copy, from, m + n) == copy(from) + (middle + tail);
      AppendAssoc(copy(from), middle, tail);
    }
  }

  /** One copy of the template: the sequence key replaced by the value,
      then a line break. */
  function CopyOf(env: Env, t: string, seqKey: string, fmt: string): int -> string
    requires seqKey != ""
  {
    i => Replace(t, seqKey, Render(env, i, fmt)) + NewLine
  }

  /** The copies of the template for the values `from`, `from + 1`, ... ,
      each with the sequence key replaced by the value and a line break after. */
  function Blocks(env: Env, t: string, seqKey: string, from: int, count: nat, fmt: string): string
    requires seqKey != ""
  {
    Copies(CopyOf(env, t, seqKey, fmt), from, count)
  }

  /** The copies for `m + n` values are the copies for the first `m`
      followed by those for the next `n`. */
  lemma BlocksSplit(env: Env, t: string, seqKey: string, from: int, m: nat, n: nat, fmt: string)
    requires seqKey != ""
    ensures Blocks(env, t, seqKey, from, m + n, fmt) ==
            Blocks(env, t, seqKey, from, m, fmt) + Blocks(env, t, seqKey, from + m, n, fmt)
  {
    CopiesSplit(CopyOf(env, t, seqKey, fmt), from, m, n);
  }

  /** The keys other than `k`, in order. */
  function Without(keys: seq<string>, k: string): (r: seq<string>)
    ensures k !in r && |r| <= |keys|
    ensures forall x :: x in r <==> x in keys && x != k
    ensures NonEmptyKeys(keys) ==> NonEmptyKeys(r)
    decreases |keys|
  {
    if |keys| == 0 then []
    else
      var rest := Without(keys[1..], k);
      assert NonEmptyKeys(keys) ==> NonEmptyKeys(keys[1..]) by {
        if NonEmptyKeys(keys) {
          forall i | 0 <= i < |keys| - 1 ensures keys[1..][i] != "" { assert keys[1..][i] == keys[i + 1]; }
        }
      }
      assert forall x :: x in keys <==> x == keys[0] || x in keys[1..];
      if keys[0] == k then rest else [keys[0]] + rest
  }

  /** `Enumerable.Range(start, steps)` throws unless `steps >= 0` and the
      last value fits in 32 bits. */
  predicate RangeFits(start: int, steps: int) {
    steps >= 0 && start + steps - 1 <= Int32Max
  }

  /** `HandleSequenceAndOtherKeys`. A key with fewer than 3 or more than 5
      parts is reported and stops the run without clearing `Print`. Otherwise
      the start and the number of steps are asked for (the key's values are
      the defaults); with `save`, the stored template gets the key for the
      next run; then come the copies and the other keys. */
  function SequenceKey(env: Env, st: State, stored: string, t: string, keys: seq<string>, seqKey: string): (r: Out<string>)
    requires NonEmptyKeys(keys) && seqKey != ""
    ensures Follows(st, r.st) && |r.st.saves| <= |st.saves| + 1
    ensures |r.st.prompts| <= |st.prompts| + 2 + |keys|
    ensures !(3 <= |SequenceParts(seqKey)| <= 5) ==>
              && r.Done? && r.value == ""
              && r.st.errors == st.errors + [SequenceFormatError(seqKey)]
              && !r.st.go && r.st.toPrint == st.toPrint
              && r.st.prompts == st.prompts && r.st.saves == st.saves && r.st.infos == st.infos
  {
    var parts := SequenceParts(seqKey);
    if |parts| < 3 || |parts| > 5 then
      Done("", st.(errors := st.errors + [SequenceFormatError(seqKey)], go := false))
    else SequenceRun(env, st, stored, t, keys, seqKey, parts)
  }

  const StartPrompt: string := "Zadej počátek sekvence: "
  const StepsPrompt: string := "Zadej počet kroků: "

  /** Ask for the start, then for the number of steps; a cancelled answer
      ends the sequence with "". */
  function SequenceRun(env: Env, st: State, stored: string, t: string, keys: seq<string>, seqKey: string,
                       parts: seq<string>): (r: Out<string>)
    requires NonEmptyKeys(keys) && seqKey != "" && |parts| >= 3
    ensures Follows(st, r.st) && |r.st.saves| <= |st.saves| + 1
    ensures |r.st.prompts| <= |st.prompts| + 2 + |keys|
  {
    var first := AskInt(st, StartPrompt, parts[1]);
    if !first.st.go then Done("", first.st)
    else
      var count := AskInt(first.st, StepsPrompt, parts[2]);
      FollowsTrans(st, first.st, count.st);
      if !count.st.go then Done("", count.st)
      else
        var r := SequenceBody(env, count.st, stored, t, keys, seqKey, parts, first.value, count.value);
        FollowsTrans(st, count.st, r.st);
        r
  }

  /** With `save` among the extra parts, the stored template with the key
      rewritten for the next run is handed out to be saved. */
  function SaveKey(st: State, stored: string, seqKey: string, parts: seq<string>, start: int, steps: int): (r: State)
    requires seqKey != "" && |parts| >= 3
    ensures Saves(parts[3..]) ==> r.saves == st.saves + [Replace(stored, seqKey, NewSequenceKey(start, steps, parts))]
    ensures !Saves(parts[3..]) ==> r.saves == st.saves
    ensures r == st.(saves := r.saves)
  {
    if Saves(parts[3..]) then st.(saves := st.saves + [Replace(stored, seqKey, NewSequenceKey(start, steps, parts))])
    else st
  }

  /** The part of `HandleSequenceAndOtherKeys` after both answers. */
  function SequenceBody(env: Env, st: State, stored: string, t: string, keys: seq<string>, seqKey: string,
                        parts: seq<string>, start: int, steps: int): (r: Out<string>)
    requires NonEmptyKeys(keys) && seqKey != "" && |parts| >= 3
    ensures Follows(st, r.st)
    ensures r.st.saves == SaveKey(st, stored, seqKey, parts, start, steps).saves
    ensures |r.st.prompts| <= |st.prompts| + |keys|
    ensures !RangeFits(start, steps) ==> r == Thrown(ArgumentOutOfRange, SaveKey(st, stored, seqKey, parts, start, steps))
  {
    var saved := SaveKey(st, stored, seqKey, parts, start, steps);
    if !RangeFits(start, steps) then Thrown(ArgumentOutOfRange, saved)
    else
      var others := Without(keys, seqKey);
      var r := ReplaceAllKeys(env, saved, Blocks(env, t, seqKey, start, steps, FormatOf(parts[3..])), others);
      FollowsTrans(st, saved, r.st);
      r
  }

  /** A cancelled start ends the sequence after one prompt: "" and both
      flags cleared, nothing saved or reported. */
  lemma SequenceStartCancelled(env: Env, st: State, stored: string, t: string, keys: seq<string>, seqKey: string)
    requires NonEmptyKeys(keys) && seqKey != ""
    requires 3 <= |SequenceParts(seqKey)| <= 5 && Cancels(Next(st.answers))
    ensures var r := SequenceKey(env, st, stored, t, keys, seqKey);
      && r.Done? && r.value == ""
      && r.st.prompts == st.prompts + [Prompt(StartPrompt, SequenceParts(seqKey)[1])]
      && !r.st.go && !r.st.toPrint
      && r.st.saves == st.saves && r.st.errors == st.errors && r.st.infos == st.infos
  {
  }

  /** A cancelled number of steps ends the sequence after two prompts, the
      same way. */
  lemma SequenceStepsCancelled(env: Env, st: State, stored: string, t: string, keys: seq<string>, seqKey: string)
    requires NonEmptyKeys(keys) && seqKey != "" && st.go
    requires 3 <= |SequenceParts(seqKey)| <= 5
    requires !Cancels(Next(st.answers)) && Cancels(Next(Rest(st.answers)))
    ensures var r := SequenceKey(env, st, stored, t, keys, seqKey);
      var parts := SequenceParts(seqKey);
      && r.Done? && r.value == ""
      && r.st.prompts == st.prompts + [Prompt(StartPrompt, parts[1]), Prompt(StepsPrompt, parts[2])]
      && !r.st.go && !r.st.toPrint
      && r.st.saves == st.saves && r.st.errors == st.errors && r.st.infos == st.infos
  {
  }

  /** With both answers given, the template is saved first when the key asks
      for it (before the range is checked), and then either the range does
      not fit and `ArgumentOutOfRange` escapes, or the copies for the values
      `start .. start + steps - 1` are made and the other keys are filled in
      them. */
  lemma SequenceExpands(env: Env, st: State, stored: string, t: string, keys: seq<string>, seqKey: string)
    requires NonEmptyKeys(keys) && seqKey != "" && st.go
    requires 3 <= |SequenceParts(seqKey)| <= 5
    requires !Cancels(Next(st.answers)) && !Cancels(Next(Rest(st.answers)))
    ensures var parts := SequenceParts(seqKey);
      var start := ParseInt(Next(st.answers).value).GetOr(0);
      var steps := ParseInt(Next(Rest(st.answers)).value).GetOr(0);
      var saved := SaveKey(Answered(st, parts), stored, seqKey, parts, start, steps);
      var r := SequenceKey(env, st, stored, t, keys, seqKey);
      && (!RangeFits(start, steps) ==> r == Thrown(ArgumentOutOfRange, saved))
      && (RangeFits(start, steps) ==>
            r == ReplaceAllKeys(env, saved, Blocks(env, t, seqKey, start, steps, FormatOf(parts[3..])), Without(keys, seqKey)))
  {
    var parts := SequenceParts(seqKey);
    var start := ParseInt(Next(st.answers).value).GetOr(0);
    var steps := ParseInt(Next(Rest(st.answers)).value).GetOr(0);
    SequenceAnswered(env, st, stored, t, keys, seqKey);
    assert SequenceKey(env, st, stored, t, keys, seqKey) ==
           SequenceBody(env, Answered(st, parts), stored, t, keys, seqKey, parts, start, steps);
  }

  /** The state after both sequence answers were read. */
  function Answered(st: State, parts: seq<string>): State
    requires |parts| >= 3
  {
    st.(answers := Rest(Rest(st.answers)),
        prompts := st.prompts + [Prompt(StartPrompt, parts[1]), Prompt(StepsPrompt, parts[2])])
  }

  /** With both answers given, the sequence goes on with the two numbers read. */
  lemma SequenceAnswered(env: Env, st: State, stored: string, t: string, keys: seq<string>, seqKey: string)
    requires NonEmptyKeys(keys) && seqKey != "" && st.go
    requires 3 <= |SequenceParts(seqKey)| <= 5
    requires !Cancels(Next(st.answers)) && !Cancels(Next(Rest(st.answers)))
    ensures var parts := SequenceParts(seqKey);
      SequenceKey(env, st, stored, t, keys, seqKey) ==
      SequenceBody(env, Answered(st, parts), stored, t, keys, seqKey, parts,
                   ParseInt(Next(st.answers).value).GetOr(0), ParseInt(Next(Rest(st.answers)).value).GetOr(0))
  {
    var parts := SequenceParts(seqKey);
    var first := AskInt(st, StartPrompt, parts[1]);
    AskIntAnswered(st, StartPrompt, parts[1]);
    AskIntAnswered(first.st, StepsPrompt, parts[2]);
    var count := AskInt(first.st, StepsPrompt, parts[2]);
    assert count.st == Answered(st, parts);
    assert SequenceKey(env, st, stored, t, keys, seqKey) == SequenceRun(env, st, stored, t, keys, seqKey, parts);
  }

  /** The first key that starts, in any case, with `<sequence|`. */
  function FirstSequenceKey(keys: seq<string>): (r: Option<string>)
    ensures r.Some? ==> r.value in keys && StartsWithText(r.value, "<sequence|")
    ensures r.None? ==> forall i :: 0 <= i < |keys| ==> !StartsWithText(keys[i], "<sequence|")
    ensures r.Some? ==> exists i :: 0 <= i < |keys| && keys[i] == r.value &&
                          (forall j :: 0 <= j < i ==> !StartsWithText(keys[j], "<sequence|"))
    decreases |keys|
  {
    if |keys| == 0 then None
    else if StartsWithText(keys[0], "<sequence|") then Some(keys[0])
    else
      var r := FirstSequenceKey(keys[1..]);
      if r.Some? then
        assert exists i :: 0 <= i < |keys| && keys[i] == r.value &&
                 (forall j :: 0 <= j < i ==> !StartsWithText(keys[j], "<sequence|")) by {
          var i :| 0 <= i < |keys[1..]| && keys[1..][i] == r.value &&
                   (forall j :: 0 <= j < i ==> !StartsWithText(keys[1..][j], "<sequence|"));
          assert keys[i + 1] == r.value;
          forall j | 0 <= j < i + 1 ensures !StartsWithText(keys[j], "<sequence|") {
            if j > 0 { assert keys[j] == keys[1..][j - 1]; }
          }
        }
        r
      else r
  }

  /** The keys `ReadKeys` hands on, with the state after it: a `>` before the
      next `<` reports the error and clears both flags. */
  function ReadKeys(st: State, t: string): (r: Asked<seq<string>>)
    ensures r.value == Keys(t)
    ensures NonEmptyKeys(r.value)
    ensures ScanFrom(t, 0).wellFormed ==> r.st == st
    ensures !ScanFrom(t, 0).wellFormed ==>
              r.st == st.(errors := st.errors + [TemplateFormatError], go := false, toPrint := false)
  {
    var keys := Keys(t);
    assert NonEmptyKeys(keys) by {
      forall i | 0 <= i < |keys| ensures keys[i] != "" {
        assert keys[i] in keys;
      }
    }
    if ScanFrom(t, 0).wellFormed then Asked(keys, st)
    else Asked(keys, st.(errors := st.errors + [TemplateFormatError], go := false, toPrint := false))
  }

  /** `FillOutTemplate`: preprocess, read the keys, then expand the first
      sequence key if there is one, or fill the keys in place. `stored` is
      the file's template as stored, which a saved sequence rewrites. */
  function Fill(env: Env, st: State, stored: string, template: string): (r: Out<string>)
    ensures Follows(st, r.st) && |r.st.saves| <= |st.saves| + 1
  {
    var t := Preprocess(template);
    var read := ReadKeys(st, t);
    var r := FillKeys(env, read.st, stored, t, read.value);
    FollowsTrans(st, read.st, r.st);
    r
  }

  /** The keys read: the first sequence key decides how they are filled. */
  function FillKeys(env: Env, st: State, stored: string, t: string, keys: seq<string>): (r: Out<string>)
    requires NonEmptyKeys(keys)
    ensures Follows(st, r.st) && |r.st.saves| <= |st.saves| + 1
  {
    match FirstSequenceKey(keys)
    case Some(k) =>
      assert k != "" by { var i :| 0 <= i < |keys| && keys[i] == k; }
      SequenceKey(env, st, stored, t, keys, k)
    case None => ReplaceAllKeys(env, st, t, keys)
  }

  /** The file after `Process`, the final state, and the exception that
      escaped, if one did. */
  datatype Processed = Processed(file: EplFile, st: State, error: Option<Exception>)

  /** `Process`: start with both flags set, fill the file's template, and set
      the body. When an exception escapes the body stays as it was, but the
      `Print` flag keeps whatever the run had set it to. */
  function Process(env: Env, answers: seq<Option<string>>, file: EplFile): (r: Processed)
    ensures r.file.key == file.key && r.file.fileAddress == file.fileAddress && r.file.template == file.template
    ensures r.file.shouldPrint == r.st.toPrint
    ensures r.error.None? ==> r.file.body.Some?
    ensures r.error.Some? ==> r.file.body == file.body
    ensures r.st == Fill(env, Start(answers), file.template, file.template).st
  {
    match Fill(env, Start(answers), file.template, file.template)
    case Done(body, s) => Processed(file.(body := Some(body), shouldPrint := s.toPrint), s, None)
    case Thrown(e, s) => Processed(file.(shouldPrint := s.toPrint), s, Some(e))
  }

  /** A template that after preprocessing holds no `<` has no keys: the body
      is the preprocessed template, `Print` stays set, and nothing is asked,
      reported or saved. */
  lemma ProcessWithoutKeys(env: Env, answers: seq<Option<string>>, file: EplFile)
    requires '<' !in Preprocess(file.template)
    ensures var r := Process(env, answers, file);
      && r.error.None? && r.file.body == Some(Preprocess(file.template)) && r.file.shouldPrint
      && r.st == Start(answers)
  {
    var t := Preprocess(file.template);
    assert IndexOf(t, '<', 0) == -1;
    assert ScanFrom(t, 0).keys == [] && ScanFrom(t, 0).wellFormed;
    assert Keys(t) == [];
    assert ReadKeys(Start(answers), t) == Asked([], Start(answers));
    assert Fill(env, Start(answers), file.template, file.template) == Done(t, Start(answers));
  }

  /** Over a whole run the flags only go down, each prompt used up exactly
      one scripted answer, and the template was saved at most once. */
  lemma ProcessFollows(env: Env, answers: seq<Option<string>>, file: EplFile)
    ensures Follows(Start(answers), Process(env, answers, file).st)
    ensures Process(env, answers, file).st.answers == DropN(answers, |Process(env, answers, file).st.prompts|)
    ensures |Process(env, answers, file).st.saves| <= 1
  {
    var st := Fill(env, Start(answers), file.template, file.template).st;
    assert Process(env, answers, file).st == st;
    FollowsFromStart(answers, st);
  }
}

=== FILE: handlers.dfy ===
/** How the engine finds the text for one key: the primary-data table first,
    then the fixed keys (`GS1`, `uzivatel`), then the dynamic keys (`time`,
    `date`, `pocet`, `number`), and finally a question to the user. */
module KeyHandlers {
  import opened Outcomes
  import opened Strings
  import opened Numbers
  import opened ParserState
  import Tables
  import PrimaryData

  /** `Configuration.maxQuantity`: the most labels one request may print. */
  const MaxQuantity: int := 50

  /** The group separator GS1 barcodes need (U+001D). */
  const GroupSeparator: string := "\U{1D}"

  /** One handler call: a step of the run that asks at most once and saves
      no template. */
  predicate OneStep(a: State, b: State) {
    Follows(a, b) && |b.prompts| <= |a.prompts| + 1 && b.saves == a.saves
  }

  /** `int.ToString(format)`: plain decimal for the empty format, zero
      padding for a format of zeros, anything else left to the runtime. */
  function Render(env: Env, n: int, fmt: string): (r: string)
    ensures fmt == "" ==> r == DecimalString(n)
    ensures IsZeroPattern(fmt) ==> |r| >= |fmt|
  {
    if fmt == "" then DecimalString(n)
    else if IsZeroPattern(fmt) then ZeroPadded(n, |fmt|)
    else env.formatNumber(n, fmt)
  }

  /** A number rendered plainly or with zero padding reads back as itself. */
  lemma RenderReadsBack(env: Env, n: int, fmt: string)
    requires IsInt32(n) && (fmt == "" || IsZeroPattern(fmt))
    ensures ParseInt(Render(env, n, fmt)) == Some(n)
  {
    if fmt == "" {
      ParseDecimal(n);
    } else {
      ParseZeroPadded(n, |fmt|);
    }
  }

  /** The minutes written after the `+` of a time key, when they are a number. */
  function WrittenDrift(key: string): Option<int> {
    var plus := IndexOf(key, '+', 0);
    if plus == -1 then None else ParseInt(TrimEndOf(key[plus + 1..], {'>'}))
  }

  /** `DateTime.Now.AddMinutes(minutes).ToString("H:mm")`; `AddMinutes`
      throws when the result leaves the range of `DateTime`. */
  function ClockAfter(env: Env, minutes: int, st: State): (r: Out<string>)
    ensures r.st == st
    ensures r.Done? <==> 0 <= env.now + minutes <= MaxInstant
    ensures r.Done? ==> r.value == env.formatDate(env.now + minutes, "H:mm")
    ensures r.Thrown? ==> r.error == ArgumentOutOfRange
  {
    var t := env.now + minutes;
    if 0 <= t <= MaxInstant then Done(env.formatDate(t, "H:mm"), st)
    else Thrown(ArgumentOutOfRange, st)
  }

  const MinutesPrompt: string := "Zadej počet minut: "

  /** `HandleTimeKey`: the time now, or shifted by the minutes after `+`
      (asked for, offering 30, when they are not a number), as `H:mm`. */
  function TimeKey(env: Env, st: State, key: string): (r: Out<string>)
    ensures OneStep(st, r.st)
    ensures r.st.errors == st.errors && r.st.infos == st.infos
    ensures IndexOf(key, '+', 0) == -1 ==> r == Done(env.formatDate(env.now, "H:mm"), st)
    ensures WrittenDrift(key).Some? ==> r == ClockAfter(env, WrittenDrift(key).value, st)
    ensures IndexOf(key, '+', 0) != -1 && WrittenDrift(key).None? ==>
              r.st == Ask(st, MinutesPrompt, "30").st &&
              r == ClockAfter(env, if Cancels(Next(st.answers)) then 0 else ParseInt(Next(st.answers).value).GetOr(0), r.st)
    ensures r.Thrown? ==> r.error == ArgumentOutOfRange
  {
    if IndexOf(key, '+', 0) == -1 then Done(env.formatDate(env.now, "H:mm"), st)
    else match WrittenDrift(key)
      case Some(minutes) => ClockAfter(env, minutes, st)
      case None =>
        var got := AskInt(st, MinutesPrompt, "30");
        ClockAfter(env, got.value, got.st)
  }

  /** A key `<time+n>` shifts the clock by `n` minutes without asking. */
  lemma TimeKeyWritten(env: Env, st: State, n: int)
    requires IsInt32(n)
    ensures TimeKey(env, st, "<time+" + DecimalString(n) + ">") == ClockAfter(env, n, st)
  {
    var digits := DecimalString(n);
    var key := "<time+" + digits + ">";
    IndexOfIs(key, '+', 0, 5);
    assert key[6..] == digits + ">";
    DecimalShape(n);
    assert (digits + ">")[..|digits|] == digits;
    assert TrimEndOf(digits + ">", {'>'}) == TrimEndOf(digits, {'>'});
    assert TrimEndOf(digits, {'>'}) == digits;
    ParseDecimal(n);
  }

  /** The `format:` of a date key runs from the first `:` to the end, without
      the closing `>`; without one the format is `dd.MM.yyyy`. */
  function DateFormat(key: string): string {
    if ContainsText(key, "format:") then
      FormatHasColon(key);
      TrimEndOf(key[IndexOf(key, ':', 0) + 1..], {'>'})
    else "dd.MM.yyyy"
  }

  lemma FormatHasColon(key: string)
    requires ContainsText(key, "format:")
    ensures IndexOf(key, ':', 0) != -1
  {
    var f := Fold("format:");
    assert f[6] == ':';
    OccursHas(f, Fold(key), 6);
    FoldKeeps(key, ':');
    IndexOfFirst(key, ':', 0);
  }

  /** The parts of a date key between `+` and `|`, without a last part that
      is the format. */
  function DateParts(key: string): (r: seq<string>)
    ensures forall i :: 0 <= i < |r| ==> NoneIn(r[i], {'+', '|'})
  {
    var parts := SplitAny(TrimOf(key, Brackets), {'+', '|'});
    if StartsWithText(parts[|parts| - 1], "format:") then parts[..|parts| - 1] else parts
  }

  /** `HandleDateKey`: now, now plus a number of days, or, with a lot key
      as third part, the earlier of that date and the lot's expiry. */
  function DateKey(env: Env, st: State, key: string): (r: Out<string>)
    ensures OneStep(st, r.st) && r.st.errors == st.errors
    ensures IndexOf(key, '+', 0) == -1 ==> r == Done(env.formatDate(env.now, DateFormat(key)), st)
    ensures IndexOf(key, '+', 0) != -1 ==> r == DriftDate(env, st, DateParts(key), DateFormat(key))
  {
    if IndexOf(key, '+', 0) == -1 then Done(env.formatDate(env.now, DateFormat(key)), st)
    else DriftDate(env, st, DateParts(key), DateFormat(key))
  }

  /** The parts of a date key with a `+`: a missing second part throws; `exp`
      gives "expirace"; a number of days gives that day (throwing past the
      range of `DateTime`), alone or with a lot as third part; anything else
      gives "". */
  function DriftDate(env: Env, st: State, parts: seq<string>, fmt: string): (r: Out<string>)
    ensures OneStep(st, r.st) && r.st.errors == st.errors
    ensures |parts| < 2 ==> r == Thrown(IndexOutOfRange, st)
    ensures |parts| >= 2 && parts[1] == "exp" ==> r == Done("expirace", st)
    ensures |parts| >= 2 && parts[1] != "exp" && ParseInt(parts[1]).None? ==> r == Done("", st)
    ensures |parts| >= 2 && parts[1] != "exp" && ParseInt(parts[1]).Some? ==>
              var bottle := DaysAfter(env.now, ParseInt(parts[1]).value);
              && (!(0 <= bottle <= MaxInstant) ==> r == Thrown(ArgumentOutOfRange, st))
              && (0 <= bottle <= MaxInstant && |parts| == 2 ==> r == Done(env.formatDate(bottle, fmt), st))
              && (0 <= bottle <= MaxInstant && |parts| == 3 ==> r == LotDate(env, st, parts[2], bottle, fmt))
              && (0 <= bottle <= MaxInstant && |parts| > 3 ==> r == Done("", st))
  {
    if |parts| < 2 then Thrown(IndexOutOfRange, st)
    else if parts[1] == "exp" then Done("expirace", st)
    else match ParseInt(parts[1])
      case None => Done("", st)
      case Some(days) =>
        var bottle := DaysAfter(env.now, days);
        if !(0 <= bottle <= MaxInstant) then Thrown(ArgumentOutOfRange, st)
        else if |parts| == 2 then Done(env.formatDate(bottle, fmt), st)
        else if |parts| == 3 then LotDate(env, st, parts[2], bottle, fmt)
        else Done("", st)
  }

  /** A key `<date+n>` prints the date `n` days from now in the default
      format, without asking. */
  lemma DateKeyWritten(env: Env, st: State, n: int)
    requires IsInt32(n) && 0 <= DaysAfter(env.now, n) <= MaxInstant
    ensures DateKey(env, st, "<date+" + DecimalString(n) + ">") ==
            Done(env.formatDate(DaysAfter(env.now, n), "dd.MM.yyyy"), st)
  {
    var digits := DecimalString(n);
    DateKeyWrittenShape(n);
    ParseDecimal(n);
    assert DateKey(env, st, "<date+" + digits + ">") == DriftDate(env, st, ["date", digits], "dd.MM.yyyy");
  }

  /** How `<date+n>` reads: the default format, a `+`, and the parts
      `date` and the digits of `n`, which are not `exp`. */
  lemma DateKeyWrittenShape(n: int)
    ensures var key := "<date+" + DecimalString(n) + ">";
      && DateFormat(key) == "dd.MM.yyyy"
      && IndexOf(key, '+', 0) == 5
      && DateParts(key) == ["date", DecimalString(n)]
      && DecimalString(n) != "exp"
  {
    var digits := DecimalString(n);
    var key := "<date+" + digits + ">";
    DecimalShape(n);
    NoFormatInDateKey(digits);
    IndexOfIs(key, '+', 0, 5);
    DatePartsWritten(digits);
    assert digits[0] != 'e';
  }

  lemma NoFormatInDateKey(digits: string)
    requires |digits| >= 1 && (digits[0] == '-' || IsDigit(digits[0])) && AllDigits(digits[1..])
    ensures !ContainsText("<date+" + digits + ">", "format:")
  {
    var key := "<date+" + digits + ">";
    var folded := Fold(key);
    forall j | 0 <= j < |key| ensures folded[j] != 'f' {
      if 6 <= j < 6 + |digits| {
        assert key[j] == digits[j - 6];
        if j > 6 { assert digits[j - 6] == digits[1..][j - 7]; }
      }
    }
    assert Fold("format:")[0] == 'f';
    AbsentFirst(folded, Fold("format:"));
  }

  /** The parts of `<date+n>` are `date` and the digits of `n`. */
  lemma DatePartsWritten(digits: string)
    requires |digits| >= 1 && IsDigit(digits[|digits| - 1])
    requires (digits[0] == '-' || IsDigit(digits[0])) && AllDigits(digits[1..])
    ensures DateParts("<date+" + digits + ">") == ["date", digits]
  {
    var key := "<date+" + digits + ">";
    var inner := "date+" + digits;
    assert key == ['<'] + inner + ['>'];
    BracketsAround(inner);
    var split := SplitAny(inner, {'+', '|'});
    forall i | 0 <= i < |digits| ensures digits[i] !in {'+', '|'} {
      if i > 0 { assert digits[i] == digits[1..][i - 1]; }
    }
    assert inner == Join(["date", digits], "+");
    SplitJoin(["date", digits], '+', {'+', '|'});
    assert split[1] == digits;
    assert !StartsWithText(digits, "format:") by {
      if |digits| >= 7 {
        assert Fold(digits[..7])[0] != Fold("format:")[0];
      }
    }
  }

  /** Trimming the brackets of `<inner>` gives `inner` when `inner` starts
      and ends with no bracket. */
  lemma BracketsAround(inner: string)
    requires |inner| >= 1 && inner[0] !in Brackets && inner[|inner| - 1] !in Brackets
    ensures TrimOf(['<'] + inner + ['>'], Brackets) == inner
  {
    var key := ['<'] + inner + ['>'];
    assert key[..|key| - 1] == ['<'] + inner;
    assert TrimEndOf(['<'] + inner, Brackets) == ['<'] + inner;
    assert (['<'] + inner)[1..] == inner;
    assert TrimStartOf(inner, Brackets) == inner;
  }

  /** `GetLotExpiration`: the lot key as a date, else the date stored under
      it in the primary data, else the date the user gives. An empty or "0"
      key stops the run, without clearing `Print`, and gives the latest date. */
  function LotExpiration(env: Env, st: State, lot: string): (r: Asked<Instant>)
    ensures OneStep(st, r.st)
    ensures r.st.errors == st.errors && r.st.infos == st.infos
    ensures lot == "" || lot == "0" ==> r.value == MaxInstant && !r.st.go && r.st.toPrint == st.toPrint
    ensures lot != "" && lot != "0" && env.parseDate(lot).Some? ==> r == Asked(env.parseDate(lot).value, st)
    ensures lot != "" && lot != "0" && env.parseDate(lot).None? && StoredDate(env, lot).Some? ==>
              r == Asked(StoredDate(env, lot).value, st)
    ensures lot != "" && lot != "0" && env.parseDate(lot).None? && StoredDate(env, lot).None? ==>
              r == AskDate(env, st, "Zadej expiraci: ", MaxDateText)
  {
    if lot == "" || lot == "0" then Asked(MaxInstant, st.(go := false))
    else match env.parseDate(lot)
      case Some(d) => Asked(d, st)
      case None =>
        var stored := Tables.Lookup(env.primary, lot);
        if stored.Some? && stored.value != "" && env.parseDate(stored.value).Some? then
          Asked(env.parseDate(stored.value).value, st)
        else AskDate(env, st, "Zadej expiraci: ", MaxDateText)
  }

  /** The date the primary data holds for a lot: a non-empty stored text
      that parses as a date. */
  function StoredDate(env: Env, lot: string): Option<Instant> {
    var stored := Tables.Lookup(env.primary, lot);
    if stored.Some? && stored.value != "" then env.parseDate(stored.value) else None
  }

  /** A lot whose expiry a loaded primary-data file holds, in any letter
      case, resolves to that date without a prompt. */
  lemma LotFromLoadedEntry(env: Env, st: State, lot: string, content: string, e: Tables.Entry)
    requires lot != "" && lot != "0" && env.parseDate(lot).None?
    requires content != "" && env.primary == PrimaryData.Load(content).table
    requires Tables.DistinctKeys(PrimaryData.Entries(PrimaryData.NonEmptyLines(content)))
    requires e in PrimaryData.Entries(PrimaryData.NonEmptyLines(content)) && SameText(lot, e.key)
    requires e.value != "" && env.parseDate(e.value).Some?
    ensures LotExpiration(env, st, lot) == Asked(env.parseDate(e.value).value, st)
  {
    PrimaryData.LoadFindsEveryEntry(content, e, lot);
  }

  /** A lot with no date of its own or in the primary data is asked for;
      a cancelled answer gives `default(DateTime)`, which the notice rule
      then reports as expired and stops the printing. */
  lemma LotAskedCancelled(env: Env, st: State, lot: string, bottle: Instant, fmt: string)
    requires lot != "" && lot != "0" && env.parseDate(lot).None? && StoredDate(env, lot).None?
    requires Cancels(Next(st.answers)) && 0 < env.Today()
    ensures LotDate(env, st, lot, bottle, fmt) ==
            Done("", st.(answers := Rest(st.answers),
                         prompts := st.prompts + [Prompt("Zadej expiraci: ", MaxDateText)],
                         infos := st.infos + [LotInPast(env.formatDate(0, "dd.MM.yyyy"))],
                         go := false, toPrint := false))
  {
  }

  /** The earlier of two instants. */
  function Earlier(a: Instant, b: Instant): (r: Instant)
    ensures r <= a && r <= b && (r == a || r == b)
  {
    if a < b then a else b
  }

  /** The lot branch of `HandleDateKey`: the lot's expiry, then the notice. */
  function LotDate(env: Env, st: State, lot: string, bottle: Instant, fmt: string): (r: Out<string>)
    ensures r.Done? && OneStep(st, r.st) && r.st.errors == st.errors
    ensures r == LotNotice(env, LotExpiration(env, st, lot), bottle, fmt)
  {
    var got := LotExpiration(env, st, lot);
    var r := LotNotice(env, got, bottle, fmt);
    FollowsTrans(st, got.st, r.st);
    r
  }

  /** Given the lot's expiry: an expired lot stops the run and the printing
      with a notice; a lot expiring within a month is noted; the date
      printed is the earlier of the bottle's and the lot's. */
  function LotNotice(env: Env, got: Asked<Instant>, bottle: Instant, fmt: string): (r: Out<string>)
    ensures r.Done? && Follows(got.st, r.st) && r.st.prompts == got.st.prompts
    ensures r.st.errors == got.st.errors && r.st.saves == got.st.saves
    ensures got.value < env.Today() ==>
              r == Done("", got.st.(infos := got.st.infos + [LotInPast(env.formatDate(got.value, "dd.MM.yyyy"))],
                                    go := false, toPrint := false))
    ensures env.Today() <= got.value ==> r.value == env.formatDate(Earlier(bottle, got.value), fmt)
    ensures env.Today() <= got.value < env.monthLater ==>
              r.st == got.st.(infos := got.st.infos + [LotSoon(env.formatDate(got.value, "dd.MM.yyyy"))])
    ensures env.Today() <= got.value && env.monthLater <= got.value ==> r.st == got.st
  {
    var expiry := got.value;
    var shown := env.formatDate(expiry, "dd.MM.yyyy");
    if expiry < env.Today() then
      Done("", got.st.(infos := got.st.infos + [LotInPast(shown)], go := false, toPrint := false))
    else
      var noted := if expiry < env.monthLater then got.st.(infos := got.st.infos + [LotSoon(shown)]) else got.st;
      Done(env.formatDate(Earlier(bottle, expiry), fmt), noted)
  }

  const QuantityPrompt: string := "Zadej počet štítků"

  /** The answer the quantity prompt offers: the number after `|` (the whole
      key when there is no `|`), written plainly, or "1". */
  function QuantityOffered(key: string): string {
    var sep := IndexOf(key, '|', 0);
    var given := ParseInt(TrimEndOf(key[sep + 1..], {'>'}));
    if given.Some? then DecimalString(given.value) else "1"
  }

  /** `quantity > maxQuantity ? maxQuantity : quantity`. */
  function Capped(quantity: int): (r: int)
    ensures r <= MaxQuantity && (r == quantity || r == MaxQuantity)
    ensures quantity <= MaxQuantity <==> r == quantity
  {
    if quantity > MaxQuantity then MaxQuantity else quantity
  }

  /** `HandlePocetKey`: ask how many labels, offering the number after `|`
      (or 1), and cap the answer at `MaxQuantity`. */
  function PocetKey(st: State, key: string): (r: Out<string>)
    ensures r.Done? && OneStep(st, r.st)
    ensures r.st == Ask(st, QuantityPrompt, QuantityOffered(key)).st
    ensures ParseInt(r.value).Some? && ParseInt(r.value).value <= MaxQuantity
    ensures Cancels(Next(st.answers)) ==> r.value == "0" && !r.st.go && !r.st.toPrint
    ensures !Cancels(Next(st.answers)) ==>
              r.value == DecimalString(Capped(ParseInt(Next(st.answers).value).GetOr(0))) &&
              r.st.go == st.go && r.st.toPrint == st.toPrint
  {
    var got := AskInt(st, QuantityPrompt, QuantityOffered(key));
    var count := Capped(got.value);
    ParseDecimal(count);
    Done(DecimalString(count), got.st)
  }

  /** A key `<pocet|n>` offers `n`. */
  lemma QuantityOfferedWritten(n: int)
    requires IsInt32(n)
    ensures QuantityOffered("<pocet|" + DecimalString(n) + ">") == DecimalString(n)
  {
    var digits := DecimalString(n);
    var key := "<pocet|" + digits + ">";
    IndexOfIs(key, '|', 0, 6);
    assert key[7..] == digits + ">";
    DecimalShape(n);
    assert (digits + ">")[..|digits|] == digits;
    assert TrimEndOf(digits + ">", {'>'}) == TrimEndOf(digits, {'>'});
    assert TrimEndOf(digits, {'>'}) == digits;
    ParseDecimal(n);
  }

  /** Answering the quantity prompt with a number other than 0 prints that
      number, capped, and the run goes on. */
  lemma PocetReadsBack(st: State, key: string, n: int)
    requires IsInt32(n) && n != 0 && Next(st.answers) == Some(DecimalString(n))
    ensures ParseInt(PocetKey(st, key).value) == Some(Capped(n))
    ensures PocetKey(st, key).st.go == st.go
  {
    DecimalShape(n);
    ParseDecimal(n);
    ParseDecimal(Capped(n));
  }

  /** The `format:` third part of a number key, if there are exactly three. */
  function NumberFormat(parts: seq<string>): string {
    if |parts| == 3 && StartsWithText(parts[2], "format:") then parts[2][|"format:"|..] else ""
  }

  /** The parts of a number key between `|`, without the brackets. */
  function NumberParts(key: string): (r: seq<string>)
    ensures |r| >= 1
  {
    SplitAny(TrimOf(key, Brackets), {'|'})
  }

  /** `HandleNumberKey`: `<number|text|format:...>`. A number in place of the
      text is printed as it is; otherwise the user is asked for one. Fewer
      than two parts is reported and gives "" without stopping the run. */
  function NumberKey(env: Env, st: State, key: string): (r: Out<string>)
    ensures r.Done? && OneStep(st, r.st) && r.st.infos == st.infos
    ensures |NumberParts(key)| < 2 ==> r == Done("", st.(errors := st.errors + [NumberFormatError(key)]))
    ensures |NumberParts(key)| >= 2 ==> r.st.errors == st.errors
    ensures |NumberParts(key)| >= 2 && ParseInt(NumberParts(key)[1]).Some? ==>
              r == Done(Render(env, ParseInt(NumberParts(key)[1]).value, NumberFormat(NumberParts(key))), st)
    ensures |NumberParts(key)| >= 2 && ParseInt(NumberParts(key)[1]).None? ==>
              r.st == Ask(st, "Zadej " + NumberParts(key)[1] + ": ", "").st
  {
    var parts := NumberParts(key);
    if |parts| < 2 then Done("", st.(errors := st.errors + [NumberFormatError(key)]))
    else NumberValue(env, st, parts[1], NumberFormat(parts))
  }

  /** The text part as a number, or the number the user gives for it. */
  function NumberValue(env: Env, st: State, text: string, fmt: string): (r: Out<string>)
    ensures r.Done? && OneStep(st, r.st) && r.st.infos == st.infos && r.st.errors == st.errors
    ensures ParseInt(text).Some? ==> r.st == st
    ensures ParseInt(text).None? ==> r.st == Ask(st, "Zadej " + text + ": ", "").st
  {
    match ParseInt(text)
    case Some(n) => Done(Render(env, n, fmt), st)
    case None =>
      var got := AskInt(st, "Zadej " + text + ": ", "");
      Done(Render(env, got.value, fmt), got.st)
  }

  /** With no format or a format of zeros, the printed number reads back as
      the number written in the key, or else as the number answered (0 when
      the answer is cancelled or not a number). */
  lemma NumberKeyReadsBack(env: Env, st: State, key: string)
    requires |NumberParts(key)| >= 2
    requires NumberFormat(NumberParts(key)) == "" || IsZeroPattern(NumberFormat(NumberParts(key)))
    ensures var text := NumberParts(key)[1];
      ParseInt(NumberKey(env, st, key).value) ==
        Some(if ParseInt(text).Some? then ParseInt(text).value
             else if Cancels(Next(st.answers)) then 0 else ParseInt(Next(st.answers).value).GetOr(0))
  {
    var parts := NumberParts(key);
    var fmt := NumberFormat(parts);
    match ParseInt(parts[1])
    case Some(n) => RenderReadsBack(env, n, fmt);
    case None =>
      var got := AskInt(st, "Zadej " + parts[1] + ": ", "");
      RenderReadsBack(env, got.value, fmt);
  }

  /** `HandleDefaultKey`: ask for the text, naming the key without brackets. */
  function DefaultKey(st: State, key: string): (r: Out<string>)
    ensures r.Done? && r.st == Ask(st, "Zadej " + TrimOf(key, Brackets), "").st
    ensures !Cancels(Next(st.answers)) ==> r.value == Next(st.answers).value
    ensures Cancels(Next(st.answers)) ==> r.value == ""
  {
    var got := AskText(st, "Zadej " + TrimOf(key, Brackets), "");
    Done(got.value, got.st)
  }

  /** While the run goes on, a key asked for by name comes back empty
      exactly when the answer stopped the run. */
  lemma DefaultKeyEmptyStops(st: State, key: string)
    requires st.go
    ensures DefaultKey(st, key).value == "" <==> !DefaultKey(st, key).st.go
  {
  }

  /** A key that none of the fixed or dynamic rules match. */
  predicate AskedByName(env: Env, key: string) {
    && key != "<GS1>" && key != "<gs1>"
    && !(env.login && key == "<uzivatel>")
    && !StartsWithText(key, "<time") && !StartsWithText(key, "<date")
    && !StartsWithText(key, "<pocet") && !StartsWithText(key, "<number")
  }

  /** `FindValueNotInPrimaryData`: the first rule whose key matches. */
  function NotInPrimary(env: Env, st: State, key: string): (r: Out<string>)
    ensures OneStep(st, r.st)
    ensures key == "<GS1>" || key == "<gs1>" ==> r == Done(GroupSeparator, st)
    ensures key != "<GS1>" && key != "<gs1>" && env.login && key == "<uzivatel>" ==> r == Done(env.user, st)
    ensures AskedByName(env, key) ==> r == DefaultKey(st, key)
    ensures !AskedByName(env, key) && key != "<GS1>" && key != "<gs1>" && !(env.login && key == "<uzivatel>") ==>
              (StartsWithText(key, "<time") ==> r == TimeKey(env, st, key)) &&
              (!StartsWithText(key, "<time") && StartsWithText(key, "<date") ==> r == DateKey(env, st, key)) &&
              (!StartsWithText(key, "<time") && !StartsWithText(key, "<date") && StartsWithText(key, "<pocet") ==>
                 r == PocetKey(st, key)) &&
              (!StartsWithText(key, "<time") && !StartsWithText(key, "<date") && !StartsWithText(key, "<pocet") ==>
                 r == NumberKey(env, st, key))
  {
    if key == "<GS1>" || key == "<gs1>" then Done(GroupSeparator, st)
    else if env.login && key == "<uzivatel>" then Done(env.user, st)
    else if StartsWithText(key, "<time") then TimeKey(env, st, key)
    else if StartsWithText(key, "<date") then DateKey(env, st, key)
    else if StartsWithText(key, "<pocet") then PocetKey(st, key)
    else if StartsWithText(key, "<number") then NumberKey(env, st, key)
    else DefaultKey(st, key)
  }

  /** `FindValue`: the stored value of the key without its brackets, looked
      up without regard to case; otherwise the rules above. */
  function FindValue(env: Env, st: State, key: string): (r: Out<string>)
    ensures OneStep(st, r.st)
  {
    match Tables.Lookup(env.primary, TrimOf(key, Brackets))
    case Some(v) => Done(v, st)
    case None => NotInPrimary(env, st, key)
  }

  /** A key that is not stored and matches no rule is asked for by its
      name, once, with nothing offered. */
  lemma AskedByNameOnce(env: Env, st: State, key: string)
    requires Tables.Lookup(env.primary, TrimOf(key, Brackets)).None? && AskedByName(env, key)
    ensures FindValue(env, st, key).st.prompts == st.prompts + [Prompt("Zadej " + TrimOf(key, Brackets), "")]
    ensures !Cancels(Next(st.answers)) ==>
              FindValue(env, st, key) ==
              Done(Next(st.answers).value,
                   st.(answers := Rest(st.answers), prompts := st.prompts + [Prompt("Zadej " + TrimOf(key, Brackets), "")]))
  {
  }

  /** A key found in the primary data gets the stored value, before any
      other rule: nothing is asked and nothing else changes. */
  lemma PrimaryFirst(env: Env, st: State, key: string)
    requires Tables.Lookup(env.primary, TrimOf(key, Brackets)).Some?
    ensures FindValue(env, st, key) == Done(Tables.Lookup(env.primary, TrimOf(key, Brackets)).value, st)
  {
  }

  /** With the table `LoadPrimaryData` builds from the primary-data file, a
      key naming one of the file's entries, in any letter case, gets that
      entry's value and nothing is asked. */
  lemma FindsLoadedEntry(env: Env, st: State, key: string, content: string, e: Tables.Entry)
    requires content != "" && env.primary == PrimaryData.Load(content).table
    requires Tables.DistinctKeys(PrimaryData.Entries(PrimaryData.NonEmptyLines(content)))
    requires e in PrimaryData.Entries(PrimaryData.NonEmptyLines(content))
    requires SameText(TrimOf(key, Brackets), e.key)
    ensures FindValue(env, st, key) == Done(e.value, st)
  {
    PrimaryData.LoadFindsEveryEntry(content, e, TrimOf(key, Brackets));
  }
}

=== FILE: loader.dfy ===
/** Master-template expansion: a data file whose `keys:` line names the
    placeholders and whose rows give their values yields one filled copy of
    the master template per row. The data lines and the template text are
    parameters; reading them from disk is not part of this model. */
module Loader {
  import opened Outcomes
  import opened Strings
  import opened EplFiles

  /** The first position at or after `p` that holds whitespace, or the end. */
  function RunEnd(s: string, p: nat, ws: set<char>): (e: nat)
    requires p <= |s|
    ensures p <= e <= |s|
    ensures e == |s| || s[e] in ws
    ensures forall i :: p <= i < e ==> s[i] !in ws
    decreases |s| - p
  {
    if p == |s| || s[p] in ws then p else RunEnd(s, p + 1, ws)
  }

  /** The first alternative `"[^"]*"` with its look-ahead `(?=\s|$)`, tried
      at `p`: the position of the closing quote, or -1 when it does not match. */
  function ClosingQuote(s: string, p: nat, ws: set<char>): (q: int)
    requires p < |s|
    ensures q == -1 || (p < q < |s| && s[p] == '"' && s[q] == '"')
    ensures q != -1 ==> q + 1 == |s| || s[q + 1] in ws
  {
    if s[p] != '"' then -1
    else
      var q := IndexOf(s, '"', p + 1);
      if q != -1 && (q + 1 == |s| || s[q + 1] in ws) then q else -1
  }

  /** A match can begin at `p`: the look-behind `(?<=\s|^)` holds and the
      character is not whitespace, which both alternatives need. */
  predicate MayStart(s: string, p: nat, ws: set<char>)
    requires p < |s|
  {
    (p == 0 || s[p - 1] in ws) && s[p] !in ws
  }

  /** What the search finds at one position: the match (none, or one with
      its surrounding quotes trimmed), and where the search goes on. */
  datatype Match = Match(found: seq<string>, end: nat)

  /** The attempt at `p`. When the quoted alternative fails, the second
      takes the whole run of non-whitespace, the only length after which the
      look-ahead `(?=\s|$)` holds. */
  function MatchAt(s: string, p: nat, ws: set<char>): (m: Match)
    requires p < |s|
    ensures p < m.end <= |s|
  {
    if !MayStart(s, p, ws) then Match([], p + 1)
    else
      var q := ClosingQuote(s, p, ws);
      var e := if q != -1 then q + 1 else RunEnd(s, p, ws);
      Match([TrimOf(s[p..e], {'"'})], e)
  }

  /** `Regex.Matches(s, (?<=\s|^)("[^"]*"|\S+)(?=\s|$))` from position `p`,
      each match with its surrounding quotes trimmed. */
  function Tokens(s: string, p: nat, ws: set<char>): seq<string>
    requires p <= |s|
    decreases |s| - p
  {
    if p == |s| then []
    else
      var m := MatchAt(s, p, ws);
      m.found + Tokens(s, m.end, ws)
  }

  /** `EplFileLoader.Split`. */
  function Split(s: string): seq<string> {
    Tokens(s, 0, White)
  }

  /** Where no match may begin, the search moves on by one. */
  lemma TokensSkip(s: string, p: nat, ws: set<char>)
    requires p < |s| && !MayStart(s, p, ws)
    ensures Tokens(s, p, ws) == Tokens(s, p + 1, ws)
  {
    var none: seq<string> := [];
    assert MatchAt(s, p, ws) == Match(none, p + 1);
    assert none + Tokens(s, p + 1, ws) == Tokens(s, p + 1, ws);
  }

  /** Text made of whitespace only has no tokens. */
  lemma {:induction false} TokensOfBlank(s: string, p: nat, ws: set<char>)
    requires p <= |s| && forall i :: 0 <= i < |s| ==> s[i] in ws
    ensures Tokens(s, p, ws) == []
    decreases |s| - p
  {
    if p < |s| {
      TokensOfBlank(s, p + 1, ws);
      TokensSkip(s, p, ws);
    }
  }

  /** A separator-free word in front of a separator is one piece of the split. */
  lemma {:induction false} SplitAnyWord(w: string, rest: string, cs: set<char>)
    requires NoneIn(w, cs) && |rest| > 0 && rest[0] in cs
    ensures SplitAny(w + rest, cs) == [w] + SplitAny(rest[1..], cs)
    decreases |w|
  {
    if |w| == 0 {
      assert w + rest == rest;
    } else {
      SplitAnyWord(w[1..], rest, cs);
      assert (w + rest)[1..] == w[1..] + rest;
      assert w == [w[0]] + w[1..];
    }
  }

  /** A match that begins with a character other than a quote is the whole
      run of non-whitespace, and trimming quotes leaves it alone. */
  lemma MatchAtWord(s: string, p: nat, ws: set<char>)
    requires p < |s| && MayStart(s, p, ws) && NoneIn(s, {'"'})
    ensures RunEnd(s, p, ws) > p
    ensures MatchAt(s, p, ws) == Match([s[p..RunEnd(s, p, ws)]], RunEnd(s, p, ws))
  {
    var e := RunEnd(s, p, ws);
    assert s[p] != '"';
    var w := s[p..e];
    assert w[0] == s[p] && w[|w| - 1] == s[e - 1];
    assert w[0] != '"' && w[|w| - 1] != '"';
    TrimOfUntouched(w, {'"'});
  }

  lemma TokensWord(s: string, p: nat, ws: set<char>)
    requires p < |s| && MayStart(s, p, ws) && NoneIn(s, {'"'})
    ensures RunEnd(s, p, ws) > p
    ensures Tokens(s, p, ws) == [s[p..RunEnd(s, p, ws)]] + Tokens(s, RunEnd(s, p, ws), ws)
  {
    MatchAtWord(s, p, ws);
  }

  lemma NonEmptyCons(w: string, rest: seq<string>)
    ensures NonEmpty([w] + rest) == if w == "" then NonEmpty(rest) else [w] + NonEmpty(rest)
  {
    assert ([w] + rest)[1..] == rest;
  }

  /** The words from a whitespace character on are the words after it. */
  lemma WordsAtWhite(s: string, p: nat, ws: set<char>)
    requires p < |s| && s[p] in ws
    requires Tokens(s, p + 1, ws) == NonEmpty(SplitAny(s[p + 1..], ws))
    ensures Tokens(s, p, ws) == NonEmpty(SplitAny(s[p..], ws))
  {
    TokensSkip(s, p, ws);
    SliceSplits(s, p, p);
    SplitAnyWord("", s[p..], ws);
    assert "" + s[p..] == s[p..];
    NonEmptyCons("", SplitAny(s[p + 1..], ws));
  }

  /** The run of non-whitespace that starts at `p` holds no whitespace. */
  lemma RunPlain(s: string, p: nat, ws: set<char>)
    requires p <= |s|
    ensures NoneIn(s[p..RunEnd(s, p, ws)], ws)
  {
    var e := RunEnd(s, p, ws);
    forall i | 0 <= i < e - p
      ensures s[p..e][i] !in ws
    {
      assert s[p..e][i] == s[p + i];
    }
  }

  /** The matches of a last run of non-whitespace: the run itself. */
  lemma TokensLastRun(s: string, p: nat, ws: set<char>)
    requires p < |s| && MayStart(s, p, ws) && NoneIn(s, {'"'}) && RunEnd(s, p, ws) == |s|
    ensures Tokens(s, p, ws) == [s[p..]]
  {
    TokensWord(s, p, ws);
    var w := s[p..|s|];
    assert w == s[p..];
    var none: seq<string> := Tokens(s, |s|, ws);
    assert none == [];
    assert [w] + none == [w];
  }

  /** The pieces of text without whitespace: the text itself. */
  lemma SplitLastRun(w: string, ws: set<char>)
    requires w != "" && NoneIn(w, ws)
    ensures NonEmpty(SplitAny(w, ws)) == [w]
  {
    SplitPlain(w, ws);
    var none: seq<string> := [];
    NonEmptyCons(w, none);
    assert [w] + none == [w] && NonEmpty(none) == none;
  }

  /** A run of non-whitespace at the end of the text is its last word. */
  lemma WordsAtLastRun(s: string, p: nat, e: nat, ws: set<char>)
    requires p < |s| && MayStart(s, p, ws) && NoneIn(s, {'"'}) && e == RunEnd(s, p, ws) == |s|
    ensures Tokens(s, p, ws) == NonEmpty(SplitAny(s[p..], ws))
  {
    TokensLastRun(s, p, ws);
    RunPlain(s, p, ws);
    assert s[p..e] == s[p..];
    SplitLastRun(s[p..], ws);
  }

  /** The matches from a run of non-whitespace followed by whitespace: the
      run, then the matches after the whitespace. */
  lemma TokensRun(s: string, p: nat, ws: set<char>)
    requires p < |s| && MayStart(s, p, ws) && NoneIn(s, {'"'}) && RunEnd(s, p, ws) < |s|
    ensures Tokens(s, p, ws) == [s[p..RunEnd(s, p, ws)]] + Tokens(s, RunEnd(s, p, ws) + 1, ws)
  {
    TokensWord(s, p, ws);
    TokensSkip(s, RunEnd(s, p, ws), ws);
  }

  /** The pieces from a word followed by a separator: the word, then the
      pieces after the separator. */
  lemma SplitRun(s: string, p: nat, e: nat, ws: set<char>)
    requires p < e < |s| && NoneIn(s[p..e], ws) && s[e] in ws
    ensures NonEmpty(SplitAny(s[p..], ws)) == [s[p..e]] + NonEmpty(SplitAny(s[e + 1..], ws))
  {
    SliceSplits(s, p, e);
    SplitAnyWord(s[p..e], s[e..], ws);
    NonEmptyCons(s[p..e], SplitAny(s[e + 1..], ws));
  }

  /** A run of non-whitespace followed by whitespace is one word, and the
      rest of the words come after that whitespace. */
  lemma WordsAtRun(s: string, p: nat, e: nat, ws: set<char>)
    requires p < |s| && MayStart(s, p, ws) && NoneIn(s, {'"'}) && e == RunEnd(s, p, ws) < |s|
    requires Tokens(s, e + 1, ws) == NonEmpty(SplitAny(s[e + 1..], ws))
    ensures Tokens(s, p, ws) == NonEmpty(SplitAny(s[p..], ws))
  {
    TokensRun(s, p, ws);
    RunPlain(s, p, ws);
    SplitRun(s, p, e, ws);
  }

  /** Tokens of quote-free text from a place where a match may begin are its
      maximal runs of non-whitespace. */
  lemma {:induction false} TokensAreWords(s: string, p: nat, ws: set<char>)
    requires p <= |s| && NoneIn(s, {'"'})
    requires p == 0 || s[p - 1] in ws
    ensures Tokens(s, p, ws) == NonEmpty(SplitAny(s[p..], ws))
    decreases |s| - p, 1
  {
    if p == |s| {
      WordsAtEnd(s, ws);
    } else if s[p] in ws {
      BlankAreWords(s, p, ws);
    } else {
      RunAreWords(s, p, ws);
    }
  }

  lemma WordsAtEnd(s: string, ws: set<char>)
    ensures Tokens(s, |s|, ws) == NonEmpty(SplitAny(s[|s|..], ws))
  {
    assert s[|s|..] == "";
  }

  /** The case of `TokensAreWords` where whitespace stands at `p`. */
  lemma {:induction false} BlankAreWords(s: string, p: nat, ws: set<char>)
    requires p < |s| && NoneIn(s, {'"'}) && s[p] in ws
    ensures Tokens(s, p, ws) == NonEmpty(SplitAny(s[p..], ws))
    decreases |s| - p, 0
  {
    TokensAreWords(s, p + 1, ws);
    WordsAtWhite(s, p, ws);
  }

  /** The case of `TokensAreWords` where a run of non-whitespace begins at `p`. */
  lemma {:induction false} RunAreWords(s: string, p: nat, ws: set<char>)
    requires p < |s| && NoneIn(s, {'"'}) && s[p] !in ws
    requires p == 0 || s[p - 1] in ws
    ensures Tokens(s, p, ws) == NonEmpty(SplitAny(s[p..], ws))
    decreases |s| - p, 0
  {
    var e := RunEnd(s, p, ws);
    if e == |s| {
      WordsAtLastRun(s, p, e, ws);
    } else {
      TokensAreWords(s, e + 1, ws);
      WordsAtRun(s, p, e, ws);
    }
  }

  /** `Split` of text without quotes gives exactly its maximal runs of
      non-whitespace, in order: `Split(StringSplitOptions.RemoveEmptyEntries)`
      over the whitespace characters. */
  lemma SplitWords(s: string)
    requires NoneIn(s, {'"'})
    ensures Split(s) == NonEmpty(SplitAny(s, White))
  {
    TokensAreWords(s, 0, White);
    assert s[0..] == s;
  }

  /** Trimming the quote character from a quoted quote-free text leaves the text. */
  lemma TrimQuotes(x: string)
    requires NoneIn(x, {'"'})
    ensures TrimOf(['"'] + x + ['"'], {'"'}) == x
  {
    var w := ['"'] + x + ['"'];
    assert w[..|w| - 1] == ['"'] + x;
    if x == [] {
      var one: string := ['"'];
      assert w[..1] == one && one[..0] == [];
      assert TrimEndOf(one, {'"'}) == [];
    } else {
      var v := ['"'] + x;
      assert v[|v| - 1] == x[|x| - 1];
      assert TrimEndOf(v, {'"'}) == v;
      assert TrimEndOf(w, {'"'}) == v;
      assert v[1..] == x;
      assert TrimStartOf(x, {'"'}) == x;
    }
  }

  lemma SliceAround(s: string, p: nat, q: nat)
    requires p < q < |s|
    ensures s[p..q + 1] == [s[p]] + s[p + 1..q] + [s[q]]
  {
  }

  /** A slice that runs to the end, cut after its first character or after a word. */
  lemma SliceSplits(s: string, p: nat, e: nat)
    requires p <= e < |s|
    ensures s[p..] == s[p..e] + s[e..] && s[e..][1..] == s[e + 1..]
  {
  }

  /** A quoted segment without its quotes. */
  lemma QuoteTrimmed(s: string, p: nat, q: nat)
    requires p < q < |s| && s[p] == '"' && s[q] == '"'
    requires NoneIn(s[p + 1..q], {'"'})
    ensures TrimOf(s[p..q + 1], {'"'}) == s[p + 1..q]
  {
    SliceAround(s, p, q);
    TrimQuotes(s[p + 1..q]);
  }

  /** The next quote after an opening one is the first one found. */
  lemma QuoteCloses(s: string, p: nat, q: nat)
    requires p < q < |s| && s[q] == '"'
    requires NoneIn(s[p + 1..q], {'"'})
    ensures IndexOf(s, '"', p + 1) == q
  {
    forall k | p + 1 <= k < q
      ensures s[k] != '"'
    {
      assert s[p + 1..q][k - p - 1] == s[k];
    }
    IndexOfIs(s, '"', p + 1, q);
  }

  /** A quoted segment that begins after whitespace (or at the start) and
      ends before whitespace (or at the end) is one match, without its
      quotes, whatever spaces it holds. */
  lemma MatchAtQuote(s: string, p: nat, q: nat, ws: set<char>)
    requires p < q < |s| && s[p] == '"' && s[q] == '"'
    requires p == 0 || s[p - 1] in ws
    requires '"' !in ws && NoneIn(s[p + 1..q], {'"'})
    requires q + 1 == |s| || s[q + 1] in ws
    ensures MatchAt(s, p, ws) == Match([s[p + 1..q]], q + 1)
  {
    QuoteTrimmed(s, p, q);
    QuoteCloses(s, p, q);
    assert MayStart(s, p, ws);
    assert ClosingQuote(s, p, ws) == q;
  }

  /** Such a segment is one token. */
  lemma QuotedToken(s: string, p: nat, q: nat, ws: set<char>)
    requires p < q < |s| && s[p] == '"' && s[q] == '"'
    requires p == 0 || s[p - 1] in ws
    requires '"' !in ws && NoneIn(s[p + 1..q], {'"'})
    requires q + 1 == |s| || s[q + 1] in ws
    ensures Tokens(s, p, ws) == [s[p + 1..q]] + Tokens(s, q + 1, ws)
  {
    MatchAtQuote(s, p, q, ws);
  }

  /** Why a read ends early: `Replace` refused an empty key, or a row with
      no tokens had no `values[0]`. The error handler then ends the process,
      so no file list comes back. */
  datatype LoadError = EmptyKey | NoFirstValue

  /** Lines that produce nothing: empty, or starting with `;`, `─` or `#`. */
  predicate Skipped(line: string) {
    line == "" || StartsWith(line, ";") || StartsWith(line, "─") || StartsWith(line, "#")
  }

  predicate IsKeysLine(line: string) {
    StartsWith(line, "keys")
  }

  /** The keys named by a `keys` line: the tokens of the trimmed text after
      its first `:`, or of the whole line when it has none. */
  function KeysOf(line: string): seq<string> {
    Split(Trim(line[IndexOf(line, ':', 0) + 1..]))
  }

  /** The loop of `Replace(keys[i], values[i])` over one copy of the template. */
  function Substitute(t: string, keys: seq<string>, values: seq<string>): (r: Result<string, LoadError>)
    requires |values| == |keys|
    ensures NonEmptyKeys(keys) ==> r == Success(ReplaceEach(t, keys, values))
    ensures !NonEmptyKeys(keys) ==> r == Failure(EmptyKey)
    decreases |keys|
  {
    if |keys| == 0 then Success(t)
    else if keys[0] == "" then Failure(EmptyKey)
    else
      var r := Substitute(Replace(t, keys[0], values[0]), keys[1..], values[1..]);
      assert NonEmptyKeys(keys) <==> NonEmptyKeys(keys[1..]) by {
        assert forall i :: 0 <= i < |keys[1..]| ==> keys[1..][i] == keys[i + 1];
      }
      r
  }

  /** The file one data row yields. */
  function Row(t: string, keys: seq<string>, values: seq<string>): (r: Result<EplFile, LoadError>)
    requires |values| == |keys|
  {
    match Substitute(t, keys, values)
    case Failure(e) => Failure(e)
    case Success(filled) =>
      if |values| == 0 then Failure(NoFirstValue) else Success(NewEplFile(values[0], "", filled))
  }

  function Prepend(f: EplFile, r: Result<seq<EplFile>, LoadError>): Result<seq<EplFile>, LoadError> {
    match r
    case Failure(e) => Failure(e)
    case Success(files) => Success([f] + files)
  }

  /** The key list in force after `line`. */
  function NextKeys(line: string, keys: seq<string>): seq<string> {
    if !Skipped(line) && IsKeysLine(line) then KeysOf(line) else keys
  }

  /** What one line yields: nothing for a comment, a `keys` line or a row
      whose token count differs from the key count; otherwise its file. */
  function Yield(line: string, keys: seq<string>, t: string): Option<Result<EplFile, LoadError>> {
    if Skipped(line) || IsKeysLine(line) || |Split(line)| != |keys| then None
    else Some(Row(t, keys, Split(line)))
  }

  /** The `foreach` over the data lines, with the key list in force. */
  function ReadLines(lines: seq<string>, keys: seq<string>, t: string): (r: Result<seq<EplFile>, LoadError>)
    ensures r.Success? ==> |r.value| <= |lines|
    ensures r.Success? ==> forall f :: f in r.value ==> f.fileAddress == "" && f.shouldPrint && f.body.None?
    decreases |lines|
  {
    if |lines| == 0 then Success([])
    else Then(Yield(lines[0], keys, t), ReadLines(lines[1..], NextKeys(lines[0], keys), t))
  }

  /** What one line's yield makes of the result of the lines after it. */
  function Then(yielded: Option<Result<EplFile, LoadError>>, rest: Result<seq<EplFile>, LoadError>)
    : Result<seq<EplFile>, LoadError>
  {
    match yielded
    case None => rest
    case Some(Failure(e)) => Failure(e)
    case Some(Success(f)) => Prepend(f, rest)
  }

  /** `FindAll(epl => epl.Key.Contains(searched, ...IgnoreCase))`. */
  function Filter(files: seq<EplFile>, searched: string): (r: seq<EplFile>)
    ensures |r| <= |files|
    ensures forall f :: f in r <==> f in files && ContainsText(f.key, searched)
  {
    Where((f: EplFile) => ContainsText(f.key, searched), files)
  }

  /** `ReadFromFile(filePath, templatePath, searchedText)`, with the data
      file's lines and the template's text given. */
  function ReadFromFile(filePath: string, templatePath: string, lines: seq<string>, t: string, searched: string)
    : (r: Result<seq<EplFile>, LoadError>)
    ensures filePath == "" || templatePath == "" ==> r == Success([])
    ensures r.Success? && !Blank(searched) ==> forall f :: f in r.value ==> ContainsText(f.key, searched)
    ensures r.Failure? <==> filePath != "" && templatePath != "" && ReadLines(lines, [], t).Failure?
    ensures r.Success? && filePath != "" && templatePath != "" ==>
              forall f :: f in r.value <==>
                f in ReadLines(lines, [], t).value && (Blank(searched) || ContainsText(f.key, searched))
    ensures r.Success? && filePath != "" && templatePath != "" && Blank(searched) ==>
              r.value == ReadLines(lines, [], t).value
    ensures r.Success? && filePath != "" && templatePath != "" && !Blank(searched) ==>
              r.value == Filter(ReadLines(lines, [], t).value, searched)
  {
    if filePath == "" || templatePath == "" then Success([])
    else
      match ReadLines(lines, [], t)
      case Failure(e) => Failure(e)
      case Success(files) => if Blank(searched) then Success(files) else Success(Filter(files, searched))
  }

  /** The search filter keeps the files' order: it works piece by piece. */
  lemma FilterAppend(a: seq<EplFile>, b: seq<EplFile>, searched: string)
    ensures Filter(a + b, searched) == Filter(a, searched) + Filter(b, searched)
  {
    WhereAppend((f: EplFile) => ContainsText(f.key, searched), a, b);
  }

  /** A comment or empty line anywhere among the data lines changes nothing:
      neither the files produced nor the key list in force. */
  lemma {:induction false} SkippedLineIsInert(a: seq<string>, line: string, b: seq<string>, keys: seq<string>, t: string)
    requires Skipped(line)
    ensures ReadLines(a + ([line] + b), keys, t) == ReadLines(a + b, keys, t)
    decreases |a|
  {
    if |a| == 0 {
      assert a + ([line] + b) == [line] + b && a + b == b;
      DropAppend([line], b);
      assert [line][1..] + b == b;
      assert Yield(line, keys, t).None? && NextKeys(line, keys) == keys;
      assert ReadLines([line] + b, keys, t) == Then(Yield(line, keys, t), ReadLines(b, keys, t));
    } else {
      var x := a[0];
      var next := NextKeys(x, keys);
      SkippedLineIsInert(a[1..], line, b, next, t);
      DropAppend(a, [line] + b);
      DropAppend(a, b);
      assert ReadLines(a + ([line] + b), keys, t) == Then(Yield(x, keys, t), ReadLines(a[1..] + ([line] + b), next, t));
      assert ReadLines(a + b, keys, t) == Then(Yield(x, keys, t), ReadLines(a[1..] + b, next, t));
    }
  }

  /** A `keys` line replaces the key list, whatever was in force before. */
  lemma KeysLineResets(line: string, rest: seq<string>, before: seq<string>, t: string)
    requires !Skipped(line) && IsKeysLine(line)
    ensures ReadLines([line] + rest, before, t) == ReadLines(rest, KeysOf(line), t)
  {
    assert ([line] + rest)[1..] == rest;
  }

  /** A row with as many tokens as there are (non-empty) keys yields one
      file: named after the first token, without an address, holding the
      template with each key replaced by its token in key order. */
  lemma RowYieldsFile(line: string, rest: seq<string>, keys: seq<string>, t: string)
    requires !Skipped(line) && !IsKeysLine(line)
    requires |Split(line)| == |keys| > 0 && NonEmptyKeys(keys)
    ensures ReadLines([line] + rest, keys, t) ==
            Prepend(NewEplFile(Split(line)[0], "", ReplaceEach(t, keys, Split(line))), ReadLines(rest, keys, t))
  {
    assert ([line] + rest)[1..] == rest;
  }

  /** A row whose token count differs from the key count is passed over. */
  lemma MismatchedRowIsDropped(line: string, rest: seq<string>, keys: seq<string>, t: string)
    requires !Skipped(line) && !IsKeysLine(line) && |Split(line)| != |keys|
    ensures ReadLines([line] + rest, keys, t) == ReadLines(rest, keys, t)
  {
    assert ([line] + rest)[1..] == rest;
  }

  /** A line of spaces before any `keys` line has no tokens, as many as the
      empty key list, and its missing `values[0]` ends the read. */
  lemma BlankRowBeforeKeys(line: string, rest: seq<string>, t: string)
    requires line != "" && Blank(line)
    ensures ReadLines([line] + rest, [], t) == Failure(NoFirstValue)
  {
    TokensOfBlank(line, 0, White);
    assert Split(line) == [];
    assert !Skipped(line) && !IsKeysLine(line) by {
      assert line[0] in White;
    }
    assert Yield(line, [], t) == Some(Failure(NoFirstValue));
    assert ([line] + rest)[0] == line;
  }
}

=== FILE: log.dfy ===
/** The print log: from the EPL body sent to the printer, the text between
    the quotes of each text command and the quantity of each print
    command, one log line per label printed, each behind a timestamp.
    Writing the log file is not part of this model. */
module Log {
  import opened Outcomes
  import opened Strings

  /** The one exception `Parse` lets escape: `Substring` with a negative
      length, on a line with a single quote. */
  datatype LogError = ArgumentOutOfRange

  /** What one line of the body adds to the log text. */
  datatype Piece = Adds(text: string) | Nothing | Throws

  /** The line, trimmed, starts with `P`: a print command. */
  predicate IsPrint(line: string) {
    StartsWith(Trim(line), "P")
  }

  /** `line` holds exactly one quote, at `i`. */
  predicate OnlyQuoteAt(line: string, i: int) {
    0 <= i < |line| && line[i] == '"' && NoneIn(line[..i], {'"'}) && NoneIn(line[i + 1..], {'"'})
  }

  /** `i` and `j` are the first and the last quote of `line`, and differ. */
  predicate OuterQuotes(line: string, i: int, j: int) {
    0 <= i < j < |line| && line[i] == '"' && line[j] == '"' &&
    NoneIn(line[..i], {'"'}) && NoneIn(line[j + 1..], {'"'})
  }

  /** One round of the loop over the lines: a print command adds its
      quantity and ends the log line; another line with quotes adds the text
      between its first and last quote and a tab; a line with one quote
      throws; any other line adds nothing. */
  function LinePiece(line: string): (r: Piece)
    ensures IsPrint(line) ==> r.Adds? && "P" + r.text == Trim(line) + "\n"
    ensures r.Throws? ==> !IsPrint(line)
  {
    var t := Trim(line);
    if StartsWith(t, "P") then
      PrintRebuilt(t);
      Adds(t[1..] + "\n")
    else QuotePiece(line)
  }

  lemma PrintRebuilt(t: string)
    requires StartsWith(t, "P")
    ensures "P" + (t[1..] + "\n") == t + "\n"
  {
    assert t == t[..1] + t[1..];
  }

  /** The `else if` branches, for a line that is not a print command. */
  function QuotePiece(line: string): Piece {
    var a := IndexOf(line, '"', 0);
    if a == -1 then Nothing
    else
      var b := LastIndexOf(line, '"');
      LastIndexOfLast(line, '"');
      if b == a then Throws else Adds(line[a + 1..b] + "\t")
  }

  /** A line that is not a print command adds nothing exactly when it has
      no quote, throws exactly when it has one, and otherwise adds the text
      between its first and its last quote. */
  lemma QuotedLine(line: string)
    requires !IsPrint(line)
    ensures LinePiece(line).Nothing? <==> '"' !in line
    ensures LinePiece(line).Throws? <==> exists i :: OnlyQuoteAt(line, i)
    ensures LinePiece(line).Adds? ==>
              exists i, j :: OuterQuotes(line, i, j) && LinePiece(line).text == line[i + 1..j] + "\t"
  {
    assert LinePiece(line) == QuotePiece(line);
    QuotePieceShapes(line);
  }

  lemma QuotePieceShapes(line: string)
    ensures QuotePiece(line).Nothing? <==> '"' !in line
    ensures QuotePiece(line).Throws? <==> exists i :: OnlyQuoteAt(line, i)
    ensures QuotePiece(line).Adds? ==>
              exists i, j :: OuterQuotes(line, i, j) && QuotePiece(line).text == line[i + 1..j] + "\t"
  {
    var a := IndexOf(line, '"', 0);
    IndexOfFirst(line, '"', 0);
    if a == -1 {
      forall i | 0 <= i < |line| && OnlyQuoteAt(line, i)
        ensures line[i] != '"'
      {
      }
    } else {
      var b := LastIndexOf(line, '"');
      QuotesAround(line, a, b);
      if a < b {
        assert OuterQuotes(line, a, b);
        assert QuotePiece(line) == Adds(line[a + 1..b] + "\t");
      } else {
        assert OnlyQuoteAt(line, a);
      }
    }
  }

  /** The quote the line holds alone is both its first and its last. */
  lemma OnlyQuoteFound(line: string, i: int)
    requires OnlyQuoteAt(line, i)
    ensures IndexOf(line, '"', 0) == i && LastIndexOf(line, '"') == i
  {
    assert forall k :: 0 <= k < i ==> line[k] != '"' by {
      forall k | 0 <= k < i
        ensures line[k] != '"'
      {
        assert line[..i][k] == line[k];
      }
    }
    assert forall k :: i < k < |line| ==> line[k] != '"' by {
      forall k | i < k < |line|
        ensures line[k] != '"'
      {
        assert line[i + 1..][k - i - 1] == line[k];
      }
    }
    IndexOfIs(line, '"', 0, i);
    LastIndexOfIs(line, '"', i);
  }

  /** The first and the last quote found decide which of the two shapes the
      line has. */
  lemma QuotesAround(line: string, a: int, b: int)
    requires a != -1 && a == IndexOf(line, '"', 0) && b == LastIndexOf(line, '"')
    ensures a <= b
    ensures a == b ==> OnlyQuoteAt(line, a)
    ensures a < b ==> OuterQuotes(line, a, b)
    ensures forall i :: OnlyQuoteAt(line, i) ==> a == b
  {
    IndexOfFirst(line, '"', 0);
    LastIndexOfLast(line, '"');
    assert NoneIn(line[..a], {'"'}) by {
      forall k | 0 <= k < a
        ensures line[..a][k] != '"'
      {
        assert line[..a][k] == line[k];
      }
    }
    assert NoneIn(line[b + 1..], {'"'}) by {
      var tail := line[b + 1..];
      forall k | 0 <= k < |tail|
        ensures tail[k] != '"'
      {
        assert tail[k] == line[b + 1 + k];
      }
    }
    forall i | OnlyQuoteAt(line, i)
      ensures a == b
    {
      OnlyQuoteFound(line, i);
    }
  }

  /** The piece each line contributes, in order. */
  function Pieces(lines: seq<string>): seq<Piece> {
    Each(LinePiece, lines)
  }

  /** The loop over the lines, appending to the builder; the first line
      that throws ends it. */
  function Gather(lines: seq<string>): Result<string, LogError> {
    Run(Pieces(lines))
  }

  /** The builder's text after the pieces, or the exception the first
      throwing piece raises. */
  function Run(pieces: seq<Piece>): Result<string, LogError>
    decreases |pieces|
  {
    if |pieces| == 0 then Success("") else Then(pieces[0], Run(pieces[1..]))
  }

  /** A line's piece followed by the text of the lines after it. */
  function Then(piece: Piece, rest: Result<string, LogError>): (r: Result<string, LogError>)
    ensures r.Failure? <==> piece.Throws? || rest.Failure?
  {
    match piece
    case Throws => Failure(ArgumentOutOfRange)
    case Nothing => rest
    case Adds(text) => if rest.Success? then Success(text + rest.value) else rest
  }

  /** The run throws exactly when one of its pieces does. */
  lemma {:induction false} RunFails(pieces: seq<Piece>)
    ensures Run(pieces).Failure? <==> exists i :: 0 <= i < |pieces| && pieces[i].Throws?
    decreases |pieces|
  {
    if |pieces| > 0 {
      var rest := pieces[1..];
      RunFails(rest);
      if exists i :: 0 <= i < |pieces| && pieces[i].Throws? {
        var i :| 0 <= i < |pieces| && pieces[i].Throws?;
        if i > 0 { assert rest[i - 1].Throws?; }
      }
      if exists i :: 0 <= i < |rest| && rest[i].Throws? {
        var i :| 0 <= i < |rest| && rest[i].Throws?;
        assert pieces[i + 1].Throws?;
      }
    }
  }

  /** The loop throws exactly when some line holds a single quote and is
      not a print command. */
  lemma GatherFails(lines: seq<string>)
    ensures Gather(lines).Failure? <==> exists i :: 0 <= i < |lines| && LinePiece(lines[i]).Throws?
  {
    RunFails(Pieces(lines));
  }

  /** A piece that adds nothing can be dropped from anywhere in the run. */
  lemma {:induction false} RunSkips(a: seq<Piece>, b: seq<Piece>)
    ensures Run(a + ([Nothing] + b)) == Run(a + b)
    decreases |a|
  {
    if |a| == 0 {
      assert a + ([Nothing] + b) == [Nothing] + b;
      DropAppend([Nothing], b);
      assert [Nothing][1..] + b == b;
      assert a + b == b;
    } else {
      RunSkips(a[1..], b);
      DropAppend(a, [Nothing] + b);
      DropAppend(a, b);
    }
  }

  /** Lines that add nothing can be dropped from anywhere in the body. */
  lemma GatherSkips(a: seq<string>, line: string, b: seq<string>)
    requires LinePiece(line).Nothing?
    ensures Gather(a + ([line] + b)) == Gather(a + b)
  {
    EachAppend(LinePiece, a, [line] + b);
    EachAppend(LinePiece, [line], b);
    assert Pieces([line]) == [Nothing];
    EachAppend(LinePiece, a, b);
    RunSkips(Pieces(a), Pieces(b));
  }

  /** The text of two runs is the text of the first followed by the text
      of the second. */
  lemma {:induction false} RunAppend(a: seq<Piece>, b: seq<Piece>)
    requires Run(a).Success? && Run(b).Success?
    ensures Run(a + b) == Success(Run(a).value + Run(b).value)
    decreases |a|
  {
    if |a| == 0 {
      assert a + b == b;
      assert Run(a).value + Run(b).value == Run(b).value;
    } else {
      DropAppend(a, b);
      RunAppend(a[1..], b);
      ThenAppend(a[0], Run(a[1..]).value, Run(b).value);
    }
  }

  /** The log text of two runs of lines is the text of the first followed
      by the text of the second. */
  lemma GatherAppend(a: seq<string>, b: seq<string>)
    requires Gather(a).Success? && Gather(b).Success?
    ensures Gather(a + b) == Success(Gather(a).value + Gather(b).value)
  {
    EachAppend(LinePiece, a, b);
    RunAppend(Pieces(a), Pieces(b));
  }

  lemma ThenAppend(p: Piece, x: string, y: string)
    requires !p.Throws?
    ensures Then(p, Success(x + y)) == Success(Then(p, Success(x)).value + y)
  {
    if p.Adds? {
      assert p.text + (x + y) == (p.text + x) + y;
    }
  }

  /** Each log line as written: the timestamp read for it, a tab, the line.
      `clock(i)` is the text of `DateTime.Now` at its `i`-th reading, one
      reading per line, so lines written across a second boundary carry
      different stamps. */
  function Stamped(pieces: seq<string>, clock: nat -> string): (r: seq<string>)
    ensures |r| == |pieces|
    ensures forall i :: 0 <= i < |r| ==> r[i] == clock(i) + "\t" + pieces[i]
  {
    seq(|pieces|, i requires 0 <= i < |pieces| => clock(i) + "\t" + pieces[i])
  }

  /** The log text with its trailing line breaks cut, split into lines, each
      behind its own timestamp, joined again. */
  function Stamp(text: string, clock: nat -> string): string {
    Join(Stamped(SplitAny(TrimEndOf(text, {'\n'}), {'\n'}), clock), "\n")
  }

  /** The body's lines, split at each line feed. */
  function BodyLines(body: string): seq<string> {
    SplitAny(body, {'\n'})
  }

  /** `Parse(eplBody)`. */
  function Parse(body: string, clock: nat -> string): (r: Result<string, LogError>)
    ensures r.Failure? <==> Gather(BodyLines(body)).Failure?
  {
    match Gather(BodyLines(body))
    case Failure(e) => Failure(e)
    case Success(text) => Success(Stamp(text, clock))
  }

  /** A line that is not a print command and holds a single quote. */
  predicate SingleQuoted(line: string) {
    !IsPrint(line) && exists q :: 0 <= q < |line| && OnlyQuoteAt(line, q)
  }

  lemma LineThrows(line: string)
    ensures LinePiece(line).Throws? <==> SingleQuoted(line)
  {
    if !IsPrint(line) {
      QuotedLine(line);
    }
  }

  /** The loop throws exactly when a line is single-quoted. */
  lemma GatherThrows(lines: seq<string>)
    ensures Gather(lines).Failure? <==> exists i :: 0 <= i < |lines| && SingleQuoted(lines[i])
  {
    GatherFails(lines);
    if Gather(lines).Failure? {
      var i :| 0 <= i < |lines| && LinePiece(lines[i]).Throws?;
      LineThrows(lines[i]);
    }
    if exists i :: 0 <= i < |lines| && SingleQuoted(lines[i]) {
      var i :| 0 <= i < |lines| && SingleQuoted(lines[i]);
      LineThrows(lines[i]);
    }
  }

  /** Parsing throws exactly when a line of the body is single-quoted. */
  lemma ParseFails(body: string, clock: nat -> string)
    ensures Parse(body, clock).Failure? <==>
              exists i :: 0 <= i < |BodyLines(body)| && SingleQuoted(BodyLines(body)[i])
  {
    GatherThrows(BodyLines(body));
  }

  /** Each log line with its own timestamp and the tab taken off. */
  function Unstamp(out: seq<string>, clock: nat -> string): (r: seq<string>)
    requires forall i :: 0 <= i < |out| ==> |clock(i)| + 1 <= |out[i]|
    ensures |r| == |out|
  {
    seq(|out|, i requires 0 <= i < |out| => out[i][|clock(i)| + 1..])
  }

  /** When no clock reading holds a line break, the written log splits back
      into one stamped line per log line, and taking each line's stamp off
      and joining gives back the log text without its trailing line breaks. */
  lemma StampRoundTrip(text: string, clock: nat -> string)
    requires forall i: nat :: NoneIn(clock(i), {'\n'})
    ensures SplitAny(Stamp(text, clock), {'\n'}) == Stamped(SplitAny(TrimEndOf(text, {'\n'}), {'\n'}), clock)
    ensures Join(Unstamp(SplitAny(Stamp(text, clock), {'\n'}), clock), "\n") == TrimEndOf(text, {'\n'})
  {
    var pieces := SplitAny(TrimEndOf(text, {'\n'}), {'\n'});
    var out := Stamped(pieces, clock);
    forall i | 0 <= i < |out|
      ensures NoneIn(out[i], {'\n'})
    {
      StampedLinePlain(clock(i), pieces[i]);
    }
    SplitJoin(out, '\n', {'\n'});
    assert Unstamp(out, clock) == pieces by {
      forall i | 0 <= i < |pieces|
        ensures Unstamp(out, clock)[i] == pieces[i]
      {
        assert out[i] == (clock(i) + "\t") + pieces[i];
      }
    }
    JoinSplit(TrimEndOf(text, {'\n'}), '\n');
  }

  lemma StampedLinePlain(stamp: string, piece: string)
    requires NoneIn(stamp, {'\n'}) && NoneIn(piece, {'\n'})
    ensures NoneIn(stamp + "\t" + piece, {'\n'})
  {
    var line := stamp + "\t" + piece;
    forall k | 0 <= k < |line|
      ensures line[k] != '\n'
    {
      if k < |stamp| { assert line[k] == stamp[k]; }
      else if k > |stamp| { assert line[k] == piece[k - |stamp| - 1]; }
    }
  }

  /** A body made only of print commands logs one line per command: the
      command with its `P` taken off. */
  lemma {:induction false} PrintsOnly(lines: seq<string>)
    requires forall i :: 0 <= i < |lines| ==> IsPrint(lines[i])
    ensures Gather(lines).Success?
    ensures Gather(lines).value == Join(PrintQuantities(lines) + [""], "\n")
    decreases |lines|
  {
    if |lines| > 0 {
      var rest := lines[1..];
      assert forall i :: 0 <= i < |rest| ==> rest[i] == lines[i + 1];
      PrintsOnly(rest);
      var t := Trim(lines[0])[1..];
      assert LinePiece(lines[0]) == Adds(t + "\n");
      EachCons(LinePiece, lines);
      assert PrintQuantities(lines) == [t] + PrintQuantities(rest);
      assert PrintQuantities(lines) + [""] == [t] + (PrintQuantities(rest) + [""]);
    }
  }

  /** What each print command prints, its trimmed text after the `P`. */
  function PrintQuantities(lines: seq<string>): (r: seq<string>)
    requires forall i :: 0 <= i < |lines| ==> IsPrint(lines[i])
    ensures |r| == |lines|
    decreases |lines|
  {
    if |lines| == 0 then []
    else
      assert IsPrint(lines[0]);
      [Trim(lines[0])[1..]] + PrintQuantities(lines[1..])
  }
}

=== FILE: numbers.dfy ===
/** 32-bit integers as the program reads and writes them: `int.TryParse`
    with the default number style, `ToString()`, the all-zero custom
    formats (`"000"`), and C#'s unchecked wrap-around on addition. */
module Numbers {
  import opened Outcomes
  import opened Strings

  const Int32Min: int := -0x8000_0000
  const Int32Max: int := 0x7FFF_FFFF

  predicate IsInt32(n: int) {
    Int32Min <= n <= Int32Max
  }

  /** Unchecked 32-bit addition: the result is congruent to `n` modulo 2^32. */
  function Wrap32(n: int): (r: int)
    ensures IsInt32(r)
    ensures (r - n) % 0x1_0000_0000 == 0
    ensures IsInt32(n) ==> r == n
  {
    (n - Int32Min) % 0x1_0000_0000 + Int32Min
  }

  predicate IsDigit(c: char) {
    '0' <= c <= '9'
  }

  predicate AllDigits(s: string) {
    forall i :: 0 <= i < |s| ==> IsDigit(s[i])
  }

  /** The value of a string of decimal digits, most significant first. */
  function ValueOf(ds: string): nat
    requires AllDigits(ds)
    decreases |ds|
  {
    if |ds| == 0 then 0
    else ValueOf(ds[..|ds| - 1]) * 10 + (ds[|ds| - 1] as int - '0' as int)
  }

  /** The shortest decimal digits of `n`. */
  function DigitsOf(n: nat): (r: string)
    ensures |r| >= 1 && AllDigits(r)
    ensures ValueOf(r) == n
    ensures r[0] == '0' ==> n == 0
    decreases n
  {
    var last := [('0' as int + n % 10) as char];
    if n < 10 then last
    else
      var front := DigitsOf(n / 10);
      assert (front + last)[..|front + last| - 1] == front;
      front + last
  }

  /** `n.ToString()`: a minus sign for negative values, then the digits. */
  function DecimalString(n: int): string {
    if n < 0 then "-" + DigitsOf(-n) else DigitsOf(n)
  }

  /** `n.ToString()` ends in a digit, and it is "0" only for zero. */
  lemma DecimalShape(n: int)
    ensures |DecimalString(n)| >= 1 && IsDigit(DecimalString(n)[|DecimalString(n)| - 1])
    ensures DecimalString(n) == "0" <==> n == 0
    ensures (DecimalString(n)[0] == '-' || IsDigit(DecimalString(n)[0])) && AllDigits(DecimalString(n)[1..])
  {
    var ds := DigitsOf(if n < 0 then -n else n);
    assert IsDigit(ds[|ds| - 1]);
    if n < 0 {
      assert DecimalString(n)[0] == '-';
      assert DecimalString(n)[1..] == ds;
    } else {
      assert forall i :: 1 <= i < |ds| ==> ds[1..][i - 1] == ds[i];
      if DecimalString(n) == "0" {
        assert ds[0] == '0';
      }
    }
  }

  /** The blank characters `NumberStyles.Integer` allows around a number. */
  const NumberBlanks: set<char> := {'\t', '\n', '\U{0B}', '\U{0C}', '\r', ' '}

  /** `int.TryParse(s, out n)`: optional surrounding blanks, an optional sign,
      at least one ASCII digit, and a value inside the 32-bit range; NUL
      characters may follow the trailing blanks. */
  function ParseInt(s: string): (r: Option<int>)
    ensures r.Some? ==> IsInt32(r.value)
  {
    var t := TrimOf(TrimEndOf(s, {'\0'}), NumberBlanks);
    if |t| > 0 && (t[0] == '-' || t[0] == '+') then Magnitude(t[1..], t[0] == '-')
    else Magnitude(t, false)
  }

  /** The value of an unsigned digit string, negated on request, if it fits. */
  function Magnitude(body: string, negative: bool): (r: Option<int>)
    ensures r.Some? ==> IsInt32(r.value)
  {
    if |body| == 0 || !AllDigits(body) then None
    else
      var v: int := Signed(ValueOf(body), negative);
      if IsInt32(v) then Some(v) else None
  }

  function Signed(m: nat, negative: bool): int {
    if negative then -(m as int) else m
  }

  /** Leading zeros do not change the value of a digit string. */
  lemma {:induction false} ValueOfZeros(k: nat, ds: string)
    requires AllDigits(ds)
    ensures AllDigits(Zeros(k) + ds)
    ensures ValueOf(Zeros(k) + ds) == ValueOf(ds)
    decreases |ds|
  {
    var z := Zeros(k) + ds;
    if |ds| == 0 {
      assert z == Zeros(k);
      ZerosValue(k);
    } else {
      ValueOfZeros(k, ds[..|ds| - 1]);
      assert z[..|z| - 1] == Zeros(k) + ds[..|ds| - 1];
    }
  }

  lemma {:induction false} ZerosValue(k: nat)
    ensures ValueOf(Zeros(k)) == 0
    decreases k
  {
    if k > 0 {
      assert Zeros(k)[..k - 1] == Zeros(k - 1);
      ZerosValue(k - 1);
    }
  }

  function Zeros(k: nat): (r: string)
    ensures |r| == k && AllDigits(r)
    ensures forall i :: 0 <= i < k ==> r[i] == '0'
  {
    seq(k, i => '0')
  }

  /** A format made only of `0` placeholders: the minimum digit count. */
  predicate IsZeroPattern(fmt: string) {
    |fmt| > 0 && forall i :: 0 <= i < |fmt| ==> fmt[i] == '0'
  }

  /** `n.ToString(fmt)` for an all-zero pattern: the magnitude padded with
      leading zeros to the pattern's length, after a minus sign if negative. */
  function ZeroPadded(n: int, width: nat): (r: string)
    ensures |r| >= width
  {
    var ds := DigitsOf(if n < 0 then -n else n);
    var padded := if |ds| < width then Zeros(width - |ds|) + ds else ds;
    if n < 0 then "-" + padded else padded
  }

  lemma DigitIsNotBlank(c: char)
    requires IsDigit(c)
    ensures c !in NumberBlanks && c != '-' && c != '+' && c != '\0'
  {
  }

  /** Text without blanks at either end is parsed as it stands. */
  lemma ParseUntrimmed(s: string)
    requires |s| > 0 && s[0] !in NumberBlanks && s[|s| - 1] !in NumberBlanks && s[|s| - 1] != '\0'
    ensures ParseInt(s) == if s[0] == '-' || s[0] == '+' then Magnitude(s[1..], s[0] == '-')
                           else Magnitude(s, false)
  {
    assert TrimEndOf(s, {'\0'}) == s;
    TrimOfUntouched(s, NumberBlanks);
  }

  /** NUL characters after a number do not change what `int.TryParse` reads. */
  lemma {:induction false} ParseIgnoresNuls(s: string, k: nat)
    ensures ParseInt(s + seq(k, i => '\0')) == ParseInt(s)
    decreases k
  {
    var padded := s + seq(k, i => '\0');
    if k > 0 {
      assert padded[..|padded| - 1] == s + seq(k - 1, i => '\0');
      ParseIgnoresNuls(s, k - 1);
    } else {
      assert padded == s;
    }
  }

  /** A digit string, optionally after a minus sign, is read back as its value. */
  lemma ParseDigits(ds: string, negative: bool)
    requires |ds| >= 1 && AllDigits(ds)
    requires IsInt32(Signed(ValueOf(ds), negative))
    ensures ParseInt(if negative then "-" + ds else ds) == Some(Signed(ValueOf(ds), negative))
  {
    DigitIsNotBlank(ds[0]);
    DigitIsNotBlank(ds[|ds| - 1]);
    if negative {
      var s := "-" + ds;
      assert s[0] == '-';
      assert s[1..] == ds;
      assert s[|s| - 1] == ds[|ds| - 1];
      ParseUntrimmed(s);
      assert ParseInt(s) == Magnitude(ds, true);
    } else {
      ParseUntrimmed(ds);
      assert ParseInt(ds) == Magnitude(ds, false);
    }
  }

  /** `int.TryParse(n.ToString())` gives `n` back. */
  lemma ParseDecimal(n: int)
    requires IsInt32(n)
    ensures ParseInt(DecimalString(n)) == Some(n)
  {
    ParseDigits(DigitsOf(if n < 0 then -n else n), n < 0);
  }

  /** Zero padding does not change the value that `int.TryParse` reads back. */
  lemma ParseZeroPadded(n: int, width: nat)
    requires IsInt32(n)
    ensures ParseInt(ZeroPadded(n, width)) == Some(n)
  {
    var m: nat := if n < 0 then -n else n;
    var ds := DigitsOf(m);
    var padded := if |ds| < width then Zeros(width - |ds|) + ds else ds;
    assert ZeroPadded(n, width) == if n < 0 then "-" + padded else padded;
    assert AllDigits(padded) && |padded| >= 1 && ValueOf(padded) == m by {
      if |ds| < width {
        ValueOfZeros(width - |ds|, ds);
      }
    }
    assert Signed(m, n < 0) == n;
    ParseDigits(padded, n < 0);
  }
}

=== FILE: outcomes.dfy ===
/** Optional values and results with an error, used wherever the program
    returns null, fails a TryParse or throws. */
module Outcomes {

  /** A value that may be missing: C#'s null, or a TryParse that failed. */
  datatype Option<+T> = None | Some(value: T) {

    /** The value, or the given default when there is none. */
    function GetOr(default: T): T {
      match this
      case Some(v) => v
      case None => default
    }
  }

  /** A computation that either succeeds with a value or stops with an error. */
  datatype Result<+T, +E> = Success(value: T) | Failure(error: E)
}

=== FILE: parser_state.dfy ===
/** What the template engine reads and what it changes while it runs.

    The engine's fixed surroundings (the primary-data table, the login, the
    clock, date parsing and formatting) form an `Env`. Its changing state is
    one `State`: the `continueProcessing` flag, the file's `Print` flag, the
    answers still to come from the input channel, and the logs of what it
    sent out (prompts, errors, infos and saved templates). */
module ParserState {
  import opened Outcomes
  import opened Numbers
  import Tables

  const MinutesPerDay: int := 1440

  /** 9999-12-31, the day of `DateTime.MaxValue`, counted from 0001-01-01. */
  const MaxDay: int := 3652058

  /** The last minute `DateTime` can hold: `MaxDay * MinutesPerDay + MinutesPerDay - 1`,
      written out so that the solver meets no product of constants. */
  const MaxInstant: int := 5258964959

  lemma MaxInstantIsLastMinute()
    ensures MaxInstant == MaxDay * MinutesPerDay + MinutesPerDay - 1
  {
  }

  /** A point in time: whole minutes since 0001-01-01 00:00. Minute 0 is
      `default(DateTime)`. */
  type Instant = i: int | 0 <= i <= MaxInstant

  /** `DateTime.MaxValue.ToString("dd.MM.yyyy")`. */
  const MaxDateText: string := "31.12.9999"

  /** The fixed surroundings of one run.
      - `now` is `DateTime.Now` and `monthLater` is `DateTime.Today.AddMonths(1)`;
      - `parseDate` is `DateTime.TryParse` under the current culture;
      - `formatDate` is `DateTime.ToString(format)`;
      - `formatNumber` is `int.ToString(format)` for formats other than the
        all-zero ones the model computes itself. */
  datatype Env = Env(
    primary: Tables.Table,
    login: bool,
    user: string,
    now: Instant,
    monthLater: Instant,
    parseDate: string -> Option<Instant>,
    formatDate: (Instant, string) -> string,
    formatNumber: (int, string) -> string)
  {
    /** `DateTime.Today`: midnight of the current day. */
    function Today(): (r: Instant)
      ensures r <= now < r + 1440 && r % 1440 == 0
    {
      now - now % 1440
    }
  }

  /** `AddDays(days)` on an instant, before the range check. */
  function DaysAfter(t: int, days: int): int {
    t + days * 1440
  }

  /** One request on the input channel: its text and the default answer offered. */
  datatype Prompt = Prompt(text: string, default: string)

  datatype State = State(
    go: bool,
    toPrint: bool,
    answers: seq<Option<string>>,
    prompts: seq<Prompt>,
    errors: seq<string>,
    infos: seq<string>,
    saves: seq<string>)

  /** The state `Process` starts from. */
  function Start(answers: seq<Option<string>>): (st: State)
    ensures st.go && st.toPrint && st.answers == answers
    ensures st.prompts == [] && st.errors == [] && st.infos == [] && st.saves == []
  {
    State(true, true, answers, [], [], [], [])
  }

  /** The exceptions the engine lets escape. */
  datatype Exception = IndexOutOfRange | ArgumentOutOfRange

  /** A step that either finishes with a value or throws; either way the
      state holds every effect that happened before. */
  datatype Out<+T> = Done(value: T, st: State) | Thrown(error: Exception, st: State)

  /** A value read from the input channel, with the state after the read. */
  datatype Asked<+T> = Asked(value: T, st: State)

  /** The next answer, or null once the script is used up (nobody listening). */
  function Next(answers: seq<Option<string>>): Option<string> {
    if |answers| > 0 then answers[0] else None
  }

  function Rest(answers: seq<Option<string>>): (r: seq<Option<string>>)
    ensures |answers| > 0 ==> |r| == |answers| - 1
  {
    if |answers| > 0 then answers[1..] else []
  }

  /** The answers left after `n` reads. */
  function DropN(answers: seq<Option<string>>, n: nat): seq<Option<string>>
    decreases n
  {
    if n == 0 then answers else DropN(Rest(answers), n - 1)
  }

  lemma {:induction false} DropNAdd(answers: seq<Option<string>>, m: nat, n: nat)
    ensures DropN(DropN(answers, m), n) == DropN(answers, m + n)
    decreases m
  {
    if m > 0 {
      DropNAdd(Rest(answers), m - 1, n);
    }
  }

  /** An answer that stops the run: null, empty, or "0". */
  predicate Cancels(answer: Option<string>) {
    answer.None? || answer.value == "" || answer.value == "0"
  }

  /** How a later state relates to an earlier one: the two flags only ever
      go from true to false, the logs only grow, and every prompt asked in
      between used up exactly one answer. */
  predicate Follows(a: State, b: State) {
    && (b.go ==> a.go)
    && (b.toPrint ==> a.toPrint)
    && a.prompts <= b.prompts
    && a.errors <= b.errors
    && a.infos <= b.infos
    && a.saves <= b.saves
    && b.answers == DropN(a.answers, |b.prompts| - |a.prompts|)
  }

  lemma FollowsItself(a: State)
    ensures Follows(a, a)
  {
  }

  lemma FollowsTrans(a: State, b: State, c: State)
    requires Follows(a, b) && Follows(b, c)
    ensures Follows(a, c)
  {
    DropNAdd(a.answers, |b.prompts| - |a.prompts|, |c.prompts| - |b.prompts|);
  }

  /** A state reached from the start has used up exactly one answer per prompt. */
  lemma FollowsFromStart(answers: seq<Option<string>>, st: State)
    requires Follows(Start(answers), st)
    ensures st.answers == DropN(answers, |st.prompts|)
  {
  }

  /** The common part of `HandleInput`: send the prompt, read one answer;
      a cancelling answer clears both flags and yields no text. */
  function Ask(st: State, text: string, default: string): (r: Asked<Option<string>>)
    ensures r.st.prompts == st.prompts + [Prompt(text, default)]
    ensures r.st.answers == Rest(st.answers)
    ensures r.value.None? <==> Cancels(Next(st.answers))
    ensures r.value.Some? ==> r.value == Next(st.answers)
    ensures r.value.None? ==> !r.st.go && !r.st.toPrint
    ensures r.value.Some? ==> r.st.go == st.go && r.st.toPrint == st.toPrint
    ensures r.st.errors == st.errors && r.st.infos == st.infos && r.st.saves == st.saves
    ensures Follows(st, r.st)
  {
    var answer := Next(st.answers);
    var asked := st.(answers := Rest(st.answers), prompts := st.prompts + [Prompt(text, default)]);
    if Cancels(answer) then Asked(None, asked.(go := false, toPrint := false))
    else Asked(answer, asked)
  }

  /** An answer that does not cancel comes back as it was given: one prompt
      sent, one answer used up, and nothing else changes. */
  lemma AskReadsBack(st: State, text: string, default: string)
    requires !Cancels(Next(st.answers))
    ensures Ask(st, text, default) ==
            Asked(Next(st.answers), st.(answers := Rest(st.answers), prompts := st.prompts + [Prompt(text, default)]))
  {
  }

  /** `HandleInput<int>`: a cancelled read gives 0; an answer that is not a
      32-bit number also gives 0 but does not cancel. */
  function AskInt(st: State, text: string, default: string): (r: Asked<int>)
    ensures IsInt32(r.value)
    ensures r.st == Ask(st, text, default).st
    ensures Cancels(Next(st.answers)) ==> r.value == 0
    ensures !Cancels(Next(st.answers)) ==> r.value == ParseInt(Next(st.answers).value).GetOr(0)
  {
    var got := Ask(st, text, default);
    match got.value
    case None => Asked(0, got.st)
    case Some(answer) => Asked(ParseInt(answer).GetOr(0), got.st)
  }

  /** `HandleInput<string>`: the answer itself, or "" when cancelled. */
  function AskText(st: State, text: string, default: string): (r: Asked<string>)
    ensures r.st == Ask(st, text, default).st
    ensures r.value == "" <==> Cancels(Next(st.answers))
    ensures !Cancels(Next(st.answers)) ==> r.value == Next(st.answers).value
  {
    var got := Ask(st, text, default);
    Asked(got.value.GetOr(""), got.st)
  }

  /** `HandleInput<DateTime>`: the parsed answer, or `default(DateTime)` when
      the read was cancelled or the answer is not a date. */
  function AskDate(env: Env, st: State, text: string, default: string): (r: Asked<Instant>)
    ensures r.st == Ask(st, text, default).st
    ensures Cancels(Next(st.answers)) ==> r.value == 0
    ensures !Cancels(Next(st.answers)) ==> r.value == env.parseDate(Next(st.answers).value).GetOr(0)
  {
    var got := Ask(st, text, default);
    match got.value
    case None => Asked(0, got.st)
    case Some(answer) => Asked(env.parseDate(answer).GetOr(0), got.st)
  }

  /** An answer that does not cancel is parsed by `HandleInput<int>`: one
      prompt sent, one answer used up, nothing else changes. */
  lemma AskIntAnswered(st: State, text: string, default: string)
    requires !Cancels(Next(st.answers))
    ensures AskInt(st, text, default) ==
            Asked(ParseInt(Next(st.answers).value).GetOr(0),
                  st.(answers := Rest(st.answers), prompts := st.prompts + [Prompt(text, default)]))
  {
    AskReadsBack(st, text, default);
  }

  /** A number other than 0, written in decimal, is read back by
      `HandleInput<int>` and the run goes on. */
  lemma AskIntReadsBack(st: State, text: string, default: string, n: int)
    requires IsInt32(n) && n != 0 && Next(st.answers) == Some(DecimalString(n))
    ensures AskInt(st, text, default).value == n
    ensures AskInt(st, text, default).st.go == st.go && AskInt(st, text, default).st.toPrint == st.toPrint
  {
    DecimalShape(n);
    ParseDecimal(n);
  }

  /** Text other than "" and "0" is read back by `HandleInput<string>` and
      the run goes on. */
  lemma AskTextReadsBack(st: State, text: string, default: string, answer: string)
    requires answer != "" && answer != "0" && Next(st.answers) == Some(answer)
    ensures AskText(st, text, default).value == answer
    ensures AskText(st, text, default).st.go == st.go && AskText(st, text, default).st.toPrint == st.toPrint
  {
  }

  /** An answer the date parser accepts is read back as that instant by
      `HandleInput<DateTime>`, and the run goes on. */
  lemma AskDateReadsBack(env: Env, st: State, text: string, default: string, answer: string, d: Instant)
    requires answer != "" && answer != "0" && Next(st.answers) == Some(answer) && env.parseDate(answer) == Some(d)
    ensures AskDate(env, st, text, default).value == d
    ensures AskDate(env, st, text, default).st.go == st.go && AskDate(env, st, text, default).st.toPrint == st.toPrint
  {
  }

  /** The messages the engine reports. */
  const TemplateFormatError: string := "Invalid template format: '>' found before '<'."

  function SequenceFormatError(key: string): string {
    "Chybný formát sekvence klíče (" + key + ")! Správný formát: <sequence|start|steps|[save]|[format:0000]>"
  }

  function NumberFormatError(key: string): string {
    "Chybný formát klíče (" + key + ")! Zkontroluj formát klíče a zkus to znovu."
  }

  function LotInPast(date: string): string {
    "Datum expirace materiálu (" + date + ") je v minulosti. Štítky nebudou vytištěny! Zkontroluj případně uprav expiraci..."
  }

  function LotSoon(date: string): string {
    "Datum expirace materiálu (" + date + ") je menší než 1 měsíc. Zkontroluj případně uprav expiraci..."
  }
}

=== FILE: primary_data.dfy ===
/** The primary-data table: fixed `key: value` pairs the engine looks up
    before it asks for anything. Keys compare without regard to case. */
module PrimaryData {
  import opened Outcomes
  import opened Strings
  import opened Tables

  /** A line that holds an entry: it does not start with `#`, and its first
      `:` is not the first character. */
  predicate IsEntryLine(line: string) {
    !StartsWith(line, "#") && IndexOf(line, ':', 0) > 0
  }

  /** The trimmed text before and after the first `:` of an entry line. */
  function EntryKey(line: string): string
    requires IsEntryLine(line)
  {
    Trim(line[..IndexOf(line, ':', 0)])
  }

  function EntryValue(line: string): string
    requires IsEntryLine(line)
  {
    Trim(line[IndexOf(line, ':', 0) + 1..])
  }

  /** The non-empty pieces between line breaks (`RemoveEmptyEntries`). */
  function NonEmptyLines(content: string): (r: seq<string>)
    ensures forall i :: 0 <= i < |r| ==> r[i] != ""
  {
    NonEmpty(SplitAny(content, {'\n'}))
  }

  /** The entry an entry line holds. */
  function EntryOf(line: string): Entry
    requires IsEntryLine(line)
  {
    Entry(EntryKey(line), EntryValue(line))
  }

  /** What one line adds to the entries. */
  function LineEntry(line: string): (r: seq<Entry>)
    ensures |r| <= 1
  {
    if IsEntryLine(line) then [EntryOf(line)] else []
  }

  /** The entries of the entry lines, in file order. */
  function Entries(lines: seq<string>): seq<Entry>
    decreases |lines|
  {
    if |lines| == 0 then [] else LineEntry(lines[0]) + Entries(lines[1..])
  }

  /** An entry is listed exactly when some entry line of the file holds it. */
  lemma {:induction false} EntriesFromLines(lines: seq<string>, e: Entry)
    ensures e in Entries(lines) <==> exists line :: line in lines && IsEntryLine(line) && e == EntryOf(line)
    decreases |lines|
  {
    if |lines| > 0 {
      EntriesFromLines(lines[1..], e);
      assert forall x :: x in lines <==> x == lines[0] || x in lines[1..];
    }
  }

  /** `LoadPrimaryData(fileContent)`: empty content gives an empty table,
      other content the table built from its entry lines. */
  function Load(content: string): (r: Loaded)
    ensures content == "" ==> r == Loaded(map[], None)
  {
    if content == "" then Loaded(map[], None)
    else AddAll(map[], Entries(NonEmptyLines(content)))
  }

  /** Every stored pair comes from an entry line of the content. */
  lemma LoadFromLines(content: string, k: string)
    requires content != "" && k in Load(content).table
    ensures exists line :: line in NonEmptyLines(content) && IsEntryLine(line) &&
                           Fold(EntryKey(line)) == k && Load(content).table[k] == EntryValue(line)
  {
    AddAllFrom(map[], Entries(NonEmptyLines(content)), k);
    var e :| e in Entries(NonEmptyLines(content)) && Fold(e.key) == k && Load(content).table[k] == e.value;
    EntriesFromLines(NonEmptyLines(content), e);
  }

  /** With no key repeated, every entry of the content can be looked up,
      in any letter case, and yields its trimmed value. */
  lemma LoadFindsEveryEntry(content: string, e: Entry, asked: string)
    requires content != ""
    requires DistinctKeys(Entries(NonEmptyLines(content)))
    requires e in Entries(NonEmptyLines(content)) && SameText(asked, e.key)
    ensures Load(content).duplicate.None?
    ensures Lookup(Load(content).table, asked) == Some(e.value)
  {
    var entries := Entries(NonEmptyLines(content));
    AddAllComplete(map[], entries);
    var i :| 0 <= i < |entries| && entries[i] == e;
  }
}

=== FILE: scanner.dfy ===
/** The text side of the template engine: dropping comment lines, adding
    the label-count key, and finding the `<...>` keys of a template. */
module Scanner {
  import opened Strings

  /** `Environment.NewLine`, fixed to the Unix line break. */
  const NewLine: string := "\n"

  /** A line the engine drops: after leading white space it begins with `#`. */
  predicate IsCommentLine(line: string) {
    StartsWith(TrimStart(line), "#")
  }

  /** The lines that are not comment lines, in their order. */
  function KeepLines(lines: seq<string>): (r: seq<string>)
    ensures |r| <= |lines|
    ensures forall i :: 0 <= i < |r| ==> !IsCommentLine(r[i])
    ensures forall l :: l in r <==> l in lines && !IsCommentLine(l)
    decreases |lines|
  {
    if |lines| == 0 then []
    else
      var rest := KeepLines(lines[1..]);
      assert forall l :: l in lines <==> l == lines[0] || l in lines[1..];
      if IsCommentLine(lines[0]) then rest else [lines[0]] + rest
  }

  /** `RemoveCommentedLines`: split at line breaks, drop the comment lines,
      join the rest with line breaks. */
  function RemoveCommentedLines(text: string): string {
    Join(KeepLines(SplitAny(text, {'\n'})), NewLine)
  }

  /** The lines of the stripped text are exactly the non-comment lines of
      the original, in their order (when at least one survives). */
  lemma LinesAfterStripping(text: string)
    requires KeepLines(SplitAny(text, {'\n'})) != []
    ensures SplitAny(RemoveCommentedLines(text), {'\n'}) == KeepLines(SplitAny(text, {'\n'}))
    ensures forall i :: 0 <= i < |SplitAny(RemoveCommentedLines(text), {'\n'})| ==>
              !IsCommentLine(SplitAny(RemoveCommentedLines(text), {'\n'})[i])
  {
    var lines := SplitAny(text, {'\n'});
    var kept := KeepLines(lines);
    assert forall i :: 0 <= i < |kept| ==> NoneIn(kept[i], {'\n'}) by {
      forall i | 0 <= i < |kept|
        ensures NoneIn(kept[i], {'\n'})
      {
        assert kept[i] in lines;
        var j :| 0 <= j < |lines| && lines[j] == kept[i];
      }
    }
    SplitJoin(kept, '\n', {'\n'});
  }

  /** The first step of `FillOutTemplate`: strip comment lines, trim the end,
      and finish with one line break; when the last non-blank character is
      the print command `P`, put the `<pocet>` key in front of that break. */
  function Preprocess(template: string): (r: string)
    ensures var t := RemoveCommentedLines(template);
      EndsWith(TrimEnd(t), "P") ==> r == TrimEnd(t) + "<pocet>" + NewLine
    ensures var t := RemoveCommentedLines(template);
      !EndsWith(TrimEnd(t), "P") ==> r == TrimEnd(t) + NewLine
    ensures EndsWith(r, NewLine)
  {
    var t := RemoveCommentedLines(template);
    TrimKeepsLast(t, White);
    if EndsWith(Trim(t), "P") then TrimEnd(t) + "<pocet>" + NewLine
    else TrimEnd(t) + NewLine
  }

  /** A key as the scanner cuts it: `<`, no `>` until the closing `>`. */
  predicate IsSpan(k: string) {
    |k| >= 2 && k[0] == '<' && k[|k| - 1] == '>' && NoneIn(k[..|k| - 1], {'>'})
  }

  /** The text the scanner stopped at because a `>` came before the next `<`. */
  predicate StrayClose(rest: string) {
    var close := IndexOf(rest, '>', 0);
    close != -1 && NoneIn(rest[..close], {'<'}) && IndexOf(rest, '<', close) != -1
  }

  /** The pieces the scan cuts the text into: gaps and keys alternate, and
      `rest` is where the scan stopped. */
  datatype Scan = Scan(gaps: seq<string>, keys: seq<string>, rest: string, wellFormed: bool)

  function Weave(gaps: seq<string>, keys: seq<string>): string
    requires |gaps| == |keys|
    decreases |keys|
  {
    if |keys| == 0 then "" else gaps[0] + keys[0] + Weave(gaps[1..], keys[1..])
  }

  /** What the scan promises: the gaps, keys and rest rebuild the text; every
      key is a span; no gap holds a bracket; and the rest says why it stopped. */
  predicate ScanShape(t: string, from: nat, r: Scan)
    requires from <= |t| && |r.gaps| == |r.keys|
  {
    && t[from..] == Weave(r.gaps, r.keys) + r.rest
    && Every(IsSpan, r.keys)
    && Every(NoBracket, r.gaps)
    && StopShape(r)
  }

  predicate NoBracket(gap: string) {
    NoneIn(gap, Brackets)
  }

  /** Why the scan stopped: a clean stop leaves a rest without one of the
      brackets, an error stop leaves a stray `>`. */
  predicate StopShape(r: Scan) {
    && (r.wellFormed ==> NoneIn(r.rest, {'<'}) || NoneIn(r.rest, {'>'}))
    && (!r.wellFormed ==> StrayClose(r.rest))
  }

  /** The loop of `ReadKeys` from the cursor `from`: look for the next `<` and
      the next `>`; stop quietly when either is missing, stop with an error
      when the `>` comes first, otherwise cut the key and go on after it. */
  function ScanFrom(t: string, from: nat): (r: Scan)
    requires from <= |t|
    ensures |r.gaps| == |r.keys|
    ensures ScanShape(t, from, r)
    decreases |t| - from
  {
    var start := IndexOf(t, '<', from);
    var end := IndexOf(t, '>', from);
    if start == -1 || end == -1 then Stop(t, from, start, end, true)
    else if end < start then Stop(t, from, start, end, false)
    else
      KeyIsSpan(t, from, start, end);
      GapHasNoBracket(t, from, start, end);
      Cut(t, from, start, end, ScanFrom(t, end + 1))
  }

  /** The scan stops at `from`: quietly when a bracket is missing, with an
      error when a `>` comes first. */
  function Stop(t: string, from: nat, start: int, end: int, clean: bool): (r: Scan)
    requires from <= |t|
    requires start == IndexOf(t, '<', from) && end == IndexOf(t, '>', from)
    requires clean <==> start == -1 || end == -1
    requires !clean ==> end < start
    ensures |r.gaps| == |r.keys| && ScanShape(t, from, r)
    ensures r.keys == [] && r.rest == t[from..] && r.wellFormed == clean
  {
    if clean then CleanRest(t, from, start, end); Scan([], [], t[from..], true)
    else StrayAt(t, from, start, end); Scan([], [], t[from..], false)
  }

  /** The scan cuts the gap before `start` and the key up to `end`, and goes
      on with the scan `next` after it. */
  function Cut(t: string, from: nat, start: int, end: int, next: Scan): (r: Scan)
    requires from <= start < end < |t|
    requires IsSpan(t[start..end + 1]) && NoBracket(t[from..start])
    requires |next.gaps| == |next.keys| && ScanShape(t, end + 1, next)
    ensures |r.gaps| == |r.keys| && ScanShape(t, from, r)
    ensures r.gaps == [t[from..start]] + next.gaps && r.keys == [t[start..end + 1]] + next.keys
    ensures r.rest == next.rest && r.wellFormed == next.wellFormed
  {
    var gaps, keys := [t[from..start]] + next.gaps, [t[start..end + 1]] + next.keys;
    assert t[from..] == Weave(gaps, keys) + next.rest by {
      CutRebuilds(t, from, start, end + 1, next.gaps, next.keys, next.rest);
    }
    EveryCons(IsSpan, t[start..end + 1], next.keys);
    EveryCons(NoBracket, t[from..start], next.gaps);
    Scan(gaps, keys, next.rest, next.wellFormed)
  }

  /** With no `<` or no `>` after the cursor, the rest lacks that bracket. */
  lemma CleanRest(t: string, from: nat, start: int, end: int)
    requires from <= |t|
    requires start == IndexOf(t, '<', from) && end == IndexOf(t, '>', from)
    requires start == -1 || end == -1
    ensures NoneIn(t[from..], {'<'}) || NoneIn(t[from..], {'>'})
  {
    var rest := t[from..];
    IndexOfFirst(t, '<', from);
    IndexOfFirst(t, '>', from);
    if start == -1 {
      forall i | 0 <= i < |rest| ensures rest[i] !in {'<'} { assert rest[i] == t[from + i]; }
    } else {
      forall i | 0 <= i < |rest| ensures rest[i] !in {'>'} { assert rest[i] == t[from + i]; }
    }
  }

  /** A `>` before the next `<` leaves a stray close in the rest. */
  lemma StrayAt(t: string, from: nat, start: int, end: int)
    requires from <= |t|
    requires start == IndexOf(t, '<', from) && end == IndexOf(t, '>', from)
    requires start != -1 && end != -1 && end < start
    ensures StrayClose(t[from..])
  {
    var rest := t[from..];
    IndexOfFirst(t, '<', from);
    IndexOfLater(t, '<', from, end);
    IndexShift(t, '>', from, end);
    IndexShiftFrom(t, '<', from, end - from, start);
    var head := rest[..end - from];
    forall i | 0 <= i < |head| ensures head[i] !in {'<'} {
      assert head[i] == t[from + i];
    }
  }

  /** Cutting `t[a..b]` and `t[b..c]` in front of pieces that rebuild
      `t[c..]` gives pieces that rebuild `t[a..]`. */
  lemma CutRebuilds(t: string, a: nat, b: nat, c: nat, gaps: seq<string>, keys: seq<string>, rest: string)
    requires a <= b <= c <= |t|
    requires |gaps| == |keys| && t[c..] == Weave(gaps, keys) + rest
    ensures t[a..] == Weave([t[a..b]] + gaps, [t[b..c]] + keys) + rest
  {
    var p, q, w := t[a..b], t[b..c], Weave(gaps, keys);
    SliceThree(t, a, b, c);
    WeaveCons(p, q, gaps, keys);
    AppendAssoc(p + q, w, rest);
  }

  lemma KeyIsSpan(t: string, from: nat, start: int, end: int)
    requires from <= |t|
    requires start == IndexOf(t, '<', from) && end == IndexOf(t, '>', from)
    requires start != -1 && end != -1 && start <= end
    ensures from <= start < end < |t|
    ensures IsSpan(t[start..end + 1])
  {
    var key := t[start..end + 1];
    var head := key[..|key| - 1];
    IndexOfFirst(t, '>', from);
    forall i | 0 <= i < |head|
      ensures head[i] !in {'>'}
    {
      assert head[i] == t[start + i];
    }
  }

  lemma GapHasNoBracket(t: string, from: nat, start: int, end: int)
    requires from <= start < end < |t|
    requires start == IndexOf(t, '<', from) && end == IndexOf(t, '>', from)
    ensures NoneIn(t[from..start], Brackets)
  {
    var gap := t[from..start];
    IndexOfFirst(t, '<', from);
    IndexOfFirst(t, '>', from);
    forall i | 0 <= i < |gap|
      ensures gap[i] !in Brackets
    {
      assert gap[i] == t[from + i];
    }
  }

  lemma SliceThree(t: string, a: nat, b: nat, c: nat)
    requires a <= b <= c <= |t|
    ensures t[a..] == t[a..b] + t[b..c] + t[c..]
  {
  }

  lemma WeaveCons(gap: string, key: string, gaps: seq<string>, keys: seq<string>)
    requires |gaps| == |keys|
    ensures Weave([gap] + gaps, [key] + keys) == gap + key + Weave(gaps, keys)
  {
    assert ([gap] + gaps)[1..] == gaps && ([key] + keys)[1..] == keys;
  }

  /** `IndexOf` on a suffix finds the same character, shifted. */
  lemma IndexShift(t: string, c: char, from: nat, at: int)
    requires from <= |t| && at == IndexOf(t, c, from) && at != -1
    ensures IndexOf(t[from..], c, 0) == at - from
  {
    IndexShiftFrom(t, c, from, 0, at);
  }

  lemma {:induction false} IndexShiftFrom(t: string, c: char, from: nat, k: nat, at: int)
    requires from + k <= |t| && at != -1 && at == IndexOf(t, c, from + k)
    ensures IndexOf(t[from..], c, k) == at - from
    decreases |t| - from - k
  {
    if t[from + k] != c {
      IndexShiftFrom(t, c, from, k + 1, at);
    }
  }

  /** `Distinct()`: the first occurrence of each key, in the order first seen. */
  function Distinct(xs: seq<string>): (r: seq<string>)
    ensures forall x :: x in r <==> x in xs
    ensures forall i, j :: 0 <= i < j < |r| ==> r[i] != r[j]
    ensures forall i, j :: 0 <= i < j < |r| ==> FirstIndex(xs, r[i]) < FirstIndex(xs, r[j])
    decreases |xs|
  {
    if |xs| == 0 then []
    else
      var front := xs[..|xs| - 1];
      var last := xs[|xs| - 1];
      var d := Distinct(front);
      assert forall x :: x in xs <==> x in front || x == last by {
        assert xs == front + [last];
      }
      forall x | x in front
        ensures FirstIndex(xs, x) == FirstIndex(front, x)
      {
        FirstIndexPrefix(front, last, x);
      }
      if last in d then d
      else
        assert FirstIndex(xs, last) == |xs| - 1 by {
          assert xs[..|xs| - 1] == front;
        }
        d + [last]
  }

  /** Where `x` occurs first in `xs`. */
  function FirstIndex(xs: seq<string>, x: string): (r: nat)
    requires x in xs
    ensures r < |xs| && xs[r] == x && x !in xs[..r]
    decreases |xs|
  {
    if xs[0] == x then 0
    else
      assert x in xs[1..] by { var i :| 0 <= i < |xs| && xs[i] == x; assert xs[1..][i - 1] == x; }
      var r := 1 + FirstIndex(xs[1..], x);
      assert xs[..r] == [xs[0]] + xs[1..][..r - 1];
      r
  }

  lemma {:induction false} FirstIndexPrefix(front: seq<string>, last: string, x: string)
    requires x in front
    ensures FirstIndex(front + [last], x) == FirstIndex(front, x)
    decreases |front|
  {
    var xs := front + [last];
    if front[0] != x {
      assert x in front[1..] by {
        var i :| 0 <= i < |front| && front[i] == x;
        assert front[1..][i - 1] == x;
      }
      assert xs[1..] == front[1..] + [last];
      FirstIndexPrefix(front[1..], last, x);
    }
  }

  /** `ReadKeys` without its error report: the distinct keys of a well-formed
      template, or every key cut before a stray `>` otherwise. */
  function Keys(t: string): (r: seq<string>)
    ensures forall k :: k in r ==> IsSpan(k)
  {
    var s := ScanFrom(t, 0);
    assert forall k :: k in s.keys ==> IsSpan(k) by {
      forall k | k in s.keys ensures IsSpan(k) {
        var i :| 0 <= i < |s.keys| && s.keys[i] == k;
      }
    }
    if s.wellFormed then Distinct(s.keys) else s.keys
  }
}

=== FILE: strings.dfy ===
/** The .NET string operations the program relies on, over `seq<char>`.
    Comparisons are ordinal; the case-insensitive ones fold ASCII letters. */
module Strings {

  /** The characters `char.IsWhiteSpace` accepts, which is also the set that
      `Trim` removes and that the regular-expression class `\s` matches. */
  const White: set<char> := {
    ' ', '\t', '\n', '\U{0B}', '\U{0C}', '\r', '\U{85}', '\U{A0}', '\U{1680}',
    '\U{2000}', '\U{2001}', '\U{2002}', '\U{2003}', '\U{2004}', '\U{2005}',
    '\U{2006}', '\U{2007}', '\U{2008}', '\U{2009}', '\U{200A}',
    '\U{2028}', '\U{2029}', '\U{202F}', '\U{205F}', '\U{3000}'
  }

  /** The angle brackets that `Trim('<', '>')` strips from a key. */
  const Brackets: set<char> := {'<', '>'}

  /** No printable ASCII character is white space. */
  lemma VisibleNotWhite(c: char)
    requires '!' <= c <= '~'
    ensures c !in White
  {
  }

  /** `string.IsNullOrWhiteSpace`. */
  predicate Blank(s: string) {
    forall i :: 0 <= i < |s| ==> s[i] in White
  }

  /** No character of `s` belongs to `cs`. */
  predicate NoneIn(s: string, cs: set<char>) {
    forall i :: 0 <= i < |s| ==> s[i] !in cs
  }

  predicate StartsWith(s: string, prefix: string) {
    |prefix| <= |s| && s[..|prefix|] == prefix
  }

  predicate EndsWith(s: string, suffix: string) {
    |suffix| <= |s| && s[|s| - |suffix|..] == suffix
  }

  /** `sub` occurs somewhere in `s` (ordinal `Contains`). */
  predicate Occurs(sub: string, s: string)
    decreases |s|
  {
    StartsWith(s, sub) || (|s| > 0 && Occurs(sub, s[1..]))
  }

  /** `TrimStart(cs)`: drops the longest prefix made of characters of `cs`. */
  function TrimStartOf(s: string, cs: set<char>): (r: string)
    ensures |r| <= |s|
    decreases |s|
  {
    if |s| > 0 && s[0] in cs then TrimStartOf(s[1..], cs) else s
  }

  /** What `TrimStartOf` keeps is a suffix that does not start with a
      character of `cs`, and everything it drops is in `cs`. */
  lemma {:induction false} TrimStartFacts(s: string, cs: set<char>)
    ensures TrimStartOf(s, cs) == s[|s| - |TrimStartOf(s, cs)|..]
    ensures TrimStartOf(s, cs) == [] || TrimStartOf(s, cs)[0] !in cs
    ensures forall i :: 0 <= i < |s| - |TrimStartOf(s, cs)| ==> s[i] in cs
    decreases |s|
  {
    if |s| > 0 && s[0] in cs {
      TrimStartFacts(s[1..], cs);
      var r := TrimStartOf(s, cs);
      forall i | 0 < i < |s| - |r|
        ensures s[i] in cs
      {
        assert s[i] == s[1..][i - 1];
      }
    }
  }

  /** `TrimEnd(cs)`: drops the longest suffix made of characters of `cs`. */
  function TrimEndOf(s: string, cs: set<char>): (r: string)
    ensures |r| <= |s|
    decreases |s|
  {
    if |s| > 0 && s[|s| - 1] in cs then TrimEndOf(s[..|s| - 1], cs) else s
  }

  /** What `TrimEndOf` keeps is a prefix that does not end with a character
      of `cs`, and everything it drops is in `cs`. */
  lemma {:induction false} TrimEndFacts(s: string, cs: set<char>)
    ensures TrimEndOf(s, cs) == s[..|TrimEndOf(s, cs)|]
    ensures TrimEndOf(s, cs) == [] || TrimEndOf(s, cs)[|TrimEndOf(s, cs)| - 1] !in cs
    ensures forall i :: |TrimEndOf(s, cs)| <= i < |s| ==> s[i] in cs
    decreases |s|
  {
    if |s| > 0 && s[|s| - 1] in cs {
      var t := s[..|s| - 1];
      TrimEndFacts(t, cs);
      var r := TrimEndOf(s, cs);
      assert r == t[..|r|];
      forall i | |r| <= i < |s| - 1
        ensures s[i] in cs
      {
        assert s[i] == t[i];
      }
    }
  }

  /** `Trim(cs)`: both ends. */
  function TrimOf(s: string, cs: set<char>): string {
    TrimStartOf(TrimEndOf(s, cs), cs)
  }

  function TrimStart(s: string): string { TrimStartOf(s, White) }
  function TrimEnd(s: string): string { TrimEndOf(s, White) }
  function Trim(s: string): string { TrimOf(s, White) }

  /** Trimming both ends leaves the last character that trimming the end
      alone leaves, so `Trim(s).EndsWith(c)` and `TrimEnd(s).EndsWith(c)`
      agree for every character `c` that is trimmed away. */
  lemma TrimKeepsLast(s: string, cs: set<char>)
    ensures TrimOf(s, cs) == [] <==> TrimEndOf(s, cs) == []
    ensures TrimOf(s, cs) != [] ==>
      TrimOf(s, cs)[|TrimOf(s, cs)| - 1] == TrimEndOf(s, cs)[|TrimEndOf(s, cs)| - 1]
  {
    var e := TrimEndOf(s, cs);
    TrimEndFacts(s, cs);
    TrimStartFacts(e, cs);
    if e != [] {
      assert e[|e| - 1] !in cs;
    }
  }

  /** A string with no character of `cs` at either end is left alone. */
  lemma TrimOfUntouched(s: string, cs: set<char>)
    requires s == [] || (s[0] !in cs && s[|s| - 1] !in cs)
    ensures TrimOf(s, cs) == s
  {
  }

  /** `IndexOf(c, from)`: the first position at or after `from` holding `c`, or -1. */
  function IndexOf(s: string, c: char, from: nat): (r: int)
    ensures r == -1 || (from <= r < |s| && s[r] == c)
    decreases |s| - from
  {
    if from >= |s| then -1
    else if s[from] == c then from
    else IndexOf(s, c, from + 1)
  }

  /** `IndexOf` finds the first occurrence: none lies before the one found,
      and -1 means there is none. */
  lemma {:induction false} IndexOfFirst(s: string, c: char, from: nat)
    ensures IndexOf(s, c, from) == -1 ==> forall i :: from <= i < |s| ==> s[i] != c
    ensures IndexOf(s, c, from) != -1 ==> forall i :: from <= i < IndexOf(s, c, from) ==> s[i] != c
    decreases |s| - from
  {
    if from < |s| && s[from] != c {
      IndexOfFirst(s, c, from + 1);
    }
  }

  /** Searching from any point up to the first occurrence finds the same one. */
  lemma {:induction false} IndexOfLater(s: string, c: char, from: nat, k: nat)
    requires from <= k && IndexOf(s, c, from) != -1 && k <= IndexOf(s, c, from)
    ensures IndexOf(s, c, k) == IndexOf(s, c, from)
    decreases k - from
  {
    if from < k {
      IndexOfLater(s, c, from + 1, k);
    }
  }

  /** An occurrence with none before it is the one `IndexOf` finds. */
  lemma IndexOfIs(s: string, c: char, from: nat, i: nat)
    requires from <= i < |s| && s[i] == c
    requires forall k :: from <= k < i ==> s[k] != c
    ensures IndexOf(s, c, from) == i
  {
    IndexOfFirst(s, c, from);
  }

  /** `LastIndexOf(c)`: the last position holding `c`, or -1. */
  function LastIndexOf(s: string, c: char): (r: int)
    ensures r == -1 || (0 <= r < |s| && s[r] == c)
    decreases |s|
  {
    if |s| == 0 then -1
    else if s[|s| - 1] == c then |s| - 1
    else LastIndexOf(s[..|s| - 1], c)
  }

  /** `LastIndexOf` finds the last occurrence: none lies after the one
      found, and -1 means there is none. */
  lemma {:induction false} LastIndexOfLast(s: string, c: char)
    ensures LastIndexOf(s, c) == -1 ==> forall i :: 0 <= i < |s| ==> s[i] != c
    ensures LastIndexOf(s, c) != -1 ==> forall i :: LastIndexOf(s, c) < i < |s| ==> s[i] != c
    decreases |s|
  {
    if |s| > 0 && s[|s| - 1] != c {
      var t := s[..|s| - 1];
      LastIndexOfLast(t, c);
      forall i | 0 <= i < |s| - 1
        ensures s[i] == t[i]
      {
      }
    }
  }

  /** An occurrence with none after it is the one `LastIndexOf` finds. */
  lemma LastIndexOfIs(s: string, c: char, i: nat)
    requires i < |s| && s[i] == c
    requires forall k :: i < k < |s| ==> s[k] != c
    ensures LastIndexOf(s, c) == i
  {
    LastIndexOfLast(s, c);
  }

  /** Ordinal `Replace(find, repl)`: scans left to right and replaces each
      non-overlapping occurrence of `find`. .NET throws on an empty `find`. */
  function Replace(s: string, find: string, repl: string): string
    requires |find| > 0
    decreases |s|
  {
    if |s| == 0 then []
    else if StartsWith(s, find) then repl + Replace(s[|find|..], find, repl)
    else [s[0]] + Replace(s[1..], find, repl)
  }

  /** Replacing a text that does not occur changes nothing. */
  lemma {:induction false} ReplaceAbsent(s: string, find: string, repl: string)
    requires |find| > 0 && !Occurs(find, s)
    ensures Replace(s, find, repl) == s
    decreases |s|
  {
    if |s| > 0 {
      ReplaceAbsent(s[1..], find, repl);
    }
  }

  /** A text whose first character does not occur in `s` does not occur in `s`. */
  lemma {:induction false} AbsentFirst(s: string, find: string)
    requires |find| > 0 && find[0] !in s
    ensures !Occurs(find, s)
    decreases |s|
  {
    if |s| > 0 {
      assert s[0] in s;
      AbsentFirst(s[1..], find);
    }
  }

  /** A prefix that cannot start an occurrence is copied unchanged. */
  lemma {:induction false} ReplaceSkips(p: string, q: string, find: string, repl: string)
    requires |find| > 0 && find[0] !in p
    ensures Replace(p + q, find, repl) == p + Replace(q, find, repl)
    decreases |p|
  {
    if |p| > 0 {
      assert p[0] in p;
      assert !StartsWith(p + q, find) by { assert (p + q)[0] == p[0]; }
      assert (p + q)[1..] == p[1..] + q;
      ReplaceSkips(p[1..], q, find, repl);
      calc {
        Replace(p + q, find, repl);
        [p[0]] + Replace(p[1..] + q, find, repl);
        [p[0]] + (p[1..] + Replace(q, find, repl));
        { assert p == [p[0]] + p[1..]; }
        p + Replace(q, find, repl);
      }
    } else {
      assert p + q == q;
    }
  }

  /** An occurrence at the front is replaced, and the scan resumes after it. */
  lemma ReplaceHit(q: string, find: string, repl: string)
    requires |find| > 0
    ensures Replace(find + q, find, repl) == repl + Replace(q, find, repl)
  {
    assert StartsWith(find + q, find);
    assert (find + q)[|find|..] == q;
  }

  /** The keys of a sequential replacement: `Replace` throws on an empty one. */
  predicate NonEmptyKeys(keys: seq<string>) {
    forall i :: 0 <= i < |keys| ==> keys[i] != ""
  }

  /** Replacing `keys[i]` by `values[i]`, one key after the other. */
  function ReplaceEach(t: string, keys: seq<string>, values: seq<string>): string
    requires NonEmptyKeys(keys) && |values| == |keys|
    decreases |keys|
  {
    if |keys| == 0 then t
    else ReplaceEach(Replace(t, keys[0], values[0]), keys[1..], values[1..])
  }

  /** ASCII case folding, the part of `OrdinalIgnoreCase` this model keeps. */
  function Lower(c: char): char {
    if 'A' <= c <= 'Z' then (c as int + 32) as char else c
  }

  function Fold(s: string): (r: string)
    ensures |r| == |s|
  {
    seq(|s|, i requires 0 <= i < |s| => Lower(s[i]))
  }

  lemma FoldAppend(a: string, b: string)
    ensures Fold(a + b) == Fold(a) + Fold(b)
  {
  }

  /** Every character of a text that occurs in `s` is a character of `s`. */
  lemma {:induction false} OccursHas(sub: string, s: string, j: nat)
    requires Occurs(sub, s) && j < |sub|
    ensures sub[j] in s
    decreases |s|
  {
    if StartsWith(s, sub) {
      assert s[j] == sub[j];
    } else {
      OccursHas(sub, s[1..], j);
      var i :| 0 <= i < |s[1..]| && s[1..][i] == sub[j];
      assert s[i + 1] == sub[j];
    }
  }

  /** Folding leaves every non-letter alone, so a folded non-letter marks the
      same character in the original text. */
  lemma FoldKeeps(s: string, c: char)
    requires !('A' <= c <= 'Z') && !('a' <= c <= 'z') && c in Fold(s)
    ensures c in s
  {
    var i :| 0 <= i < |Fold(s)| && Fold(s)[i] == c;
    assert s[i] == c;
  }

  /** `Equals(a, b, OrdinalIgnoreCase)`. */
  predicate SameText(a: string, b: string) {
    Fold(a) == Fold(b)
  }

  /** `s.StartsWith(p, OrdinalIgnoreCase)`. */
  predicate StartsWithText(s: string, p: string) {
    |p| <= |s| && Fold(s[..|p|]) == Fold(p)
  }

  /** `s.Contains(sub, ...IgnoreCase)`. */
  predicate ContainsText(s: string, sub: string) {
    Occurs(Fold(sub), Fold(s))
  }

  /** `Split(cs)` with `StringSplitOptions.None`: the pieces between the
      separators, empty ones included. */
  function SplitAny(s: string, cs: set<char>): (r: seq<string>)
    ensures |r| >= 1
    ensures forall i :: 0 <= i < |r| ==> NoneIn(r[i], cs)
    decreases |s|
  {
    if |s| == 0 then [""]
    else
      var rest := SplitAny(s[1..], cs);
      if s[0] in cs then [""] + rest else [[s[0]] + rest[0]] + rest[1..]
  }

  /** `Split` with `RemoveEmptyEntries`: the pieces that are not empty. */
  function NonEmpty(pieces: seq<string>): (r: seq<string>)
    ensures forall i :: 0 <= i < |r| ==> r[i] != ""
    ensures forall x :: x in r <==> x in pieces && x != ""
    decreases |pieces|
  {
    if |pieces| == 0 then []
    else
      var rest := NonEmpty(pieces[1..]);
      assert forall x :: x in pieces <==> x == pieces[0] || x in pieces[1..];
      if pieces[0] == "" then rest else [pieces[0]] + rest
  }

  /** Facts about sequences stated once for any element type, so that
      proofs about sequences of strings need not compare the strings. */
  lemma DropAppend<T>(a: seq<T>, b: seq<T>)
    requires |a| > 0
    ensures (a + b)[0] == a[0] && (a + b)[1..] == a[1..] + b
  {
  }

  lemma AppendAssoc<T>(a: seq<T>, b: seq<T>, c: seq<T>)
    ensures a + (b + c) == (a + b) + c
  {
  }

  /** `p` holds of every element. */
  predicate Every<T>(p: T -> bool, xs: seq<T>) {
    forall i :: 0 <= i < |xs| ==> p(xs[i])
  }

  lemma EveryCons<T>(p: T -> bool, x: T, xs: seq<T>)
    requires p(x) && Every(p, xs)
    ensures Every(p, [x] + xs)
  {
    var all := [x] + xs;
    forall i | 0 <= i < |all|
      ensures p(all[i])
    {
      if i > 0 { assert all[i] == xs[i - 1]; }
    }
  }

  /** `f` applied to every element, in order. */
  function Each<A, B>(f: A -> B, xs: seq<A>): (r: seq<B>)
    ensures |r| == |xs|
    ensures forall i :: 0 <= i < |xs| ==> r[i] == f(xs[i])
  {
    seq(|xs|, i requires 0 <= i < |xs| => f(xs[i]))
  }

  lemma EachCons<A, B>(f: A -> B, xs: seq<A>)
    requires |xs| > 0
    ensures Each(f, xs) == [f(xs[0])] + Each(f, xs[1..])
  {
  }

  lemma EachAppend<A, B>(f: A -> B, a: seq<A>, b: seq<A>)
    ensures Each(f, a + b) == Each(f, a) + Each(f, b)
  {
  }

  /** The elements that satisfy `keep`, in order. */
  function Where<T(!new)>(keep: T -> bool, xs: seq<T>): (r: seq<T>)
    ensures |r| <= |xs|
    ensures forall x :: x in r <==> x in xs && keep(x)
    decreases |xs|
  {
    if |xs| == 0 then []
    else
      var rest := Where(keep, xs[1..]);
      assert forall x :: x in xs <==> x == xs[0] || x in xs[1..];
      if keep(xs[0]) then [xs[0]] + rest else rest
  }

  lemma {:induction false} WhereAppend<T(!new)>(keep: T -> bool, a: seq<T>, b: seq<T>)
    ensures Where(keep, a + b) == Where(keep, a) + Where(keep, b)
    decreases |a|
  {
    if |a| > 0 {
      WhereAppend(keep, a[1..], b);
      DropAppend(a, b);
    } else {
      assert a + b == b;
    }
  }

  /** `string.Join(sep, parts)`. */
  function Join(parts: seq<string>, sep: string): string
    decreases |parts|
  {
    if |parts| == 0 then ""
    else if |parts| == 1 then parts[0]
    else parts[0] + sep + Join(parts[1..], sep)
  }

  /** A join starts with the first part. */
  lemma JoinStarts(parts: seq<string>, sep: string)
    requires |parts| >= 1 && parts[0] != ""
    ensures |Join(parts, sep)| > 0 && Join(parts, sep)[0] == parts[0][0]
  {
  }

  /** Joining the pieces of a split with the one separator rebuilds the text. */
  lemma {:induction false} JoinSplit(s: string, c: char)
    ensures Join(SplitAny(s, {c}), [c]) == s
    decreases |s|
  {
    if |s| > 0 {
      var rest := SplitAny(s[1..], {c});
      JoinSplit(s[1..], c);
      if s[0] == c {
        assert SplitAny(s, {c}) == [""] + rest;
        assert s == [c] + s[1..];
      } else {
        var r := SplitAny(s, {c});
        assert r == [[s[0]] + rest[0]] + rest[1..];
        if |rest| == 1 {
          assert s == [s[0]] + s[1..];
        } else {
          assert rest == [rest[0]] + rest[1..];
          assert Join(rest, [c]) == rest[0] + [c] + Join(rest[1..], [c]);
          assert r[1..] == rest[1..];
          assert s == [s[0]] + s[1..];
        }
      }
    }
  }

  /** Splitting a join of separator-free pieces gives the pieces back. */
  lemma {:induction false} SplitJoin(parts: seq<string>, c: char, cs: set<char>)
    requires |parts| >= 1 && c in cs
    requires forall i :: 0 <= i < |parts| ==> NoneIn(parts[i], cs)
    ensures SplitAny(Join(parts, [c]), cs) == parts
    decreases |parts|, |parts[0]|
  {
    if |parts| == 1 {
      SplitPlain(parts[0], cs);
    } else if |parts[0]| == 0 {
      var j := Join(parts, [c]);
      assert j == [c] + Join(parts[1..], [c]);
      assert j[1..] == Join(parts[1..], [c]);
      SplitJoin(parts[1..], c, cs);
      assert parts == [""] + parts[1..];
    } else {
      var p0 := parts[0];
      var shorter := [p0[1..]] + parts[1..];
      assert forall i :: 0 <= i < |shorter| ==> NoneIn(shorter[i], cs) by {
        forall i | 0 <= i < |shorter|
          ensures NoneIn(shorter[i], cs)
        {
          if i > 0 { assert shorter[i] == parts[i]; }
        }
      }
      SplitJoin(shorter, c, cs);
      var j := Join(parts, [c]);
      assert j == [p0[0]] + Join(shorter, [c]);
      assert j[1..] == Join(shorter, [c]);
      assert j[0] == p0[0] && p0[0] !in cs;
      assert p0 == [p0[0]] + p0[1..];
    }
  }

  /** A text without the separator splits into itself alone. */
  lemma {:induction false} SplitPlain(s: string, cs: set<char>)
    requires NoneIn(s, cs)
    ensures SplitAny(s, cs) == [s]
    decreases |s|
  {
    if |s| > 0 {
      SplitPlain(s[1..], cs);
      assert s == [s[0]] + s[1..];
    }
  }
}

=== FILE: tables.dfy ===
/** Case-insensitive dictionaries built with `Dictionary.Add`, as the
    primary-data loader and the configuration reader both build them. */
module Tables {
  import opened Outcomes
  import opened Strings

  /** A case-insensitive dictionary, stored under the folded key. */
  type Table = map<string, string>

  /** The table built so far, and the key whose second occurrence made
      `Dictionary.Add` throw and stopped the building. */
  datatype Loaded = Loaded(table: Table, duplicate: Option<string>)

  /** One `key: value` pair as the file spells it. */
  datatype Entry = Entry(key: string, value: string)

  /** The `foreach` over the entries, adding each to `table`; the first key
      already present ends the loop with the table as it stands. */
  function AddAll(table: Table, entries: seq<Entry>): (r: Loaded)
    ensures table.Keys <= r.table.Keys
    ensures forall k :: k in table ==> r.table[k] == table[k]
    decreases |entries|
  {
    if |entries| == 0 then Loaded(table, None)
    else
      var key := Fold(entries[0].key);
      if key in table then Loaded(table, Some(entries[0].key))
      else AddAll(table[key := entries[0].value], entries[1..])
  }

  /** Every key the loading adds comes from one of the entries, with that
      entry's value. */
  lemma {:induction false} AddAllFrom(table: Table, entries: seq<Entry>, k: string)
    requires k in AddAll(table, entries).table && k !in table
    ensures exists e :: e in entries && Fold(e.key) == k && AddAll(table, entries).table[k] == e.value
    decreases |entries|
  {
    var key := Fold(entries[0].key);
    var next := table[key := entries[0].value];
    if k != key {
      AddAllFrom(next, entries[1..], k);
      var e :| e in entries[1..] && Fold(e.key) == k && AddAll(next, entries[1..]).table[k] == e.value;
      assert e in entries;
    }
  }

  /** The folded keys of the entries are pairwise different. */
  predicate DistinctKeys(entries: seq<Entry>) {
    forall i, j :: 0 <= i < j < |entries| ==> Fold(entries[i].key) != Fold(entries[j].key)
  }

  /** The first `n` entries are in `t`, each under its folded key. */
  predicate Holds(t: Table, entries: seq<Entry>, n: nat)
    requires n <= |entries|
  {
    forall i :: 0 <= i < n ==> Fold(entries[i].key) in t && t[Fold(entries[i].key)] == entries[i].value
  }

  /** None of the first `n` keys is in `t`. */
  predicate Fresh(t: Table, entries: seq<Entry>, n: nat)
    requires n <= |entries|
  {
    forall i :: 0 <= i < n ==> Fold(entries[i].key) !in t
  }

  lemma HoldsCons(t: Table, entries: seq<Entry>, n: nat)
    requires 0 < n <= |entries|
    requires Fold(entries[0].key) in t && t[Fold(entries[0].key)] == entries[0].value
    requires Holds(t, entries[1..], n - 1)
    ensures Holds(t, entries, n)
  {
    forall i | 0 < i < n
      ensures Fold(entries[i].key) in t && t[Fold(entries[i].key)] == entries[i].value
    {
      assert entries[i] == entries[1..][i - 1];
    }
  }

  /** Distinct keys stay distinct without the first entry, and differ from it. */
  lemma DistinctTail(entries: seq<Entry>, n: nat)
    requires 0 < n <= |entries| && DistinctKeys(entries[..n])
    ensures DistinctKeys(entries[1..][..n - 1])
    ensures forall i :: 0 < i < n ==> Fold(entries[i].key) != Fold(entries[0].key)
  {
    var front := entries[1..][..n - 1];
    forall i, j | 0 <= i < j < |front|
      ensures Fold(front[i].key) != Fold(front[j].key)
    {
      assert front[i] == entries[..n][i + 1];
      assert front[j] == entries[..n][j + 1];
    }
    forall i | 0 < i < n
      ensures Fold(entries[i].key) != Fold(entries[0].key)
    {
      assert entries[..n][0] == entries[0] && entries[..n][i] == entries[i];
    }
  }

  /** A first entry whose key differs from all the others' keeps them distinct. */
  lemma DistinctCons(entries: seq<Entry>)
    requires |entries| > 0 && DistinctKeys(entries[1..])
    requires forall i :: 0 < i < |entries| ==> Fold(entries[i].key) != Fold(entries[0].key)
    ensures DistinctKeys(entries)
  {
    forall i, j | 0 <= i < j < |entries|
      ensures Fold(entries[i].key) != Fold(entries[j].key)
    {
      if i > 0 {
        assert entries[i] == entries[1..][i - 1] && entries[j] == entries[1..][j - 1];
      }
    }
  }

  /** Keys fresh for a table and distinct from a new key are fresh for the
      table with that key added. */
  lemma FreshTail(table: Table, entries: seq<Entry>, n: nat)
    requires 0 < n <= |entries| && Fresh(table, entries, n)
    requires forall i :: 0 < i < n ==> Fold(entries[i].key) != Fold(entries[0].key)
    ensures Fresh(table[Fold(entries[0].key) := entries[0].value], entries[1..], n - 1)
  {
    forall i | 0 <= i < n - 1
      ensures Fold(entries[1..][i].key) !in table[Fold(entries[0].key) := entries[0].value]
    {
      assert entries[1..][i] == entries[i + 1];
    }
  }

  /** Without a repeated key the loading runs to the end, and every entry
      can be looked up under its key, whatever case it is asked in. */
  lemma {:induction false} AddAllComplete(table: Table, entries: seq<Entry>)
    requires DistinctKeys(entries) && Fresh(table, entries, |entries|)
    ensures AddAll(table, entries).duplicate.None?
    ensures Holds(AddAll(table, entries).table, entries, |entries|)
    decreases |entries|
  {
    if |entries| > 0 {
      var next := table[Fold(entries[0].key) := entries[0].value];
      var rest := entries[1..];
      assert entries[..|entries|] == entries;
      DistinctTail(entries, |entries|);
      assert rest[..|rest|] == rest;
      FreshTail(table, entries, |entries|);
      AddAllComplete(next, rest);
      HoldsCons(AddAll(next, rest).table, entries, |entries|);
    }
  }

  /** The step `AddAllStops` takes: its conditions hold again one entry on. */
  lemma StopsStep(table: Table, entries: seq<Entry>, n: nat)
    requires 0 < n < |entries| && DistinctKeys(entries[..n]) && Fresh(table, entries, n)
    requires Fold(entries[n].key) in table ||
             exists i :: 0 <= i < n && Fold(entries[i].key) == Fold(entries[n].key)
    ensures DistinctKeys(entries[1..][..n - 1])
    ensures Fresh(table[Fold(entries[0].key) := entries[0].value], entries[1..], n - 1)
    ensures Fold(entries[1..][n - 1].key) in table[Fold(entries[0].key) := entries[0].value] ||
            exists i :: 0 <= i < n - 1 && Fold(entries[1..][i].key) == Fold(entries[1..][n - 1].key)
  {
    DistinctTail(entries, n);
    FreshTail(table, entries, n);
    var rest := entries[1..];
    var k := Fold(entries[n].key);
    assert rest[n - 1] == entries[n];
    if k !in table && k != Fold(entries[0].key) {
      var i :| 0 <= i < n && Fold(entries[i].key) == k;
      assert rest[i - 1] == entries[i];
    }
  }

  /** A repeated key stops the loading at its second occurrence: the entries
      before it are all in the table, and it is the key reported. */
  lemma {:induction false} AddAllStops(table: Table, entries: seq<Entry>, n: nat)
    requires n < |entries| && DistinctKeys(entries[..n]) && Fresh(table, entries, n)
    requires Fold(entries[n].key) in table ||
             exists i :: 0 <= i < n && Fold(entries[i].key) == Fold(entries[n].key)
    ensures AddAll(table, entries).duplicate == Some(entries[n].key)
    ensures Holds(AddAll(table, entries).table, entries, n)
    decreases n
  {
    if n > 0 {
      var next := table[Fold(entries[0].key) := entries[0].value];
      var rest := entries[1..];
      StopsStep(table, entries, n);
      AddAllStops(next, rest, n - 1);
      assert rest[n - 1] == entries[n];
      HoldsCons(AddAll(next, rest).table, entries, n);
    }
  }

  /** Building runs to the end exactly when no key repeats, neither within
      the entries nor against the table it starts from. */
  lemma {:induction false} AddAllNoDuplicate(table: Table, entries: seq<Entry>)
    requires AddAll(table, entries).duplicate.None?
    ensures DistinctKeys(entries) && Fresh(table, entries, |entries|)
    decreases |entries|
  {
    if |entries| > 0 {
      var key := Fold(entries[0].key);
      var next := table[key := entries[0].value];
      var rest := entries[1..];
      AddAllNoDuplicate(next, rest);
      forall i | 0 < i < |entries|
        ensures Fold(entries[i].key) != key && Fold(entries[i].key) !in table
      {
        assert entries[i] == rest[i - 1];
      }
      DistinctCons(entries);
    }
  }

  /** The value stored for `key`, asked without regard to case. */
  function Lookup(table: Table, key: string): (r: Option<string>)
    ensures r.Some? <==> Fold(key) in table
    ensures r.Some? ==> r.value == table[Fold(key)]
  {
    if Fold(key) in table then Some(table[Fold(key)]) else None
  }

  /** Two spellings of a key that differ only in letter case find the same value. */
  lemma LookupIgnoresCase(table: Table, a: string, b: string)
    requires SameText(a, b)
    ensures Lookup(table, a) == Lookup(table, b)
  {
  }

}
